=== FILE: README.md ===
# AI-Counsellor: a Dafny model of its core rules

The repository holds two applications in one tree. This project models the
logic of both and proves properties of it.

The first is a Django social site:
- the direct-messages client, with its call-marker decoder, thread
  selection, reaction bubbles and input guards;
- the public-profile client, with the optimistic like, the comment tree, the
  lightbox poll gate and the reply state;
- the REST rules behind both: likes, reactions, direct threads, comment
  deletion, user search and the Google sign-in username;
- the password validator;
- the message-encryption wrapper.

The second is a FastAPI study-abroad counsellor:
- salted password hashing and access-token claims;
- sign-up, log-in and current-user lookup;
- the profile endpoints and the stage machine;
- the university filter and the shortlist endpoints;
- the chat gate and the dashboard summary;
- the assistant's reply post-processing and its action executor;
- the onboarding wizard page.

Every operation is a pure function over immutable values. Examples are
message lists, like and reaction sets, conversation lists, account records
and shortlist rows. Whatever the code gets from outside becomes a parameter:
- the HTTP result of a fetch;
- the clock;
- a random salt;
- the model's generated text;
- an abstract SHA-256, cipher or JSON codec, with the axioms the proofs rely
  on stated as preconditions.

Modules, one per file:
- `Wrappers`, `Strings`: `Option`/`Result`, and JavaScript/Python string
  behaviour (`strip`, `split`, Python slices, `parseInt`, `toLowerCase`).
- `DirectMessageTypes`, `CallSignals`, `DirectMessagesClient`: the DM page.
- `ProfileClient`: the public-profile page.
- `SocialApi`: the Django views.
- `ClientServer`: lemmas that put a client rule next to the server rule it
  talks to.
- `PasswordPolicy`, `MessageEncryption`.
- `CounsellorModels`, `CounsellorSecurity`, `CounsellorAuth`,
  `CounsellorProfiles`, `CounsellorUniversities`, `CounsellorAi`,
  `CounsellorChat`: the counsellor backend.
- `CounsellorJourney`: every request an account can make, as one transition
  system, and what holds along every run of it.
- `OnboardingWizard`: the onboarding page.

A user has at most one reaction per direct message: the reaction view
deletes all of the user's reactions on that message before adding the new
one (api/views.py:965-969). `SocialApi.ReactionsKeepOnePerUser` states this.
`SocialApi.AddThenRemoveLosesEarlierEmoji` shows a consequence: adding an
emoji and removing it again does not bring back an earlier one.

## Model

| member | source | states |
|---|---|---|
| CallSignals.SignalOf | frontend/js/direct_messages.js:406-417 | a message is a call start iff its text contains a start marker; it is an end iff it contains an end marker and no start marker, so a message with both counts only as a start |
| CallSignals.Step | frontend/js/direct_messages.js:406-417 | a start pushes the message id; an end pops the most recent open start and marks it ended; an end with nothing open changes nothing |
| CallSignals.ScanSnoc | frontend/js/direct_messages.js:406-417 | scanning oldest first: the state after one more message is one step from the state before |
| CallSignals.PairingIsBracketMatching | frontend/js/direct_messages.js:406-417 | with unique non-zero ids, a start is marked ended iff a later end closes it as a closing bracket closes its opening one, and otherwise it is still open |
| CallSignals.EndClosesMostRecentStart | frontend/js/direct_messages.js:410-416 | start a, start b, end: b is ended and a stays open (LIFO pairing) |
| CallSignals.LaterStartStaysLive | frontend/js/direct_messages.js:406-417 | start a, end, start c: a is ended and c stays joinable |
| CallSignals.UnmatchedEndIsIgnored | frontend/js/direct_messages.js:410-416 | an end with no open start marks nothing |
| CallSignals.MarkerSignals | frontend/js/direct_messages.js:406-421 | the messages the call buttons send decode as starts, and both end texts decode as ends |
| CallSignals.BothMarkersPushedButHidden | frontend/js/direct_messages.js:406-421 | a message holding a start and an end marker is pushed as a start yet removed from the rendered list |
| CallSignals.Visible | frontend/js/direct_messages.js:419-421 | the rendered list holds exactly the messages with no end marker |
| CallSignals.VisibleAppend | frontend/js/direct_messages.js:419-421 | filtering keeps order: it distributes over concatenation |
| CallSignals.RenderItem | frontend/js/direct_messages.js:447-451 | a card is shown iff the message is a start; it is disabled iff its id was ended, is a voice call iff the text contains "voice", and otherwise carries the selected thread |
| CallSignals.RenderItems | frontend/js/direct_messages.js:395-451 | one item per visible message, in order, each drawn by `RenderItem`: a card iff the message holds the start marker, ended iff the scan of the whole list ended it, voice iff the text mentions "voice", and an open card joins the selected thread |
| DirectMessagesClient.Persist | frontend/js/direct_messages.js:106-112 | a falsy selection removes the key; otherwise the stored text parses back to the id |
| DirectMessagesClient.LoadSelection | frontend/js/direct_messages.js:96-104 | a missing or empty stored value loads as no selection; otherwise the value is read as a JavaScript number |
| DirectMessagesClient.PersistLoadRoundTrip | frontend/js/direct_messages.js:96-112 | loading after persisting a non-zero id gives that id; persisting null or 0 loads as no selection |
| DirectMessagesClient.NonNumericLoadsNothing | frontend/js/direct_messages.js:96-104 | a stored value that is not a number loads as no selection |
| DirectMessagesClient.BlankStoredValueLoadsZero | frontend/js/direct_messages.js:96-104 | a blank stored value loads as 0, which is falsy |
| DirectMessagesClient.FindThread | frontend/js/direct_messages.js:294-295 | finds a listed thread with the id, and finds none iff no thread has it |
| DirectMessagesClient.LoadThreads | frontend/js/direct_messages.js:283-309 | a failed fetch keeps the selection, shows the inbox error and leaves the composer as it was; a vanished selection with an empty list is cleared with its key, and no selection with an empty list stays; with a non-empty list, no selection or a vanished one falls back to the first thread, whose peer is shown and whose id is stored, and its messages load iff its id is non-zero; a listed selection stays; after a successful fetch the composer is enabled iff a thread is selected |
| DirectMessagesClient.LoadThreadsKeepsSync | frontend/js/direct_messages.js:283-309 | the selection and the stored key stay in agreement after reconciling |
| DirectMessagesClient.LoadThreadsSelectsListed | frontend/js/direct_messages.js:283-309 | after a successful fetch the selection is empty or names a listed thread |
| DirectMessagesClient.LoadThreadsIdempotent | frontend/js/direct_messages.js:283-309 | reconciling again with the same list changes neither the selection, nor its stored key, nor the composer |
| DirectMessagesClient.ClickThread | frontend/js/direct_messages.js:273-279 | a click selects and persists the thread, then reconciles against the refreshed list; if that fetch fails the composer stays as it was |
| DirectMessagesClient.RenderMessages | frontend/js/direct_messages.js:395-404 | while hovering the pane is untouched; an absent or empty list shows "No messages yet"; otherwise one item per visible message, in order, each drawn by `RenderItem` with the ended ids from the scan of the whole list |
| DirectMessagesClient.LoadMessages | frontend/js/direct_messages.js:580-591 | no selection does nothing; a 403 shows "not allowed"; another failure keeps the pane; a success renders the list |
| DirectMessagesClient.HoverFreezesPane | frontend/js/direct_messages.js:397 | a poll while hovering never changes the pane |
| DirectMessagesClient.BubbleClick | frontend/js/direct_messages.js:541-552 | a bubble click asks for removal iff one of that emoji's reactors is the viewer, and for an add otherwise |
| DirectMessagesClient.SendMessage | frontend/js/direct_messages.js:593-594 | a request goes out iff a thread is selected and the text is non-empty |
| DirectMessagesClient.Submit | frontend/js/direct_messages.js:628-635 | a blank input sends nothing and is kept; otherwise the input is cleared and its trimmed text is sent |
| DirectMessagesClient.SubmittedTextIsTrimmed | frontend/js/direct_messages.js:628-635 | something is sent iff a thread is selected and the input has a non-space character, and what is sent is trimmed and non-empty |
| DirectMessagesClient.StartCall | frontend/js/direct_messages.js:121-153 | a message is sent iff a thread is selected and the call manager started the call, and it is the voice or video call-start marker sent to the selected thread |
| DirectMessagesClient.EndCall | frontend/js/direct_messages.js:156-160 | a message is sent iff a thread is selected, and it is the call-ended marker sent to that thread |
| DirectMessagesClient.CallMessagesDecode | frontend/js/direct_messages.js:121-160 | what the call buttons send is decoded by the renderer as a start and an end |
| DirectMessagesClient.PerformUserSearch | frontend/js/direct_messages.js:652-657 | a trimmed query shorter than 2 UTF-16 code units hides the results; otherwise the trimmed query is searched |
| Strings.Utf16Length | frontend/js/direct_messages.js:653 | JavaScript's `length` is the number of characters plus the number of characters outside the Basic Multilingual Plane, so between the count and twice it, and equal to the count iff there is no such character |
| ProfileClient.UpdateLikeUI | frontend/js/public_profile.js:247-257 | the button is marked liked iff liked, and its text is the count followed by " x Aura" |
| ProfileClient.ShownCount | frontend/js/public_profile.js:409 | the count read back is `parseInt` of the text, or 0 when that is not a number |
| ProfileClient.LikeTextRoundTrip | frontend/js/public_profile.js:247-257 | reading back what `updateLikeUI` wrote gives the same liked flag and count |
| ProfileClient.ClickLike | frontend/js/public_profile.js:401-425 | without a token nothing changes; otherwise the display flips with the count moved by one, then shows the server's answer, or the pre-click state when the request fails |
| ProfileClient.ClickFlipsAndRollsBack | frontend/js/public_profile.js:408-423 | from any state drawn by `updateLikeUI`, a failed click shows the flipped state and then exactly the state before the click |
| ProfileClient.RollbackDuringLoading | frontend/js/public_profile.js:203-211 | a click on the loading text rolls back to "0 x Aura" rather than to the loading text |
| ProfileClient.RenderComment | frontend/js/public_profile.js:266-320 | a node keeps the comment's id, author and text; its picture is the avatar image when the avatar URL is non-empty, else the author's upper-cased initial; it has a delete button iff the viewer is signed in and is the author or the profile owner; it has a reply button iff signed in; its replies are rendered nested |
| ProfileClient.PictureOf | frontend/js/public_profile.js:292-295 | an image iff the avatar URL is non-empty; otherwise the username's first letter, upper-cased |
| ProfileClient.RenderReplies | frontend/js/public_profile.js:311-316 | each reply is rendered as a nested node, in order |
| ProfileClient.RenderKeepsOrder | frontend/js/public_profile.js:266-320 | the tree's comment ids appear in the rendered nodes in the same order |
| ProfileClient.RenderAllKeepsOrder | frontend/js/public_profile.js:311-316 | the same for a list of comments |
| ProfileClient.RepliesAreNested | frontend/js/public_profile.js:286 | every reply at any depth is rendered as a nested item |
| ProfileClient.SignedOutSeesNoDelete | frontend/js/public_profile.js:267-272 | a signed-out viewer sees no delete button anywhere in the tree |
| ProfileClient.OwnerSeesDeleteEverywhere | frontend/js/public_profile.js:267-272 | the profile owner sees a delete button on every comment and reply |
| ProfileClient.BuildComments | frontend/js/public_profile.js:322-334 | an empty list shows the placeholder; otherwise one top-level node per comment, in order |
| ProfileClient.RenderComments | frontend/js/public_profile.js:336-338 | the list is replaced iff the new markup differs from the current one |
| ProfileClient.RenderCommentsIdempotent | frontend/js/public_profile.js:336-338 | rendering the same comments again replaces nothing |
| ProfileClient.OpenPhoto | frontend/js/public_profile.js:487-519 | an empty image source does nothing; otherwise the lightbox opens and, with a photo id, polling starts; reply state and input are kept |
| ProfileClient.CloseLightbox | frontend/js/public_profile.js:524-533 | closing clears the photo id and stops polling, and leaves the reply state and input alone |
| ProfileClient.ClosedNeverPolls | frontend/js/public_profile.js:507-515 | after closing, a poll tick never reloads |
| ProfileClient.PendingReplyOutlivesClose | frontend/js/public_profile.js:524-533 | a reply started before closing still blocks polling after the lightbox is opened again |
| ProfileClient.StartReply | frontend/js/public_profile.js:362-371 | starting a reply records its target; the lightbox, its photo, the typed text and the polling are unchanged |
| ProfileClient.PressEscape | frontend/js/public_profile.js:433-440 | Escape in the comment box cancels an active (truthy) reply and otherwise keeps the reply target; the typed text is kept; an open lightbox is closed, its photo cleared and its polling stopped, and a closed one is left as it was |
| ProfileClient.SubmitComment | frontend/js/public_profile.js:444-456 | a post goes out iff the trimmed input is non-empty, a photo is open and there is a token; it carries the trimmed text and a parent id iff a reply is active |
| ProfileClient.CommentPosted | frontend/js/public_profile.js:465-471 | a successful post clears the input and the reply state |
| ProfileClient.PostResumesPolling | frontend/js/public_profile.js:465-471 | after a post, polling reloads again iff the lightbox is open on a photo |
| ProfileClient.ReplyPausesPolling | frontend/js/public_profile.js:507-515 | an active reply stops poll reloads, and Escape cancels it |
| SocialApi.LikeGet | api/views.py:456-471 | an unknown photo gives 404; otherwise the count of likes, and liked iff the viewer is signed in and likes it |
| SocialApi.LikePost | api/views.py:474-489 | an unknown photo gives 404; otherwise the user's like flips and the new flag and count are returned |
| SocialApi.LikePostMovesCountByOne | api/views.py:474-489 | a toggle moves the count up by one when liking and down by one when unliking |
| SocialApi.LikeToggleTwice | api/views.py:474-489 | toggling twice restores the like set |
| SocialApi.ReactionEmoji | api/views.py:951-963 | an unknown message gives 404, a non-participant 403; then a `null` emoji raises (500), a missing or blank one gives 400, and any other is used stripped |
| SocialApi.ReactPost | api/views.py:960-981 | after adding, the user's only reaction on the message is the given emoji, and every other row is unchanged |
| SocialApi.ReactDelete | api/views.py:983-996 | only rows matching message, user and emoji are removed, and `deleted` is reported iff one was |
| SocialApi.ReactionsKeepOnePerUser | api/views.py:965-969 | adding and removing keep at most one reaction per user per message |
| SocialApi.AddThenRemoveRestoresIff | api/views.py:960-996 | adding then removing an emoji restores the rows iff the user had no reaction on that message before |
| SocialApi.AddThenRemoveLosesEarlierEmoji | api/views.py:965-969 | a user's earlier emoji is gone after adding and removing another one |
| SocialApi.SortByRecency | api/views.py:837-846 | the ordering is a permutation of the input, newest first |
| SocialApi.ThreadList | api/views.py:837-846 | the list is a permutation of the requester's two-person conversations (each as often as stored), newest first |
| SocialApi.NamedIgnoringCase | api/views.py:858-861 | exactly the users whose username equals the name ignoring case |
| SocialApi.NewestWith | api/views.py:866-877 | the most recent conversation with exactly that pair, or none iff there is none |
| SocialApi.GetOrCreate | api/views.py:866-886 | an existing conversation of the pair is returned and nothing is created; otherwise a new one with exactly the pair is added |
| SocialApi.CreateThread | api/views.py:853-886 | a truthy non-string name gives 500 since it has no `strip`; a missing, falsy or blank name gives 400, an unknown name 404, a name matching several users ignoring case 500, and one's own name 400; otherwise the pair's thread is returned or created |
| SocialApi.CreateThreadIdempotent | api/views.py:853-886 | asking again for the same user returns the same thread and creates nothing |
| SocialApi.CreatedThreadIsListed | api/views.py:837-886 | the returned thread appears in the requester's thread list |
| SocialApi.DeleteComment | api/views.py:536-545 | deleting succeeds iff the requester wrote the comment or owns the photo, and gives 403 otherwise; only that comment goes |
| SocialApi.SearchMatches | api/views.py:803-815 | exactly the other users whose lower-cased username contains the lower-cased query |
| SocialApi.SearchUsers | api/views.py:803-815 | a trimmed query shorter than 2 finds nobody; otherwise the first matches in table order, at most 10, each containing the query ignoring case and never the requester; with fewer than 10 matches, all of them |
| SocialApi.SearchUsersByQuery | api/views.py:803-808 | the search depends on the query only through its stripped text |
| SocialApi.GoogleUsername | api/views.py:580-586 | the chosen username is not taken ignoring case, and is the email's local part, or the local part followed by the smallest counter from 1 that is free |
| ClientServer.BubbleClickToggles | frontend/js/direct_messages.js:541-552 | when the bubbles show the server's rows, a click removes exactly the viewer's row with that emoji if present, and otherwise makes it the viewer's only reaction on the message, leaving other users' and other messages' rows alone |
| ClientServer.OptimisticLikeMatchesServer | frontend/js/public_profile.js:408-423 | the optimistic like display equals what the server then reports |
| ClientServer.DeleteButtonMatchesServer | frontend/js/public_profile.js:267-272 | the delete button is shown iff the server would allow the delete |
| ClientServer.SearchGuardAgrees | frontend/js/direct_messages.js:652-657 | a query the client hides would find nothing on the server, and one it sends is searched as typed after trimming; without characters outside the Basic Multilingual Plane the client hides exactly the queries the server refuses |
| ClientServer.AstralQuerySentButRefused | frontend/js/direct_messages.js:652-657 | a lone character outside the Basic Multilingual Plane is sent by the client and answered with nobody by the server |
| PasswordPolicy.Validate | core/validators.py:17-44 | under 8 characters is too short whatever else holds; then no upper case, then no digit, then no special character; accepted iff all four checks pass, and a reported error is a failed check |
| PasswordPolicy.ReportsFirstFailure | core/validators.py:17-44 | the error reported is the first failing check in the fixed order, and every earlier check passed |
| PasswordPolicy.UserIsIgnored | core/validators.py:17 | the user argument never changes the outcome |
| PasswordPolicy.ShortIsReportedFirst | core/validators.py:19-23 | "abc" is reported as too short |
| PasswordPolicy.StrongPasswordAccepted | core/validators.py:17-44 | "Abcdefg1!" is accepted |
| PasswordPolicy.LowerCaseOnlyRejected | core/validators.py:26-30 | "abcdefg1!" is reported as missing an upper-case letter |
| MessageEncryption.CleanKey | homepage/encryption.py:14-21 | the key is stripped of whitespace, then single quotes, then double quotes; a missing or empty result is an error |
| MessageEncryption.GetCipher | homepage/encryption.py:11-27 | a cipher exists iff the cleaned key is present and valid |
| MessageEncryption.Encrypt | homepage/encryption.py:30-47 | empty input comes back as is, a cipher failure gives back the plaintext, and otherwise the sealed text |
| MessageEncryption.Decrypt | homepage/encryption.py:50-69 | empty input comes back as is, and any failure gives back the input |
| MessageEncryption.DecryptOfEncrypt | homepage/encryption.py:30-69 | with a cipher whose open undoes its seal and whose tokens are never empty, decrypting an encryption gives back the plaintext, whatever the key |
| MessageEncryption.QuotedKeyIsCleaned | homepage/encryption.py:14-21 | a key in double or single quotes with blank padding cleans to the bare key |
| MessageEncryption.CleaningIsNotIdempotent | homepage/encryption.py:14-21 | a key quoted first in double and then in single quotes keeps its single quotes after one cleaning |
| CounsellorModels.StageNamed | ai-counsellor-mvp/backend/app/models/__init__.py:7-11 | a recognised name maps to the stage of that name |
| CounsellorModels.StageNamesRoundTrip | ai-counsellor-mvp/backend/app/models/__init__.py:7-11 | exactly four names are stages, and each stage's name maps back to it |
| CounsellorModels.NewAccount | ai-counsellor-mvp/backend/app/models/__init__.py:50-58 | a new account has onboarding not completed and stage onboarding |
| CounsellorModels.NewEntry | ai-counsellor-mvp/backend/app/models/__init__.py:80-87 | a new shortlist row is unlocked |
| CounsellorSecurity.HashPassword | ai-counsellor-mvp/backend/app/core/security.py:7-11 | the stored value is the 32-character salt, a `$`, then the digest of password followed by salt |
| CounsellorSecurity.VerifyPassword | ai-counsellor-mvp/backend/app/core/security.py:13-20 | a value that does not split into two parts on `$` never verifies; otherwise it verifies iff the digest of password and salt equals the stored digest |
| CounsellorSecurity.VerifyComparesDigests | ai-counsellor-mvp/backend/app/core/security.py:13-20 | for a `$`-free salt and digest, verification is digest equality |
| CounsellorSecurity.HashThenVerify | ai-counsellor-mvp/backend/app/core/security.py:7-20 | a password verifies against its own hash, and another verifies iff its digest with that salt is the same |
| CounsellorSecurity.TokenClaims | ai-counsellor-mvp/backend/app/core/security.py:22-28 | every claim is kept and `exp` is added: now plus the lifetime, or plus 15 minutes when it is missing or zero |
| CounsellorAuth.FindByEmail | ai-counsellor-mvp/backend/app/api/auth.py:29 | the first account with that email, or none iff none has it |
| CounsellorAuth.Signup | ai-counsellor-mvp/backend/app/api/auth.py:34-55 | a registered email gives 400 and changes nothing; otherwise exactly one account is added with the name, email and salted hash, onboarding pending and a fresh id |
| CounsellorAuth.SignupKeepsEmailsUnique | ai-counsellor-mvp/backend/app/models/__init__.py:55 | sign-up keeps emails unique |
| CounsellorAuth.Login | ai-counsellor-mvp/backend/app/api/auth.py:57-72 | 401 iff no account has the email or the password does not verify; otherwise claims `sub` = the email and `exp` = now plus the configured lifetime |
| CounsellorAuth.CurrentUser | ai-counsellor-mvp/backend/app/api/auth.py:15-32 | 401 for an undecodable token, a missing `sub` or an unknown email; a `sub` naming an account gives the first account with that email |
| CounsellorAuth.LoginThenCurrentUser | ai-counsellor-mvp/backend/app/api/auth.py:15-72 | the claims of a successful log-in identify the account that logged in |
| CounsellorAuth.SignupThenLogin | ai-counsellor-mvp/backend/app/api/auth.py:34-72 | right after signing up, the same password logs in, and another password logs in iff its digest collides |
| CounsellorProfiles.Stored | ai-counsellor-mvp/backend/app/api/users.py:24-31 | every field is stored as given, and the countries as their JSON encoding |
| CounsellorProfiles.CreateProfile | ai-counsellor-mvp/backend/app/api/users.py:10-41 | an existing profile gives 400 and changes nothing; otherwise the profile is added, other profiles stay, onboarding is completed and the stage becomes discovery |
| CounsellorProfiles.UpdateProfile | ai-counsellor-mvp/backend/app/api/users.py:43-65 | no profile gives 404; otherwise every field is overwritten and other profiles stay; the account is untouched |
| CounsellorProfiles.GetMe | ai-counsellor-mvp/backend/app/api/users.py:67-90 | the account's flag and stage are reported; the profile is present iff it exists, with the countries decoded, or left as stored when they do not decode |
| CounsellorProfiles.CreateThenMe | ai-counsellor-mvp/backend/app/api/users.py:10-90 | after creating a profile, `/me` shows onboarding completed, stage discovery and the countries as sent |
| CounsellorProfiles.UpdateThenMe | ai-counsellor-mvp/backend/app/api/users.py:43-90 | after an update, `/me` shows the new countries and the unchanged stage |
| CounsellorProfiles.ValidateProfile | ai-counsellor-mvp/backend/app/schemas/user.py:24-54 | the response validates iff the countries value is a list, and then carries that list; a text fails with 500 |
| CounsellorProfiles.CreateProfileAnswer | ai-counsellor-mvp/backend/app/api/users.py:10-41 | as written: an existing profile gives 400 and changes nothing; otherwise the profile is committed and onboarding completed, but the answer is 500 because the returned row's countries are JSON text |
| CounsellorProfiles.UpdateProfileAnswer | ai-counsellor-mvp/backend/app/api/users.py:43-65 | as written: no profile gives 404; otherwise the row is overwritten and committed, but the answer is 500 |
| CounsellorProfiles.CommittedProfileAnswersServerError | ai-counsellor-mvp/backend/app/api/users.py:10-65 | every successful create or update is stored and yet answered with 500 |
| CounsellorProfiles.DecodedAnswer | ai-counsellor-mvp/backend/app/api/users.py:71-79 | the stored countries decoded back into a list validate; text that does not decode gives 500 |
| CounsellorProfiles.CreateProfileAnswerIntended | ai-counsellor-mvp/backend/app/api/users.py:10-41 | corrected: the same state change, and with a sound JSON codec the answer is the new profile with the countries as submitted |
| CounsellorProfiles.UpdateProfileAnswerIntended | ai-counsellor-mvp/backend/app/api/users.py:43-65 | corrected: the same state change, and with a sound JSON codec the answer is the updated profile with the countries as submitted |
| CounsellorProfiles.CreateProfileOnce | ai-counsellor-mvp/backend/app/models/__init__.py:17 | a second create is refused, so an account has at most one profile |
| CounsellorUniversities.FilterUniversities | ai-counsellor-mvp/backend/app/api/universities.py:11-30 | exactly the rows passing every supplied filter (country, minimum cost, maximum cost, ranking band), in table order |
| CounsellorUniversities.ZeroCostIgnored | ai-counsellor-mvp/backend/app/api/universities.py:23-26 | a cost bound of 0 filters nothing, like a missing one |
| CounsellorUniversities.GetUniversity | ai-counsellor-mvp/backend/app/api/universities.py:32-37 | an unknown id gives 404; otherwise a row with that id |
| CounsellorUniversities.AddToShortlist | ai-counsellor-mvp/backend/app/api/universities.py:48-76 | a pair already listed gives 400; otherwise exactly one row is appended with the account, university, category and lock flag, and a fresh id |
| CounsellorUniversities.AddKeepsInvariants | ai-counsellor-mvp/backend/app/api/universities.py:54-61 | adding keeps one row per (account, university) and unique row ids |
| CounsellorUniversities.FindOwn | ai-counsellor-mvp/backend/app/api/universities.py:84-87 | finds the position of the caller's row with that id, or none iff the caller has no such row |
| CounsellorUniversities.StageAfterLock | ai-counsellor-mvp/backend/app/api/universities.py:97-104 | the stage becomes application iff it was application already or it was locking with a locked row; otherwise it is unchanged |
| CounsellorUniversities.LockUniversity | ai-counsellor-mvp/backend/app/api/universities.py:78-106 | a row missing or belonging to another account gives 404; otherwise only that row becomes locked, and locking becomes application while every other stage stays |
| CounsellorUniversities.LockKeepsInvariants | ai-counsellor-mvp/backend/app/api/universities.py:78-106 | locking keeps the shortlist invariants |
| CounsellorUniversities.RemoveFromShortlist | ai-counsellor-mvp/backend/app/api/universities.py:108-125 | a row missing or belonging to another account gives 404; otherwise exactly that row is removed |
| CounsellorUniversities.RemoveKeepsInvariants | ai-counsellor-mvp/backend/app/api/universities.py:108-125 | removing keeps the invariants, keeps every row with another id and adds nothing |
| CounsellorAi.SystemPrompt | ai-counsellor-mvp/backend/app/ai/counsellor.py:71-78 | the prompt is the base prompt, a blank line, then exactly the stage's advice, which is what remains after the base and the blank line |
| CounsellorAi.AdviceCoversStages | ai-counsellor-mvp/backend/app/ai/counsellor.py:71-78 | every stage's name has an advice entry and its prompt ends with exactly that advice; an unknown stage name adds nothing after the blank line |
| CounsellorAi.StripFence | ai-counsellor-mvp/backend/app/ai/counsellor.py:100-104 | the result is stripped and no longer than the stripped reply |
| CounsellorAi.UnfencedReplyKept | ai-counsellor-mvp/backend/app/ai/counsellor.py:100-104 | a reply not starting with a fence is just stripped |
| CounsellorAi.JsonFenceUnwrapped | ai-counsellor-mvp/backend/app/ai/counsellor.py:100-102 | a reply fenced with "```json" gives back exactly the body inside the fence |
| CounsellorAi.BareFenceUnwrapped | ai-counsellor-mvp/backend/app/ai/counsellor.py:103-104 | a reply fenced with a bare "```" gives back exactly the body, when the body does not itself start the "json" tag |
| CounsellorAi.BareFenceBranch | ai-counsellor-mvp/backend/app/ai/counsellor.py:103-104 | a reply starting with "```" but not "```json" is cut with the Python slice `[3:-3]` and stripped |
| CounsellorAi.ShortJsonFenceIsEmpty | ai-counsellor-mvp/backend/app/ai/counsellor.py:101-102 | a "```json" reply of at most 10 characters becomes empty under Python slice rules |
| CounsellorAi.ExecuteAction | ai-counsellor-mvp/backend/app/ai/counsellor.py:120-133 | a SHORTLIST action appends one unlocked row for the account with the payload's university; its category is "Target" when the key is missing, none when it is `null`, and the given one otherwise; any other action changes nothing; row ids stay unique |
| CounsellorAi.ExecuteActions | ai-counsellor-mvp/backend/app/ai/counsellor.py:120-133 | one row is appended per SHORTLIST action and the existing rows stay; row ids stay unique |
| CounsellorAi.ExecuteActionsWrites | ai-counsellor-mvp/backend/app/ai/counsellor.py:125-131 | the i-th appended row belongs to the account, is unlocked, and carries the i-th SHORTLIST action's university and stored category ("Target" when missing, none when `null`) |
| CounsellorAi.ActionsCanDuplicate | ai-counsellor-mvp/backend/app/ai/counsellor.py:120-133 | the executor does not check for an existing pair: one action can list a university twice where the shortlist endpoint would give 400 |
| CounsellorAi.GetResponse | ai-counsellor-mvp/backend/app/ai/counsellor.py:80-118 | no profile gives the "complete your profile" reply and touches nothing; the reply is an answer iff the model replied and its unfenced text parses, and then the actions run; any failure leaves the shortlist unchanged |
| CounsellorAi.NoProfileNoModelCall | ai-counsellor-mvp/backend/app/ai/counsellor.py:82-87 | without a profile the outcome does not depend on what the model would say |
| CounsellorChat.Chat | ai-counsellor-mvp/backend/app/api/counsellor.py:14-30 | 400 iff onboarding is not completed and the stage is onboarding; otherwise one assistant turn |
| CounsellorChat.CompletedFields | ai-counsellor-mvp/backend/app/api/counsellor.py:48-54 | between 0 and 4 fields count; 0 iff the GPA is empty and the three statuses are "Not Started"; 4 iff none is |
| CounsellorChat.StrengthMonotone | ai-counsellor-mvp/backend/app/api/counsellor.py:57-64 | more completed fields never give a weaker bucket, and full completion is strong |
| CounsellorChat.LockedWithinShortlist | ai-counsellor-mvp/backend/app/api/counsellor.py:66-71 | the locked count never exceeds the shortlist count |
| CounsellorChat.DashboardSummary | ai-counsellor-mvp/backend/app/api/counsellor.py:32-79 | no profile gives "Incomplete" with progress 0; with a profile, at most 4 of 12 fields count, so the strength is always "Needs Improvement"; the stage is the account's, and locked ≤ shortlisted |
| CounsellorJourney.StageEdges | ai-counsellor-mvp/backend/app/api/users.py:34-36 | a request either keeps the stage, moves it to discovery, or moves locking to application |
| CounsellorJourney.StepKeepsConsistent | ai-counsellor-mvp/backend/app/api/users.py:10-41 | every request keeps the stage, the onboarding flag and the existence of a profile in step |
| CounsellorJourney.RunKeepsConsistent | ai-counsellor-mvp/backend/app/api/users.py:10-41 | the same along any sequence of requests |
| CounsellorJourney.NeverPastDiscovery | ai-counsellor-mvp/backend/app/api/universities.py:102-104 | from sign-up no sequence of requests reaches locking or application, so the lock's stage advance never fires |
| CounsellorJourney.OpenChatHasProfile | ai-counsellor-mvp/backend/app/api/counsellor.py:21-28 | along any run from sign-up, an account let through the chat gate has a profile and never gets "complete your profile first" |
| CounsellorJourney.StepKeepsUniqueIds | ai-counsellor-mvp/backend/app/models/__init__.py:83 | every request keeps shortlist row ids unique |
| CounsellorJourney.StepKeepsOnePerPair | ai-counsellor-mvp/backend/app/api/universities.py:54-61 | every request other than a chat turn keeps one row per (account, university) |
| OnboardingWizard.NextStep | ai-counsellor-mvp/frontend/app/onboarding/page.js:37-39 | forward one step, except on step 4 where nothing changes; a step in 1..4 stays there |
| OnboardingWizard.PrevStep | ai-counsellor-mvp/frontend/app/onboarding/page.js:41-43 | back one step, except on step 1 where nothing changes; a step in 1..4 stays there |
| OnboardingWizard.StepStaysInRange | ai-counsellor-mvp/frontend/app/onboarding/page.js:7 | no sequence of button presses leaves steps 1..4 |
| OnboardingWizard.NextThenBack | ai-counsellor-mvp/frontend/app/onboarding/page.js:37-43 | forward then back returns to the step except from step 4, and back then forward returns except from step 1 |
| OnboardingWizard.InitialForm | ai-counsellor-mvp/frontend/app/onboarding/page.js:17-33 | every readiness status starts "Not Started", the years 2024 and 2025, the countries empty and the other fields blank |
| OnboardingWizard.HandleChange | ai-counsellor-mvp/frontend/app/onboarding/page.js:45-50 | only the named field changes |
| OnboardingWizard.ChangesCommute | ai-counsellor-mvp/frontend/app/onboarding/page.js:45-50 | changes to different fields commute, and a later change of a field overrides an earlier one |
| OnboardingWizard.ChangeYear | ai-counsellor-mvp/frontend/app/onboarding/page.js:122 | a year is stored as `parseInt` of its text, missing iff no digits follow the leading spaces and sign |
| OnboardingWizard.YearTextRoundTrip | ai-counsellor-mvp/frontend/app/onboarding/page.js:182 | choosing a year stores that year |
| OnboardingWizard.ToggleCountry | ai-counsellor-mvp/frontend/app/onboarding/page.js:209-213 | checking appends the country; unchecking removes every occurrence and keeps the rest |
| OnboardingWizard.CheckThenUncheck | ai-counsellor-mvp/frontend/app/onboarding/page.js:203-213 | a country is checked only while absent, so the list never repeats one, and unchecking restores the list |

## Left out

- Timers and asynchronous interleaving: the message and thread polling, the search debounce and the comment poll interval. Each is modelled as one tick or one event.
- DOM and HTML output: markup strings, CSS classes, the header, the emoji picker and scroll restoration. Rendered items are datatypes, and "the markup is identical" is equality of those values.
- Date and locale formatting: message times and relative times.
- Network and external services: `authFetch`/`fetch` results, whether the call manager started a call, the Gemini call, Google token checks, JWT encoding and decoding, `send_mail` and the S3 upload views. Their results are parameters, and a token that fails to decode is `None`.
- Randomness: `secrets.token_hex` and OTP generation. The salt is an input.
- Storage and infrastructure: the Django ORM and SQLAlchemy sessions, migrations, seed data and configuration. Tables are sequences, sets and maps, and a row id is one more than the largest existing id.
- Crash paths: api/counsellor.py uses `UserProfile` and `Shortlist` without importing them, and api/views.py:518 uses `serializers` without importing it. The intended logic is modelled.
- CounsellorAi.SystemPrompt: the base prompt's text, including its `json.loads` of the countries, is a parameter. An undecodable countries value, which would raise outside the `try`, is not modelled.
- CounsellorAi.GetResponse: the user's message is not modelled, since it only reaches the model's input. The JSON parse is an abstract function returning the action list, and a non-list `actions` value is not modelled.
- CounsellorAi.ExecuteActions: commits after each action are not modelled. An exception midway, which would leave earlier rows committed, is not modelled.
- DirectMessagesClient.JsNumber: JavaScript `Number` is modelled for integer text only; fractions, exponents and hex literals are not.
- Strings.Trim: whitespace is ASCII whitespace. Unicode spaces and case folding beyond ASCII are not modelled; in particular Python's `str.strip()` also removes the separators \x1c-\x1f and \x85, which the model keeps.
- ProfileClient.RenderComments: a comment node always carries the comment id, while the page writes the id into the markup only through the delete and reply buttons. For a viewer who sees neither button, two lists differing only in ids draw the same markup and the page skips the redraw, where the model replaces the pane.
- ProfileClient.RenderComment: the initial is upper-cased for ASCII letters only. An avatarless comment with an empty username, where the page's `toUpperCase` would throw and abandon the render, is drawn with no picture.
- SocialApi.ReactionEmoji: an emoji of a non-string JSON type raises like `null` and is modelled as `Null`.
- MessageEncryption.Encrypt: Fernet is an abstract cipher whose key check and seal/open are parameters.
- CounsellorChat.DashboardSummary: the float `strength_percentage` is compared exactly by cross-multiplying; `profile_completion` is not reported.
- CounsellorAuth.Signup: email normalisation and pydantic validation of the request body are not modelled.
- SocialApi.GoogleUsername: `create_user` and the rest of the sign-in view are not modelled; only the username loop is.

## Findings

| source | as written | input that shows it | evidently intended | confidence | as-written member | corrected member |
|---|---|---|---|---|---|---|
| ai-counsellor-mvp/backend/app/api/users.py:10-41 | `create_profile` returns the stored row under `response_model=UserProfileResponse`, whose `countries` is `List[str]`, while the row holds the `json.dumps` text | any first profile of an account, e.g. countries `["USA"]` stored as the text `["USA"]` | the new profile answered with its countries as a list, as `/me` decodes them | medium (pydantic rejects a string for a list field); not executed | CounsellorProfiles.CreateProfileAnswer | CounsellorProfiles.CreateProfileAnswerIntended |
| ai-counsellor-mvp/backend/app/api/users.py:43-65 | `update_profile` returns the overwritten row with the same JSON text in `countries` | any update of an existing profile | the updated profile answered with its countries as a list | medium (same validation); not executed | CounsellorProfiles.UpdateProfileAnswer | CounsellorProfiles.UpdateProfileAnswerIntended |

=== FILE: call_signals.dfy ===
/** In-band call signalling of the direct-message client: call starts and
    ends travel as ordinary messages carrying reserved marker texts, and
    every render derives the call-invite cards from the message list. */
module CallSignals {
  import opened Wrappers
  import opened Strings
  import opened DirectMessageTypes

  // ---------------------------------------------------------------------
  // Markers
  // ---------------------------------------------------------------------

  const VideoStartMarker: string := "\U{1F4DE} Started a video call"
  const VoiceStartMarker: string := "\U{1F4DE} Started a voice call"
  /** The older end marker, still honoured. */
  const VideoEndedMarker: string := "\U{1F3A5} Video call ended"
  /** The end marker the client sends today. */
  const CallEndedMarker: string := "\U{1F6AB} Call ended"

  predicate HasStartMarker(m: Message) {
    Contains(m.text, VideoStartMarker) || Contains(m.text, VoiceStartMarker)
  }

  predicate HasEndMarker(m: Message) {
    Contains(m.text, VideoEndedMarker) || Contains(m.text, CallEndedMarker)
  }

  /** How the pairing pass reads a message: a text with a start marker is a
      start even when it also carries an end marker. */
  datatype Signal = Start | End | Plain

  function SignalOf(m: Message): (s: Signal)
    ensures s == Start <==> HasStartMarker(m)
    ensures s == End <==> !HasStartMarker(m) && HasEndMarker(m)
  {
    if HasStartMarker(m) then Start else if HasEndMarker(m) then End else Plain
  }

  // ---------------------------------------------------------------------
  // The pairing pass
  // ---------------------------------------------------------------------

  /** The state of the pairing pass: the ids of still-open starts (most
      recent last) and the ids recorded as ended. */
  datatype CallScan = CallScan(open: seq<int>, ended: set<int>)

  /** One message of the pass: a start pushes its id; an end pops the most
      recent open id and records it as ended unless it is falsy (0); an end
      with nothing open changes nothing. */
  function Step(sc: CallScan, m: Message): (r: CallScan)
    ensures SignalOf(m) == Start ==> r.open == sc.open + [m.id] && r.ended == sc.ended
    ensures SignalOf(m) == End && |sc.open| > 0 ==>
              r.open == sc.open[..|sc.open| - 1]
              && r.ended == sc.ended + (if sc.open[|sc.open| - 1] != 0 then {sc.open[|sc.open| - 1]} else {})
    ensures SignalOf(m) == End && |sc.open| == 0 ==> r == sc
    ensures SignalOf(m) == Plain ==> r == sc
  {
    match SignalOf(m)
    case Start => CallScan(sc.open + [m.id], sc.ended)
    case End =>
      if |sc.open| == 0 then sc
      else
        var top := sc.open[|sc.open| - 1];
        CallScan(sc.open[..|sc.open| - 1], if top != 0 then sc.ended + {top} else sc.ended)
    case Plain => sc
  }

  /** The pass over the whole list, oldest first. */
  function Scan(msgs: seq<Message>): CallScan {
    if |msgs| == 0 then CallScan([], {})
    else Step(Scan(msgs[..|msgs| - 1]), msgs[|msgs| - 1])
  }

  lemma {:induction false} ScanSnoc(msgs: seq<Message>, m: Message)
    ensures Scan(msgs + [m]) == Step(Scan(msgs), m)
  {
    assert (msgs + [m])[..|msgs|] == msgs;
  }

  // ---------------------------------------------------------------------
  // Rendering
  // ---------------------------------------------------------------------

  /** The messages that are drawn: every message carrying an end marker is
      dropped, everything else keeps its order. */
  function Visible(msgs: seq<Message>): (r: seq<Message>)
    ensures |r| <= |msgs|
    ensures forall m :: m in r <==> m in msgs && !HasEndMarker(m)
  {
    if |msgs| == 0 then []
    else
      var m := msgs[|msgs| - 1];
      Visible(msgs[..|msgs| - 1]) + (if HasEndMarker(m) then [] else [m])
  }

  /** Filtering distributes over concatenation, so the relative order of
      the kept messages is that of the input. */
  lemma {:induction false} VisibleAppend(a: seq<Message>, b: seq<Message>)
    ensures Visible(a + b) == Visible(a) + Visible(b)
    decreases |b|
  {
    if |b| == 0 {
      assert a + b == a;
    } else {
      var b' := b[..|b| - 1];
      assert (a + b)[..|a + b| - 1] == a + b';
      VisibleAppend(a, b');
    }
  }

  /** A rendered entry: plain text, or a call-invite card. A card that is
      not ended carries the thread to join. */
  datatype Item =
    | TextItem(msg: Message)
    | CallCard(msg: Message, isVoice: bool, isEnded: bool, joinThread: Option<int>)

  function RenderItem(m: Message, ended: set<int>, selected: Option<int>): (it: Item)
    ensures it.msg == m
    ensures it.CallCard? <==> HasStartMarker(m)
    ensures it.CallCard? ==> (it.isEnded <==> m.id in ended)
    ensures it.CallCard? ==> (it.isVoice <==> Contains(m.text, "voice"))
    ensures it.CallCard? && !it.isEnded ==> it.joinThread == selected
  {
    if HasStartMarker(m) then
      var ended := m.id in ended;
      CallCard(m, Contains(m.text, "voice"), ended, if ended then None else selected)
    else TextItem(m)
  }

  function RenderEach(ms: seq<Message>, ended: set<int>, selected: Option<int>): (r: seq<Item>)
    ensures |r| == |ms|
    ensures forall k :: 0 <= k < |ms| ==> r[k] == RenderItem(ms[k], ended, selected)
  {
    if |ms| == 0 then [] else [RenderItem(ms[0], ended, selected)] + RenderEach(ms[1..], ended, selected)
  }

  /** The entries drawn for a non-empty list: the visible messages in order,
      each start message a card whose state comes from the pairing pass. */
  function RenderItems(msgs: seq<Message>, selected: Option<int>): (r: seq<Item>)
    ensures |r| == |Visible(msgs)|
    ensures forall k :: 0 <= k < |r| ==> r[k].msg == Visible(msgs)[k]
    ensures forall k :: 0 <= k < |r| && r[k].CallCard? ==>
              (r[k].isEnded <==> r[k].msg.id in Scan(msgs).ended)
    ensures forall k :: 0 <= k < |r| ==> r[k] == RenderItem(Visible(msgs)[k], Scan(msgs).ended, selected)
  {
    RenderEach(Visible(msgs), Scan(msgs).ended, selected)
  }

  // ---------------------------------------------------------------------
  // Pairing as bracket matching
  // ---------------------------------------------------------------------

  function SignalsOf(ms: seq<Message>): (ss: seq<Signal>)
    ensures |ss| == |ms|
    ensures forall i :: 0 <= i < |ms| ==> ss[i] == SignalOf(ms[i])
  {
    seq(|ms|, i requires 0 <= i < |ms| => SignalOf(ms[i]))
  }

  function Delta(s: Signal): int {
    match s
    case Start => 1
    case End => -1
    case Plain => 0
  }

  /** Starts minus ends over a stretch of signals. */
  function Net(ss: seq<Signal>): int {
    if |ss| == 0 then 0 else Net(ss[..|ss| - 1]) + Delta(ss[|ss| - 1])
  }

  /** Starts minus ends strictly after position `i`, up to and including
      position `j`. */
  function NetAfter(ss: seq<Signal>, i: nat, j: nat): int
    requires i < j < |ss|
  {
    Net(ss[i + 1..j + 1])
  }

  /** Starts minus ends strictly after position `i`, to the end. */
  function NetFrom(ss: seq<Signal>, i: nat): int
    requires i < |ss|
  {
    Net(ss[i + 1..])
  }

  /** The start at position `i` is closed when, reading on from it, ends
      outnumber starts at some point, as a closing bracket closes the
      opening bracket it matches. */
  ghost predicate ClosedBy(ss: seq<Signal>, i: nat) {
    exists j :: i < j < |ss| && NetAfter(ss, i, j) < 0
  }

  /** The pairing pass again, with positions in place of ids and without
      the falsy-id guard. */
  ghost function StepPos(sc: CallScan, s: Signal, pos: int): CallScan {
    match s
    case Start => CallScan(sc.open + [pos], sc.ended)
    case End =>
      if |sc.open| == 0 then sc
      else CallScan(sc.open[..|sc.open| - 1], sc.ended + {sc.open[|sc.open| - 1]})
    case Plain => sc
  }

  ghost function ScanPos(ss: seq<Signal>): CallScan {
    if |ss| == 0 then CallScan([], {})
    else StepPos(ScanPos(ss[..|ss| - 1]), ss[|ss| - 1], |ss| - 1)
  }

  /** The stack holds starts, in increasing position. */
  ghost predicate StackWellFormed(ss: seq<Signal>, open: seq<int>) {
    && (forall p :: 0 <= p < |open| ==> 0 <= open[p] < |ss| && ss[open[p]] == Start)
    && (forall p, q :: 0 <= p < q < |open| ==> open[p] < open[q])
  }

  /** Each stacked start has as many starts-minus-ends after it as there are
      stacked starts above it, and none of them is closed. */
  ghost predicate StackHeights(ss: seq<Signal>, open: seq<int>)
    requires StackWellFormed(ss, open)
  {
    && (forall p :: 0 <= p < |open| ==> NetFrom(ss, open[p]) == |open| - 1 - p)
    && (forall p :: 0 <= p < |open| ==> !ClosedBy(ss, open[p]))
  }

  ghost predicate EndedAreClosed(ss: seq<Signal>, ended: set<int>) {
    forall i :: i in ended ==> 0 <= i < |ss| && ss[i] == Start && ClosedBy(ss, i)
  }

  ghost predicate StartsAccounted(ss: seq<Signal>, sc: CallScan) {
    forall i :: 0 <= i < |ss| && ss[i] == Start ==> i in sc.ended || i in sc.open
  }

  /** What the positional pass keeps true. */
  ghost predicate PosInv(ss: seq<Signal>, sc: CallScan) {
    && StackWellFormed(ss, sc.open)
    && StackHeights(ss, sc.open)
    && EndedAreClosed(ss, sc.ended)
    && StartsAccounted(ss, sc)
  }

  lemma {:induction false} NetSnoc(ss: seq<Signal>, x: Signal)
    ensures Net(ss + [x]) == Net(ss) + Delta(x)
  {
    assert (ss + [x])[..|ss|] == ss;
  }

  /** Extending the list by one signal extends every stretch that runs to
      its end by that signal. */
  lemma {:induction false} NetFromSnoc(ss: seq<Signal>, x: Signal, i: nat)
    requires i < |ss|
    ensures NetFrom(ss + [x], i) == NetFrom(ss, i) + Delta(x)
  {
    assert (ss + [x])[i + 1..] == ss[i + 1..] + [x];
    NetSnoc(ss[i + 1..], x);
  }

  lemma {:induction false} ClosedBySnoc(ss: seq<Signal>, x: Signal, i: nat)
    requires i < |ss|
    ensures ClosedBy(ss + [x], i) <==> ClosedBy(ss, i) || NetFrom(ss, i) + Delta(x) < 0
  {
    var ss' := ss + [x];
    forall j | i < j < |ss|
      ensures NetAfter(ss', i, j) == NetAfter(ss, i, j)
    {
      assert ss'[i + 1..j + 1] == ss[i + 1..j + 1];
    }
    NetFromSnoc(ss, x, i);
    assert ss'[i + 1..|ss| + 1] == ss'[i + 1..];
    if ClosedBy(ss', i) {
      var j :| i < j < |ss'| && NetAfter(ss', i, j) < 0;
      if j < |ss| {
        assert NetAfter(ss, i, j) < 0;
      }
    }
    if ClosedBy(ss, i) {
      var j :| i < j < |ss| && NetAfter(ss, i, j) < 0;
      assert NetAfter(ss', i, j) < 0;
    }
    if NetFrom(ss, i) + Delta(x) < 0 {
      assert NetAfter(ss', i, |ss|) < 0;
    }
  }

  /** What one more signal does to every earlier position. */
  lemma {:induction false} Extend(ss: seq<Signal>, x: Signal)
    ensures forall i :: 0 <= i < |ss| ==> (ss + [x])[i] == ss[i]
    ensures forall i :: 0 <= i < |ss| ==> NetFrom(ss + [x], i) == NetFrom(ss, i) + Delta(x)
    ensures forall i :: 0 <= i < |ss| ==>
              (ClosedBy(ss + [x], i) <==> ClosedBy(ss, i) || NetFrom(ss, i) + Delta(x) < 0)
    ensures !ClosedBy(ss + [x], |ss|)
    ensures NetFrom(ss + [x], |ss|) == 0
  {
    forall i | 0 <= i < |ss|
      ensures NetFrom(ss + [x], i) == NetFrom(ss, i) + Delta(x)
      ensures ClosedBy(ss + [x], i) <==> ClosedBy(ss, i) || NetFrom(ss, i) + Delta(x) < 0
    {
      NetFromSnoc(ss, x, i);
      ClosedBySnoc(ss, x, i);
    }
    assert (ss + [x])[|ss| + 1..] == [];
  }

  lemma {:induction false} StartKeepsInv(ss: seq<Signal>, sc: CallScan)
    requires PosInv(ss, sc)
    ensures PosInv(ss + [Start], StepPos(sc, Start, |ss|))
  {
    var ss' := ss + [Start];
    var S := sc.open;
    var S' := S + [|ss|];
    Extend(ss, Start);
    assert StepPos(sc, Start, |ss|) == CallScan(S', sc.ended);
    assert StackWellFormed(ss', S') by {
      forall p | 0 <= p < |S'|
        ensures 0 <= S'[p] < |ss'| && ss'[S'[p]] == Start
      {
        if p < |S| {
          assert S'[p] == S[p];
        }
      }
    }
    forall p | 0 <= p < |S'|
      ensures NetFrom(ss', S'[p]) == |S'| - 1 - p
      ensures !ClosedBy(ss', S'[p])
    {
      if p < |S| {
        assert S'[p] == S[p];
      }
    }
    assert StackHeights(ss', S');
    assert EndedAreClosed(ss', sc.ended);
    assert StartsAccounted(ss', CallScan(S', sc.ended));
  }

  /** An end pops the top: the rest of the stack stays well formed and each
      remaining start drops one height. */
  lemma {:induction false} EndKeepsStack(ss: seq<Signal>, S: seq<int>)
    requires StackWellFormed(ss, S) && StackHeights(ss, S) && |S| > 0
    ensures StackWellFormed(ss + [End], S[..|S| - 1])
    ensures StackHeights(ss + [End], S[..|S| - 1])
  {
    var ss' := ss + [End];
    var S' := S[..|S| - 1];
    Extend(ss, End);
    assert StackWellFormed(ss', S') by {
      forall p | 0 <= p < |S'|
        ensures 0 <= S'[p] < |ss'| && ss'[S'[p]] == Start
      {
        assert S'[p] == S[p];
      }
    }
    forall p | 0 <= p < |S'|
      ensures NetFrom(ss', S'[p]) == |S'| - 1 - p
      ensures !ClosedBy(ss', S'[p])
    {
      assert S'[p] == S[p];
    }
  }

  /** The popped start is closed by this end. */
  lemma {:induction false} EndClosesTop(ss: seq<Signal>, S: seq<int>, ended: set<int>)
    requires StackWellFormed(ss, S) && StackHeights(ss, S) && |S| > 0
    requires EndedAreClosed(ss, ended)
    ensures EndedAreClosed(ss + [End], ended + {S[|S| - 1]})
  {
    var top := S[|S| - 1];
    Extend(ss, End);
    assert NetFrom(ss, top) == 0;
    assert ClosedBy(ss + [End], top);
  }

  lemma {:induction false} EndKeepsAccounted(ss: seq<Signal>, sc: CallScan)
    requires StartsAccounted(ss, sc) && |sc.open| > 0
    ensures StartsAccounted(ss + [End], StepPos(sc, End, |ss|))
  {
    var S := sc.open;
    var S' := S[..|S| - 1];
    var E' := sc.ended + {S[|S| - 1]};
    var ss' := ss + [End];
    assert StepPos(sc, End, |ss|) == CallScan(S', E');
    forall i | 0 <= i < |ss'| && ss'[i] == Start
      ensures i in E' || i in S'
    {
      assert ss'[i] == ss[i];
      if i !in sc.ended && i != S[|S| - 1] {
        var p :| 0 <= p < |S| && S[p] == i;
        assert S'[p] == i;
      }
    }
  }

  lemma {:induction false} EndKeepsInv(ss: seq<Signal>, sc: CallScan)
    requires PosInv(ss, sc) && |sc.open| > 0
    ensures PosInv(ss + [End], StepPos(sc, End, |ss|))
  {
    EndKeepsStack(ss, sc.open);
    EndClosesTop(ss, sc.open, sc.ended);
    EndKeepsAccounted(ss, sc);
  }

  lemma {:induction false} QuietKeepsInv(ss: seq<Signal>, sc: CallScan, x: Signal)
    requires PosInv(ss, sc)
    requires x == Plain || (x == End && |sc.open| == 0)
    ensures PosInv(ss + [x], StepPos(sc, x, |ss|))
  {
    var ss' := ss + [x];
    Extend(ss, x);
    assert StepPos(sc, x, |ss|) == sc;
    assert StackWellFormed(ss', sc.open);
    assert StackHeights(ss', sc.open);
    assert EndedAreClosed(ss', sc.ended);
    assert StartsAccounted(ss', sc);
  }

  lemma {:induction false} ScanPosInv(ss: seq<Signal>)
    ensures PosInv(ss, ScanPos(ss))
  {
    if |ss| > 0 {
      var pre := ss[..|ss| - 1];
      var x := ss[|ss| - 1];
      ScanPosInv(pre);
      var sc := ScanPos(pre);
      assert pre + [x] == ss;
      if x == Start {
        StartKeepsInv(pre, sc);
      } else if x == End && |sc.open| > 0 {
        EndKeepsInv(pre, sc);
      } else {
        QuietKeepsInv(pre, sc, x);
      }
    }
  }

  /** The ids of the ended positions, leaving out falsy ids. */
  ghost function EndedIds(ms: seq<Message>, ended: set<int>): set<int>
    requires forall i :: i in ended ==> 0 <= i < |ms|
  {
    set i | i in ended && ms[i].id != 0 :: ms[i].id
  }

  /** The id pass is the positional pass read through the ids. */
  ghost predicate Mirrors(ms: seq<Message>, ids: CallScan, pos: CallScan) {
    && |ids.open| == |pos.open|
    && (forall p :: 0 <= p < |pos.open| ==> 0 <= pos.open[p] < |ms| && ids.open[p] == ms[pos.open[p]].id)
    && (forall i :: i in pos.ended ==> 0 <= i < |ms|)
    && ids.ended == EndedIds(ms, pos.ended)
  }

  lemma {:induction false} SignalsOfPrefix(ms: seq<Message>, k: nat)
    requires k <= |ms|
    ensures SignalsOf(ms[..k]) == SignalsOf(ms)[..k]
  {
  }

  /** One step of each pass keeps them mirrored. */
  lemma {:induction false} MirrorStep(ms: seq<Message>, ids: CallScan, pos: CallScan)
    requires |ms| > 0
    requires Mirrors(ms[..|ms| - 1], ids, pos)
    ensures Mirrors(ms, Step(ids, ms[|ms| - 1]), StepPos(pos, SignalOf(ms[|ms| - 1]), |ms| - 1))
  {
    var pre := ms[..|ms| - 1];
    var m := ms[|ms| - 1];
    assert forall i :: 0 <= i < |pre| ==> pre[i] == ms[i];
    assert EndedIds(pre, pos.ended) == EndedIds(ms, pos.ended);
    if SignalOf(m) == End && |pos.open| > 0 {
      var top := pos.open[|pos.open| - 1];
      assert ids.open[|ids.open| - 1] == ms[top].id;
      assert EndedIds(ms, pos.ended + {top})
          == EndedIds(ms, pos.ended) + (if ms[top].id != 0 then {ms[top].id} else {});
    }
  }

  lemma {:induction false} ScanMirrorsPositions(ms: seq<Message>)
    ensures Mirrors(ms, Scan(ms), ScanPos(SignalsOf(ms)))
  {
    if |ms| > 0 {
      var pre := ms[..|ms| - 1];
      ScanMirrorsPositions(pre);
      SignalsOfPrefix(ms, |ms| - 1);
      MirrorStep(ms, Scan(pre), ScanPos(SignalsOf(pre)));
    }
  }

  predicate UniqueIds(ms: seq<Message>) {
    forall i, j :: 0 <= i < j < |ms| ==> ms[i].id != ms[j].id
  }

  /** In the positional pass a start ends up recorded as ended exactly when
      it is closed, and stays on the stack exactly when it is not. */
  lemma {:induction false} PositionalPairing(ss: seq<Signal>, i: nat)
    requires i < |ss| && ss[i] == Start
    ensures i in ScanPos(ss).ended <==> ClosedBy(ss, i)
    ensures i in ScanPos(ss).open <==> !ClosedBy(ss, i)
  {
    ScanPosInv(ss);
  }

  /** With distinct ids, a non-zero id is among the ended ids exactly when
      its own position is. */
  lemma {:induction false} EndedIdsMember(ms: seq<Message>, ended: set<int>, i: nat)
    requires UniqueIds(ms) && i < |ms| && ms[i].id != 0
    requires forall k :: k in ended ==> 0 <= k < |ms|
    ensures ms[i].id in EndedIds(ms, ended) <==> i in ended
  {
    if ms[i].id in EndedIds(ms, ended) {
      var j :| j in ended && ms[j].id != 0 && ms[j].id == ms[i].id;
      assert j == i;
    }
  }
  /** With distinct ids, an id is on the stack exactly when its position is. */
  lemma {:induction false} OpenIdsMember(ms: seq<Message>, ids: CallScan, pos: CallScan, i: nat)
    requires UniqueIds(ms) && i < |ms|
    requires Mirrors(ms, ids, pos)
    ensures ms[i].id in ids.open <==> i in pos.open
  {
    if ms[i].id in ids.open {
      var p :| 0 <= p < |ids.open| && ids.open[p] == ms[i].id;
      assert pos.open[p] == i;
    }
    if i in pos.open {
      var p :| 0 <= p < |pos.open| && pos.open[p] == i;
      assert ids.open[p] == ms[i].id;
    }
  }
  /** LIFO pairing is bracket matching: when message ids are distinct and
      non-zero, a start is recorded as ended exactly when a later end
      closes it, reading starts as opening and ends as closing brackets;
      otherwise its id is still on the stack. */
  lemma {:induction false} PairingIsBracketMatching(ms: seq<Message>, i: nat)
    requires UniqueIds(ms)
    requires forall k :: 0 <= k < |ms| ==> ms[k].id != 0
    requires i < |ms| && HasStartMarker(ms[i])
    ensures ms[i].id in Scan(ms).ended <==> ClosedBy(SignalsOf(ms), i)
    ensures ms[i].id in Scan(ms).open <==> !ClosedBy(SignalsOf(ms), i)
  {
    var ss := SignalsOf(ms);
    ScanMirrorsPositions(ms);
    PositionalPairing(ss, i);
    EndedIdsMember(ms, ScanPos(ss).ended, i);
    OpenIdsMember(ms, Scan(ms), ScanPos(ss), i);
  }

  // ---------------------------------------------------------------------
  // Worked cases
  // ---------------------------------------------------------------------

  function Sent(id: int, text: string): Message {
    Message(id, text, true, [])
  }

  lemma {:induction false} MarkerSignals()
    ensures SignalOf(Sent(1, VideoStartMarker)) == Start
    ensures SignalOf(Sent(1, VoiceStartMarker)) == Start
    ensures forall id :: SignalOf(Sent(id, CallEndedMarker)) == End
    ensures forall id :: SignalOf(Sent(id, VideoEndedMarker)) == End
  {
    StartMarkerSignal(1, VideoStartMarker);
    StartMarkerSignal(1, VoiceStartMarker);
    forall id ensures SignalOf(Sent(id, CallEndedMarker)) == End {
      EndMarkerSignal(id, CallEndedMarker);
    }
    forall id ensures SignalOf(Sent(id, VideoEndedMarker)) == End {
      EndMarkerSignal(id, VideoEndedMarker);
    }
  }

  lemma {:induction false} StartMarkerSignal(id: int, marker: string)
    requires marker == VideoStartMarker || marker == VoiceStartMarker
    ensures SignalOf(Sent(id, marker)) == Start
  {
    assert Contains(marker, marker);
  }

  /** An end text is shorter than either start marker, so it cannot
      contain one. */
  lemma {:induction false} EndMarkerSignal(id: int, marker: string)
    requires marker == CallEndedMarker || marker == VideoEndedMarker
    ensures SignalOf(Sent(id, marker)) == End
  {
    assert |marker| < |VideoStartMarker| && |marker| < |VoiceStartMarker|;
    assert Contains(marker, marker);
  }

  /** Two starts then one end (a video call, a voice call, "Call ended"):
      the end closes the most recent start and the earlier one stays live. */
  lemma {:induction false} EndClosesMostRecentStart(a: Message, b: Message, c: Message)
    requires SignalOf(a) == Start && SignalOf(b) == Start && SignalOf(c) == End
    requires b.id != 0
    ensures Scan([a, b, c]) == CallScan([a.id], {b.id})
  {
    ScanSnoc([], a);
    assert [] + [a] == [a];
    ScanSnoc([a], b);
    assert Scan([a, b]) == CallScan([a.id, b.id], {});
    ScanSnoc([a, b], c);
    assert [a, b] + [c] == [a, b, c];
  }

  /** A start, an end, a start: the first call is ended and the later one
      is live. */
  lemma {:induction false} LaterStartStaysLive(a: Message, b: Message, c: Message)
    requires SignalOf(a) == Start && SignalOf(b) == End && SignalOf(c) == Start
    requires a.id != 0
    ensures Scan([a, b, c]) == CallScan([c.id], {a.id})
  {
    ScanSnoc([], a);
    assert [] + [a] == [a];
    ScanSnoc([a], b);
    assert Scan([a, b]) == CallScan([], {a.id});
    ScanSnoc([a, b], c);
    assert [a, b] + [c] == [a, b, c];
  }

  /** An end with no open start marks nothing; the start after it is live. */
  lemma {:induction false} UnmatchedEndIsIgnored(a: Message, b: Message)
    requires SignalOf(a) == End && SignalOf(b) == Start
    ensures Scan([a, b]) == CallScan([b.id], {})
  {
    ScanSnoc([], a);
    assert [] + [a] == [a];
    ScanSnoc([a], b);
  }

  /** A text carrying both a start and an end marker is paired as a start,
      yet it is never drawn. */
  lemma {:induction false} BothMarkersPushedButHidden(id: int, before: seq<Message>)
    ensures SignalOf(Sent(id, VideoStartMarker + CallEndedMarker)) == Start
    ensures Scan(before + [Sent(id, VideoStartMarker + CallEndedMarker)]).open == Scan(before).open + [id]
    ensures Sent(id, VideoStartMarker + CallEndedMarker) !in Visible(before + [Sent(id, VideoStartMarker + CallEndedMarker)])
  {
    var m := Sent(id, VideoStartMarker + CallEndedMarker);
    MarkerSignals();
    ContainsAppend(VideoStartMarker, CallEndedMarker, VideoStartMarker);
    ContainsAppend(VideoStartMarker, CallEndedMarker, CallEndedMarker);
    ScanSnoc(before, m);
  }
}

=== FILE: client_server.dfy ===
/** How the two pages' local decisions line up with the server rules they
    talk to: the reaction bubble, the optimistic like, the comment delete
    button and the search guard. */
module ClientServer {
  import opened Wrappers
  import opened Strings
  import T = DirectMessageTypes
  import D = DirectMessagesClient
  import P = ProfileClient
  import S = SocialApi

  // ---------------------------------------------------------------------
  // Reaction bubbles
  // ---------------------------------------------------------------------

  /** The drawn message shows the viewer among the users of the `emoji`
      group. */
  predicate ShowsOwnReaction(drawn: seq<T.Message>, id: int, emoji: string) {
    D.FindMessage(drawn, id).Some?
    && D.FindReaction(D.FindMessage(drawn, id).value.reactions, emoji).Some?
    && D.ViewerIn(D.FindReaction(D.FindMessage(drawn, id).value.reactions, emoji).value.users)
  }

  /** The server's answer to the request a bubble click sends. */
  function Send(messages: map<int, set<int>>, rows: set<S.ReactionRow>, me: int, req: D.ReactionRequest): Result<set<S.ReactionRow>, S.Status> {
    match req
    case AddReaction(id, emoji) => S.ReactPost(messages, rows, me, id, Given(emoji))
    case RemoveReaction(id, emoji) =>
      match S.ReactDelete(messages, rows, me, id, Given(emoji))
      case Ok(r) => Ok(r.0)
      case Err(code) => Err(code)
  }

  /** When the drawn reactions agree with the server's rows, a click on a
      bubble toggles exactly the viewer's reaction with that emoji: it is
      stored afterwards iff it was not stored before. A removal deletes
      only that row; an addition leaves it the viewer's only reaction on
      the message and touches no one else's. */
  lemma {:induction false} BubbleClickToggles(drawn: seq<T.Message>, messages: map<int, set<int>>, rows: set<S.ReactionRow>, me: int, id: int, emoji: string)
    requires id in messages && me in messages[id]
    requires emoji != [] && Trim(emoji) == emoji
    requires ShowsOwnReaction(drawn, id, emoji) <==> S.ReactionRow(id, me, emoji) in rows
    ensures var after := Send(messages, rows, me, D.BubbleClick(drawn, id, emoji));
            after.Ok? && (S.ReactionRow(id, me, emoji) in after.value <==> S.ReactionRow(id, me, emoji) !in rows)
    ensures var after := Send(messages, rows, me, D.BubbleClick(drawn, id, emoji));
            S.ReactionRow(id, me, emoji) in rows ==> after == Ok(rows - {S.ReactionRow(id, me, emoji)})
    ensures var after := Send(messages, rows, me, D.BubbleClick(drawn, id, emoji));
            S.ReactionRow(id, me, emoji) !in rows ==>
              after.Ok? && S.RowsOf(after.value, id, me) == {S.ReactionRow(id, me, emoji)}
              && forall x: S.ReactionRow :: !(x.message == id && x.user == me) ==> (x in after.value <==> x in rows)
  {
    var req := D.BubbleClick(drawn, id, emoji);
    var row := S.ReactionRow(id, me, emoji);
    if req.RemoveReaction? {
      var m, g :| m in drawn && m.id == id && g in m.reactions && g.emoji == emoji && D.ViewerIn(g.users)
                  && D.FindMessage(drawn, id) == Some(m) && D.FindReaction(m.reactions, emoji) == Some(g);
      assert ShowsOwnReaction(drawn, id, emoji);
    } else {
      var after := S.ReactPost(messages, rows, me, id, Given(emoji)).value;
      assert row in S.RowsOf(after, id, me);
    }
  }

  // ---------------------------------------------------------------------
  // The like button
  // ---------------------------------------------------------------------

  /** When the button showed the server's state, the optimistic view the
      click draws at once is exactly the view the server's answer draws:
      the redraw on success changes nothing. */
  lemma {:induction false} OptimisticLikeMatchesServer(photos: set<int>, likes: set<S.Like>, user: int, photo: int)
    requires photo in photos
    ensures var shown := P.UpdateLikeUI((user, photo) in likes, S.LikeCount(likes, photo));
            var answer := S.LikePost(photos, likes, user, photo).value.1;
            var click := P.ClickLike(true, shown, Some((answer.isLiked, answer.likeCount)));
            click.optimistic == click.settled
  {
    var liked, count := (user, photo) in likes, S.LikeCount(likes, photo);
    var shown := P.UpdateLikeUI(liked, count);
    var answer := S.LikePost(photos, likes, user, photo).value.1;
    P.LikeTextRoundTrip(liked, count);
    S.LikePostMovesCountByOne(photos, likes, user, photo);
    assert answer.isLiked == !liked;
    assert answer.likeCount == if liked then count - 1 else count + 1;
  }

  // ---------------------------------------------------------------------
  // Comment delete button
  // ---------------------------------------------------------------------

  /** The page draws the delete button under a comment exactly when the
      server would accept the delete, provided the names on the page
      belong to the ids the server sees: the viewer's name to the
      requester, the comment's author name to its author, and the profile
      in the address to the photo's owner (usernames are unique). */
  lemma {:induction false} DeleteButtonMatchesServer(comments: map<int, S.PhotoComment>, names: map<int, string>, requester: int, id: int, author: string, owner: string)
    requires id in comments
    requires requester in names && comments[id].author in names && comments[id].photoOwner in names
    requires forall a, b :: a in names && b in names && names[a] == names[b] ==> a == b
    requires names[requester] != ""
    requires author == names[comments[id].author] && owner == names[comments[id].photoOwner]
    ensures P.CanDelete(Some(names[requester]), Some(owner), author) <==> S.DeleteComment(comments, requester, id).Ok?
  {
  }

  // ---------------------------------------------------------------------
  // User search
  // ---------------------------------------------------------------------

  /** The search box hides the results only for queries the server would
      answer with nobody whatever the users, and otherwise sends a query
      the server treats exactly like the typed one. When no character lies
      outside the Basic Multilingual Plane the two length guards agree, so
      the box hides exactly the queries the server refuses. */
  lemma {:induction false} SearchGuardAgrees(users: seq<S.User>, me: int, typed: string)
    ensures D.PerformUserSearch(typed).HideResults? ==> S.SearchUsers(users, me, Some(typed)) == []
    ensures D.PerformUserSearch(typed).SearchFor? ==>
              S.SearchUsers(users, me, Some(D.PerformUserSearch(typed).query)) == S.SearchUsers(users, me, Some(typed))
    ensures (forall i :: 0 <= i < |typed| ==> (typed[i] as int) < 0x1_0000) ==>
              (D.PerformUserSearch(typed).HideResults? <==> |Trim(typed)| < 2)
  {
    var t := Trim(typed);
    assert |t| <= Utf16Length(t);
    if D.PerformUserSearch(typed).SearchFor? {
      TrimIdempotent(typed);
      S.SearchUsersByQuery(users, me, Some(t), Some(typed));
    }
    if forall i :: 0 <= i < |typed| ==> (typed[i] as int) < 0x1_0000 {
      BmpTrimmed(typed);
    }
  }

  /** Trimming keeps a string inside the Basic Multilingual Plane, so its
      browser length is its length. */
  lemma {:induction false} BmpTrimmed(typed: string)
    requires forall i :: 0 <= i < |typed| ==> (typed[i] as int) < 0x1_0000
    ensures Utf16Length(Trim(typed)) == |Trim(typed)|
  {
    var t := StripBy(typed, IsSpace);
    var a := StripOffset(typed, IsSpace);
    assert t == typed[a..a + |t|];
    forall i | 0 <= i < |t| ensures (t[i] as int) < 0x1_0000 {
      assert t[i] == typed[a + i];
    }
  }

  /** The converse fails: a lone character outside the Basic Multilingual
      Plane is two code units long to the browser, so the box sends it,
      while the server counts one character and finds nobody. */
  lemma {:induction false} AstralQuerySentButRefused(users: seq<S.User>, me: int)
    ensures D.PerformUserSearch("\U{1F600}").SearchFor?
    ensures S.SearchUsers(users, me, Some("\U{1F600}")) == []
  {
    var q := "\U{1F600}";
    StripByKeeps(q, IsSpace);
  }
}

=== FILE: counsellor_ai.dfy ===
/** The AI counsellor turn: the stage-specific prompt suffix, unwrapping a
    Markdown code fence around the model's JSON reply, and carrying out the
    shortlist actions the reply asks for. The model call and JSON parsing
    are parameters: the generated text (`None` when the call fails) and a
    parser from text to the reply's actions (`None` when it does not
    parse). */
module CounsellorAi {
  import opened Wrappers
  import opened Strings
  import opened CounsellorModels
  import CounsellorUniversities

  // ---------------------------------------------------------------------
  // Stage prompts
  // ---------------------------------------------------------------------

  /** The advice appended to the base prompt for each stage name. */
  const StagePrompts: map<string, string> := map[
    "onboarding" := "User has just completed onboarding. Assess their profile comprehensively and suggest immediate next steps.",
    "discovery" := "User is in university discovery phase. Help them understand their options and shortlist suitable universities.",
    "locking" := "User needs to lock universities. Push them to make decisions and commit to specific choices.",
    "application" := "User is preparing applications. Focus on timeline adherence."
  ]

  /** `stage_specific_prompts.get(stage, "")`. */
  function StageAdvice(stage: string): string {
    if stage in StagePrompts then StagePrompts[stage] else ""
  }

  /** The system prompt: base text, a blank line, then the stage advice. */
  function SystemPrompt(base: string, stage: string): (p: string)
    ensures StartsWith(p, base + "\n\n")
    ensures |p| == |base| + 2 + |StageAdvice(stage)| && p[|base| + 2..] == StageAdvice(stage)
  {
    base + "\n\n" + StageAdvice(stage)
  }

  /** Every stage an account can be in has advice of its own, and a name
      that is not a stage adds nothing after the blank line. */
  lemma {:induction false} AdviceCoversStages(base: string, s: Stage, name: string)
    ensures StageAdvice(StageName(s)) != ""
    ensures StageName(s) in StagePrompts && SystemPrompt(base, StageName(s)) == base + "\n\n" + StagePrompts[StageName(s)]
    ensures StageNamed(name).None? ==> SystemPrompt(base, name) == base + "\n\n"
  {
    StageNamesRoundTrip(s, name);
  }

  // ---------------------------------------------------------------------
  // Code fences
  // ---------------------------------------------------------------------

  const Fence: string := "```"
  const JsonFence: string := "```json"

  /** Python `s[n:-3].strip()`: the text between an opening fence of `n`
      characters and a closing one of three, trimmed. */
  function Unfence(s: string, n: nat): (r: string)
    ensures Trim(r) == r
    ensures |r| <= |s|
  {
    TrimIdempotent(PySlice(s, n, -3));
    Trim(PySlice(s, n, -3))
  }

  /** The reply text handed to the JSON parser: trimmed, and unwrapped when
      it starts with a fence, by dropping seven characters ("```json") or
      three ("```") in front and three at the end with Python slicing, and
      trimming again. */
  function StripFence(reply: string): (r: string)
    ensures Trim(r) == r
    ensures |r| <= |Trim(reply)|
  {
    var s := Trim(reply);
    TrimIdempotent(reply);
    if StartsWith(s, JsonFence) then Unfence(s, 7)
    else if StartsWith(s, Fence) then Unfence(s, 3)
    else s
  }

  /** A text that starts with "```json" starts with "```". */
  lemma {:induction false} JsonFenceIsFence(s: string)
    ensures StartsWith(s, JsonFence) ==> StartsWith(s, Fence)
  {
    if StartsWith(s, JsonFence) {
      assert s[..3] == s[..7][..3];
    }
  }

  /** A reply that does not start with a fence, once trimmed, is passed on
      trimmed and otherwise as it is. */
  lemma {:induction false} UnfencedReplyKept(reply: string)
    requires !StartsWith(Trim(reply), Fence)
    ensures StripFence(reply) == Trim(reply)
  {
    JsonFenceIsFence(Trim(reply));
  }

  /** Trimming leaves alone a text that starts and ends with a backtick. */
  lemma {:induction false} TrimKeepsFence(core: string, lpad: string, rpad: string)
    requires |core| > 0 && core[0] == '`' && core[|core| - 1] == '`'
    requires forall i :: 0 <= i < |lpad| ==> IsSpace(lpad[i])
    requires forall i :: 0 <= i < |rpad| ==> IsSpace(rpad[i])
    ensures Trim(lpad + core + rpad) == core
  {
    StripAround(lpad, core, rpad, IsSpace);
  }

  /** Slicing an opening tag and a closing fence off a fenced text gives
      the text between them. */
  lemma {:induction false} FenceSlice(tag: string, inner: string)
    ensures StartsWith(tag + inner + Fence, tag)
    ensures PySlice(tag + inner + Fence, |tag|, -3) == inner
  {
    var core := tag + inner + Fence;
    assert core[..|tag|] == tag;
    assert core[|tag|..|core| - 3] == inner;
  }

  /** Whitespace around a body with non-blank ends trims away. */
  lemma {:induction false} TrimAroundBody(pre: string, body: string, post: string)
    requires forall i :: 0 <= i < |pre| ==> IsSpace(pre[i])
    requires forall i :: 0 <= i < |post| ==> IsSpace(post[i])
    requires |body| > 0 && !IsSpace(body[0]) && !IsSpace(body[|body| - 1])
    ensures Trim(pre + body + post) == body
  {
    StripAround(pre, body, post, IsSpace);
  }

  /** A JSON body fenced as "```json", with any whitespace inside and
      outside the fence, is given back exactly. */
  lemma {:induction false} JsonFenceUnwrapped(lpad: string, pre: string, body: string, post: string, rpad: string)
    requires forall i :: 0 <= i < |lpad| ==> IsSpace(lpad[i])
    requires forall i :: 0 <= i < |pre| ==> IsSpace(pre[i])
    requires forall i :: 0 <= i < |post| ==> IsSpace(post[i])
    requires forall i :: 0 <= i < |rpad| ==> IsSpace(rpad[i])
    requires |body| > 0 && !IsSpace(body[0]) && !IsSpace(body[|body| - 1])
    ensures StripFence(lpad + JsonFence + pre + body + post + Fence + rpad) == body
  {
    var inner := pre + body + post;
    var core := JsonFence + inner + Fence;
    FencedConcat(lpad, JsonFence, pre, body, post, rpad);
    TrimKeepsFence(core, lpad, rpad);
    FenceSlice(JsonFence, inner);
    TrimAroundBody(pre, body, post);
  }

  /** A text whose fourth character is not 'j' does not start with
      "```json". */
  lemma {:induction false} NotJsonFence(s: string)
    requires |s| > 3 && s[3] != 'j'
    ensures !StartsWith(s, JsonFence)
  {
    assert |s| < 7 || s[..7][3] == s[3];
  }

  /** A body fenced by bare "```" is given back exactly as well, provided
      the fence is not read as "```json": whitespace follows it, or the
      body does not start with 'j'. */
  lemma {:induction false} BareFenceUnwrapped(lpad: string, pre: string, body: string, post: string, rpad: string)
    requires forall i :: 0 <= i < |lpad| ==> IsSpace(lpad[i])
    requires forall i :: 0 <= i < |pre| ==> IsSpace(pre[i])
    requires forall i :: 0 <= i < |post| ==> IsSpace(post[i])
    requires forall i :: 0 <= i < |rpad| ==> IsSpace(rpad[i])
    requires |body| > 0 && !IsSpace(body[0]) && !IsSpace(body[|body| - 1])
    requires |pre| > 0 || body[0] != 'j'
    ensures StripFence(lpad + Fence + pre + body + post + Fence + rpad) == body
  {
    var inner := pre + body + post;
    var core := Fence + inner + Fence;
    FencedConcat(lpad, Fence, pre, body, post, rpad);
    TrimKeepsFence(core, lpad, rpad);
    FirstOfPadded(pre, body, post);
    StripBareFence(lpad + core + rpad, inner);
    TrimAroundBody(pre, body, post);
  }

  lemma {:induction false} FencedConcat(lpad: string, tag: string, pre: string, body: string, post: string, rpad: string)
    ensures lpad + tag + pre + body + post + Fence + rpad == lpad + (tag + (pre + body + post) + Fence) + rpad
  {
  }

  /** The first character of a padded body is the padding's or the body's. */
  lemma {:induction false} FirstOfPadded(pre: string, body: string, post: string)
    requires |body| > 0
    ensures (pre + body + post)[0] == if |pre| > 0 then pre[0] else body[0]
  {
  }

  /** A reply that trims to a bare fence around a text not starting with
      'j' is unwrapped to that text, trimmed. */
  lemma {:induction false} StripBareFence(reply: string, inner: string)
    requires Trim(reply) == Fence + inner + Fence
    requires |inner| > 0 && inner[0] != 'j'
    ensures StripFence(reply) == Trim(inner)
  {
    BareFenceNotJson(inner);
    FenceSlice(Fence, inner);
    BareFenceBranch(reply);
  }

  /** A bare fence followed by anything but 'j' is not a "```json" fence. */
  lemma {:induction false} BareFenceNotJson(inner: string)
    requires |inner| > 0 && inner[0] != 'j'
    ensures !StartsWith(Fence + inner + Fence, JsonFence)
  {
    var core := Fence + inner + Fence;
    assert core[3] == inner[0];
    NotJsonFence(core);
  }

  /** The branch `StripFence` takes on a bare fence. */
  lemma {:induction false} BareFenceBranch(reply: string)
    requires !StartsWith(Trim(reply), JsonFence) && StartsWith(Trim(reply), Fence)
    ensures StripFence(reply) == Unfence(Trim(reply), 3)
  {
  }

  /** A "```json" reply too short to hold both fences slices to nothing, so
      the parser is handed the empty text. */
  lemma {:induction false} ShortJsonFenceIsEmpty(reply: string)
    requires StartsWith(Trim(reply), JsonFence) && |Trim(reply)| <= 10
    ensures StripFence(reply) == ""
  {
    var s := Trim(reply);
    JsonFenceBranch(reply);
    assert PySlice(s, 7, -3) == [];
    assert Trim([]) == [];
  }

  /** The branch `StripFence` takes on a "```json" fence. */
  lemma {:induction false} JsonFenceBranch(reply: string)
    requires StartsWith(Trim(reply), JsonFence)
    ensures StripFence(reply) == Unfence(Trim(reply), 7)
  {
  }

  // ---------------------------------------------------------------------
  // Actions
  // ---------------------------------------------------------------------

  /** One entry of the reply's `actions`: its `type` and the payload's
      `university_id` (`None` when missing or `null`) and `category`, for
      which a missing key and an explicit `null` differ. */
  datatype Action = Action(kind: Option<string>, universityId: Option<int>, category: Field<string>)

  const ShortlistKind: string := "SHORTLIST"
  const DefaultCategory: string := "Target"

  predicate IsShortlist(a: Action) {
    a.kind == Some(ShortlistKind)
  }

  /** What a shortlist action asks for: the university (possibly none) and
      the stored category, `payload.get("category", "Target")`: "Target"
      when the key is missing, none when it is `null`. */
  function Requested(a: Action): (Option<int>, Option<string>) {
    (a.universityId,
     match a.category
     case Absent => Some(DefaultCategory)
     case Null => None
     case Given(c) => Some(c))
  }

  /** The requests of the shortlist actions, in order; other actions ask
      for nothing. */
  function Requests(actions: seq<Action>): seq<(Option<int>, Option<string>)> {
    if |actions| == 0 then []
    else (if IsShortlist(actions[0]) then [Requested(actions[0])] else []) + Requests(actions[1..])
  }

  /** One action: a shortlist action appends an unlocked row for the user
      with a fresh id; any other action changes nothing. */
  function ExecuteAction(entries: seq<Entry>, userId: int, a: Action): (r: seq<Entry>)
    ensures IsShortlist(a) ==> |r| == |entries| + 1 && r[..|entries|] == entries
                               && r[|entries|].userId == userId && !r[|entries|].locked
                               && r[|entries|].universityId == a.universityId
    ensures IsShortlist(a) && a.category.Absent? ==> r[|entries|].category == Some(DefaultCategory)
    ensures IsShortlist(a) && a.category.Null? ==> r[|entries|].category == None
    ensures IsShortlist(a) && a.category.Given? ==> r[|entries|].category == Some(a.category.value)
    ensures !IsShortlist(a) ==> r == entries
    ensures UniqueIds(entries) ==> UniqueIds(r)
  {
    if IsShortlist(a) then
      var e := NewEntry(NextEntryId(entries), userId, Requested(a).0, Requested(a).1);
      var r := entries + [e];
      assert forall j :: 0 <= j < |entries| ==> r[j] == entries[j] && entries[j] in entries;
      r
    else entries
  }

  /** `execute_actions`: the actions are carried out in order; the rows
      before them stay as they were and row ids stay unique. Nothing checks
      for a row the user already has. */
  function ExecuteActions(entries: seq<Entry>, userId: int, actions: seq<Action>): (r: seq<Entry>)
    ensures |r| == |entries| + |Requests(actions)| && r[..|entries|] == entries
    ensures UniqueIds(entries) ==> UniqueIds(r)
    decreases |actions|
  {
    if |actions| == 0 then entries
    else
      var next := ExecuteAction(entries, userId, actions[0]);
      var r := ExecuteActions(next, userId, actions[1..]);
      assert r[..|entries|] == r[..|next|][..|entries|];
      r
  }

  /** The rows `execute_actions` writes are exactly one per shortlist
      action, in order, each unlocked, owned by the user and carrying the
      requested university and category. */
  lemma {:induction false} ExecuteActionsWrites(entries: seq<Entry>, userId: int, actions: seq<Action>, i: nat)
    requires i < |Requests(actions)|
    ensures var e := ExecuteActions(entries, userId, actions)[|entries| + i];
            && e.userId == userId && !e.locked
            && e.universityId == Requests(actions)[i].0 && e.category == Requests(actions)[i].1
    decreases |actions|
  {
    if IsShortlist(actions[0]) && i == 0 {
      WritesHead(entries, userId, actions);
    } else {
      var next := ExecuteAction(entries, userId, actions[0]);
      var j := i - (if IsShortlist(actions[0]) then 1 else 0);
      RequestsShift(actions, i, j);
      ExecuteActionsWrites(next, userId, actions[1..], j);
      WritesLater(entries, userId, actions, i, next, j);
    }
  }

  /** A row the remaining actions write, seen from the whole run. */
  lemma {:induction false} WritesLater(entries: seq<Entry>, userId: int, actions: seq<Action>, i: nat, next: seq<Entry>, j: nat)
    requires |actions| > 0 && i < |Requests(actions)|
    requires !(IsShortlist(actions[0]) && i == 0)
    requires next == ExecuteAction(entries, userId, actions[0])
    requires j == i - (if IsShortlist(actions[0]) then 1 else 0)
    requires j < |Requests(actions[1..])|
    requires ExecuteActions(next, userId, actions[1..])[|next| + j].userId == userId
    requires !ExecuteActions(next, userId, actions[1..])[|next| + j].locked
    requires ExecuteActions(next, userId, actions[1..])[|next| + j].universityId == Requests(actions[1..])[j].0
    requires ExecuteActions(next, userId, actions[1..])[|next| + j].category == Requests(actions[1..])[j].1
    ensures var e := ExecuteActions(entries, userId, actions)[|entries| + i];
            && e.userId == userId && !e.locked
            && e.universityId == Requests(actions)[i].0 && e.category == Requests(actions)[i].1
  {
    RowShift(entries, userId, actions, i, next, j);
    RequestsShift(actions, i, j);
    var e := ExecuteActions(entries, userId, actions)[|entries| + i];
    var later := ExecuteActions(next, userId, actions[1..])[|next| + j];
    assert e == later;
    assert Requests(actions)[i] == Requests(actions[1..])[j];
  }

  /** Row `|entries| + i` of the whole run is a row written by the
      remaining actions, read from the rows after the first action. */
  lemma {:induction false} RowShift(entries: seq<Entry>, userId: int, actions: seq<Action>, i: nat, next: seq<Entry>, j: nat)
    requires |actions| > 0 && i < |Requests(actions)|
    requires !(IsShortlist(actions[0]) && i == 0)
    requires next == ExecuteAction(entries, userId, actions[0])
    requires j == i - (if IsShortlist(actions[0]) then 1 else 0)
    ensures |next| + j < |ExecuteActions(next, userId, actions[1..])|
    ensures ExecuteActions(entries, userId, actions)[|entries| + i] == ExecuteActions(next, userId, actions[1..])[|next| + j]
  {
    ExecuteActionsUnfold(entries, userId, actions);
    RequestsShift(actions, i, j);
  }

  lemma {:induction false} ExecuteActionsUnfold(entries: seq<Entry>, userId: int, actions: seq<Action>)
    requires |actions| > 0
    ensures var next := ExecuteAction(entries, userId, actions[0]);
            && |next| == |entries| + (if IsShortlist(actions[0]) then 1 else 0)
            && ExecuteActions(entries, userId, actions) == ExecuteActions(next, userId, actions[1..])
  {
  }

  /** The first action's row, when it is a shortlist action. */
  lemma {:induction false} WritesHead(entries: seq<Entry>, userId: int, actions: seq<Action>)
    requires |actions| > 0 && IsShortlist(actions[0])
    ensures |Requests(actions)| > 0 && Requests(actions)[0] == Requested(actions[0])
    ensures var e := ExecuteActions(entries, userId, actions)[|entries|];
            && e.userId == userId && !e.locked
            && e.universityId == Requested(actions[0]).0 && e.category == Requested(actions[0]).1
  {
    var next := ExecuteAction(entries, userId, actions[0]);
    var r := ExecuteActions(next, userId, actions[1..]);
    assert r[..|next|] == next;
    assert r[|entries|] == next[|entries|];
  }

  /** Where the i-th request sits among the requests of the remaining
      actions. */
  lemma {:induction false} RequestsShift(actions: seq<Action>, i: nat, j: int)
    requires |actions| > 0 && i < |Requests(actions)|
    requires !(IsShortlist(actions[0]) && i == 0)
    requires j == i - (if IsShortlist(actions[0]) then 1 else 0)
    ensures 0 <= j < |Requests(actions[1..])| && Requests(actions)[i] == Requests(actions[1..])[j]
  {
    var head: seq<(Option<int>, Option<string>)> := if IsShortlist(actions[0]) then [Requested(actions[0])] else [];
    RequestsUnfold(actions);
    IndexAfterHead(head, Requests(actions[1..]), i);
  }

  lemma {:induction false} RequestsUnfold(actions: seq<Action>)
    requires |actions| > 0
    ensures Requests(actions) == (if IsShortlist(actions[0]) then [Requested(actions[0])] else []) + Requests(actions[1..])
  {
  }

  lemma {:induction false} IndexAfterHead<T>(head: seq<T>, tail: seq<T>, i: nat)
    requires |head| <= i < |head| + |tail|
    ensures (head + tail)[i] == tail[i - |head|]
  {
  }

  /** Unlike the shortlist endpoint, the assistant can list a university
      twice: acting on a request for a pair the user already has breaks
      the one-row-per-pair rule that `add_to_shortlist` refuses to break. */
  lemma {:induction false} ActionsCanDuplicate(entries: seq<Entry>, userId: int, universityId: int, category: string, locked: bool)
    requires CounsellorUniversities.HasPair(entries, userId, universityId)
    ensures !OnePerPair(ExecuteActions(entries, userId, [Action(Some(ShortlistKind), Some(universityId), Absent)]))
    ensures CounsellorUniversities.AddToShortlist(entries, userId, universityId, category, locked).Err?
  {
    var a := Action(Some(ShortlistKind), Some(universityId), Absent);
    assert Requests([a]) == [(Some(universityId), Some(DefaultCategory))];
    var r := ExecuteActions(entries, userId, [a]);
    ExecuteActionsWrites(entries, userId, [a], 0);
    var i :| 0 <= i < |entries| && entries[i].userId == userId && entries[i].universityId == Some(universityId);
    assert r[i] == entries[i];
    assert r[|entries|].userId == userId && r[|entries|].universityId == Some(universityId);
  }

  // ---------------------------------------------------------------------
  // One turn
  // ---------------------------------------------------------------------

  /** What `get_response` returns: the "complete your profile" error, the
      "AI processing failed" error, or the parsed reply. */
  datatype Reply = NeedsProfile | Failed | Answered(text: string, actions: seq<Action>)

  /** `get_response`: without a profile no model call is made and nothing
      is written; a failed call or an unparsable reply writes nothing;
      otherwise the reply's actions are carried out. */
  function GetResponse(profiles: Profiles, account: Account, generated: Option<string>,
                       parse: string -> Option<seq<Action>>, entries: seq<Entry>): (r: (Reply, seq<Entry>))
    ensures account.id !in profiles ==> r == (NeedsProfile, entries)
    ensures r.0.NeedsProfile? ==> account.id !in profiles
    ensures !r.0.Answered? ==> r.1 == entries
    ensures r.0.Answered? <==> account.id in profiles && generated.Some? && parse(StripFence(generated.value)).Some?
    ensures r.0.Answered? ==> && r.0.text == StripFence(generated.value)
                              && parse(r.0.text) == Some(r.0.actions)
                              && r.1 == ExecuteActions(entries, account.id, r.0.actions)
  {
    if account.id !in profiles then (NeedsProfile, entries)
    else match generated
      case None => (Failed, entries)
      case Some(text) =>
        var json := StripFence(text);
        match parse(json)
        case None => (Failed, entries)
        case Some(actions) => (Answered(json, actions), ExecuteActions(entries, account.id, actions))
  }

  /** Without a profile the outcome does not depend on what the model
      would have said: the model is not consulted. */
  lemma {:induction false} NoProfileNoModelCall(profiles: Profiles, account: Account, g1: Option<string>, g2: Option<string>,
                             parse: string -> Option<seq<Action>>, entries: seq<Entry>)
    requires account.id !in profiles
    ensures GetResponse(profiles, account, g1, parse, entries) == GetResponse(profiles, account, g2, parse, entries)
  {
  }
}

=== FILE: counsellor_auth.dfy ===
/** Sign-up, log-in and the bearer-token check of the counsellor backend.
    The account table is a sequence in insertion order; token signing and
    decoding are abstract, so a decoded token is given as its claims. */
module CounsellorAuth {
  import opened Wrappers
  import opened Strings
  import opened CounsellorModels
  import opened CounsellorSecurity

  const BadRequest: int := 400
  const Unauthorized: int := 401

  /** `ACCESS_TOKEN_EXPIRE_MINUTES` in the default settings. */
  const ExpireMinutes: int := 30

  /** `filter(User.email == email).first()`. */
  function FindByEmail(users: seq<Account>, email: string): (r: Option<Account>)
    ensures r.None? <==> forall u :: u in users ==> u.email != email
    ensures r.Some? ==> r.value in users && r.value.email == email
    ensures r.Some? && |users| > 0 && users[0].email == email ==> r.value == users[0]
  {
    if |users| == 0 then None
    else if users[0].email == email then Some(users[0])
    else
      assert forall u :: u in users ==> u == users[0] || u in users[1..];
      FindByEmail(users[1..], email)
  }

  /** An id above every stored account's id. */
  function NextUserId(users: seq<Account>): (n: int)
    ensures forall u :: u in users ==> u.id < n
  {
    if |users| == 0 then 1
    else
      var rest := NextUserId(users[1..]);
      assert forall u :: u in users ==> u == users[0] || u in users[1..];
      if users[0].id >= rest then users[0].id + 1 else rest
  }

  datatype SignedUp = SignedUp(users: seq<Account>, account: Account)

  /** `signup`: 400 when the e-mail is already registered; otherwise one new
      account with the salted hash of the password. */
  function Signup(h: Digest, users: seq<Account>, name: string, email: string, password: string, salt: string): (r: Result<SignedUp, int>)
    requires IsSalt(salt)
    ensures r.Err? <==> exists u :: u in users && u.email == email
    ensures r.Err? ==> r.error == BadRequest
    ensures r.Ok? ==> r.value.users == users + [r.value.account]
    ensures r.Ok? ==> r.value.account == NewAccount(r.value.account.id, name, email, HashPassword(h, password, salt))
    ensures r.Ok? ==> forall u :: u in users ==> u.id != r.value.account.id
  {
    if FindByEmail(users, email).Some? then Err(BadRequest)
    else
      var account := NewAccount(NextUserId(users), name, email, HashPassword(h, password, salt));
      Ok(SignedUp(users + [account], account))
  }

  /** Sign-up keeps e-mails unique. */
  lemma {:induction false} SignupKeepsEmailsUnique(h: Digest, users: seq<Account>, name: string, email: string, password: string, salt: string)
    requires IsSalt(salt) && UniqueEmails(users)
    ensures Signup(h, users, name, email, password, salt).Ok? ==> UniqueEmails(Signup(h, users, name, email, password, salt).value.users)
  {
    var r := Signup(h, users, name, email, password, salt);
    if r.Ok? {
      var after := r.value.users;
      forall i, j | 0 <= i < |after| && 0 <= j < |after| && after[i].email == after[j].email
        ensures i == j
      {
        if i < |users| {
          assert after[i] in users;
        }
        if j < |users| {
          assert after[j] in users;
        }
      }
    }
  }

  /** `login`: 401 unless an account has the e-mail and the password
      verifies against its stored hash; the token's subject is the e-mail. */
  function Login(h: Digest, users: seq<Account>, email: string, password: string, now: int): (r: Result<Claims, int>)
    ensures r.Err? <==> FindByEmail(users, email).None? || !VerifyPassword(h, password, FindByEmail(users, email).value.passwordHash)
    ensures r.Err? ==> r.error == Unauthorized
    ensures r.Ok? ==> r.value.Keys == {"sub", "exp"}
    ensures r.Ok? ==> r.value["sub"] == Text(email) && r.value["exp"] == Time(now + ExpireMinutes * 60)
  {
    match FindByEmail(users, email)
    case None => Err(Unauthorized)
    case Some(u) =>
      if !VerifyPassword(h, password, u.passwordHash) then Err(Unauthorized)
      else Ok(TokenClaims(map["sub" := Text(u.email)], now, Some(ExpireMinutes * 60)))
  }

  /** `get_current_user`: 401 when the token does not decode (`None`), has
      no subject, or names no account. */
  function CurrentUser(users: seq<Account>, payload: Option<Claims>): (r: Result<Account, int>)
    ensures payload.None? ==> r == Err(Unauthorized)
    ensures payload.Some? && "sub" !in payload.value ==> r == Err(Unauthorized)
    ensures r.Err? ==> r.error == Unauthorized
    ensures r.Ok? ==> payload.Some? && "sub" in payload.value && payload.value["sub"] == Text(r.value.email) && r.value in users
    // A text subject naming an account is answered with the first account
    // holding that e-mail.
    ensures payload.Some? && "sub" in payload.value && payload.value["sub"].Text?
            && (exists u :: u in users && u.email == payload.value["sub"].text) ==>
              r == Ok(FindByEmail(users, payload.value["sub"].text).value)
  {
    match payload
    case None => Err(Unauthorized)
    case Some(claims) =>
      if "sub" !in claims || !claims["sub"].Text? then Err(Unauthorized)
      else match FindByEmail(users, claims["sub"].text)
        case None => Err(Unauthorized)
        case Some(u) => Ok(u)
  }

  /** A token issued by a successful log-in identifies, once decoded, the
      account that logged in. */
  lemma {:induction false} LoginThenCurrentUser(h: Digest, users: seq<Account>, email: string, password: string, now: int)
    requires Login(h, users, email, password, now).Ok?
    ensures CurrentUser(users, Some(Login(h, users, email, password, now).value)) == Ok(FindByEmail(users, email).value)
  {
  }

  /** Right after signing up, the same e-mail and password log in, and a
      different password logs in only if its salted digest collides. */
  lemma {:induction false} SignupThenLogin(h: Digest, users: seq<Account>, name: string, email: string, password: string, other: string, salt: string, now: int)
    requires IsSalt(salt) && HexDigests(h)
    requires Signup(h, users, name, email, password, salt).Ok?
    ensures var after := Signup(h, users, name, email, password, salt).value.users;
            && Login(h, after, email, password, now).Ok?
            && (Login(h, after, email, other, now).Ok? <==> h(other + salt) == h(password + salt))
  {
    var s := Signup(h, users, name, email, password, salt).value;
    LaterFind(users, s.account, email);
    HashThenVerify(h, password, other, salt);
  }

  /** Looking up an e-mail no earlier account has finds the appended one. */
  lemma {:induction false} LaterFind(users: seq<Account>, a: Account, email: string)
    requires forall u :: u in users ==> u.email != email
    requires a.email == email
    ensures FindByEmail(users + [a], email) == Some(a)
  {
    if |users| > 0 {
      assert (users + [a])[1..] == users[1..] + [a];
      assert users[0] in users;
      LaterFind(users[1..], a, email);
    }
  }
}

=== FILE: counsellor_chat.dfy ===
/** The counsellor endpoints: the chat stage gate and the dashboard
    summary with its profile-strength bucketing. */
module CounsellorChat {
  import opened Wrappers
  import opened CounsellorModels
  import CounsellorUniversities
  import CounsellorAi

  const BadRequest: int := 400

  /** Chat is closed only to an account that has neither completed
      onboarding nor left the onboarding stage. */
  predicate ChatOpen(account: Account) {
    account.onboardingCompleted || account.stage != Onboarding
  }

  /** `chat_with_counsellor`: 400 at the gate, otherwise one assistant
      turn. */
  function Chat(profiles: Profiles, account: Account, generated: Option<string>,
                parse: string -> Option<seq<CounsellorAi.Action>>, entries: seq<Entry>): (r: Result<(CounsellorAi.Reply, seq<Entry>), int>)
    ensures r.Err? <==> !account.onboardingCompleted && account.stage == Onboarding
    ensures r.Err? ==> r.error == BadRequest
    ensures r.Ok? ==> r.value == CounsellorAi.GetResponse(profiles, account, generated, parse, entries)
  {
    if !ChatOpen(account) then Err(BadRequest)
    else Ok(CounsellorAi.GetResponse(profiles, account, generated, parse, entries))
  }

  // ---------------------------------------------------------------------
  // Dashboard
  // ---------------------------------------------------------------------

  /** The readiness status that does not count as progress. */
  const NotStarted: string := "Not Started"

  /** The denominator of the completion percentage. */
  const TotalFields: nat := 12

  datatype Strength = Strong | Average | NeedsImprovement

  /** Buckets ordered from weakest to strongest. */
  function Rank(s: Strength): nat {
    match s
    case NeedsImprovement => 0
    case Average => 1
    case Strong => 2
  }

  /** The fields counted as complete: a non-empty GPA and each of the
      IELTS, GRE and SOP statuses that has moved past "Not Started". */
  function CompletedFields(p: Profile): (n: nat)
    ensures n <= 4
    ensures n == 0 <==> p.gpa == "" && p.ieltsStatus == NotStarted && p.greStatus == NotStarted && p.sopStatus == NotStarted
    ensures n == 4 <==> p.gpa != "" && p.ieltsStatus != NotStarted && p.greStatus != NotStarted && p.sopStatus != NotStarted
  {
    (if p.gpa != "" then 1 else 0)
    + (if p.ieltsStatus != NotStarted then 1 else 0)
    + (if p.greStatus != NotStarted then 1 else 0)
    + (if p.sopStatus != NotStarted then 1 else 0)
  }

  /** The bucket of `completed / total * 100`: at least 80 is strong, at
      least 50 average, anything else needs improvement. The percentage is
      compared by cross-multiplying, which is exact. */
  function StrengthOf(completed: nat, total: nat): Strength
    requires total > 0
  {
    if completed * 100 >= 80 * total then Strong
    else if completed * 100 >= 50 * total then Average
    else NeedsImprovement
  }

  /** More completed fields never give a weaker bucket, and a full score
      is strong. */
  lemma {:induction false} StrengthMonotone(c1: nat, c2: nat, total: nat)
    requires total > 0 && c1 <= c2
    ensures Rank(StrengthOf(c1, total)) <= Rank(StrengthOf(c2, total))
    ensures StrengthOf(total, total) == Strong
  {
  }

  /** Rows of the account on the shortlist. */
  function ShortlistCount(entries: seq<Entry>, userId: int): nat {
    if |entries| == 0 then 0
    else (if entries[0].userId == userId then 1 else 0) + ShortlistCount(entries[1..], userId)
  }

  /** Every locked row of the account is one of its shortlisted rows. */
  lemma {:induction false} LockedWithinShortlist(entries: seq<Entry>, userId: int)
    ensures CounsellorUniversities.LockedCount(entries, userId) <= ShortlistCount(entries, userId)
  {
    if |entries| > 0 {
      LockedWithinShortlist(entries[1..], userId);
    }
  }

  datatype Summary =
    | Incomplete(stage: Stage, progress: nat)
    | Assessed(strength: Strength, completedFields: nat, stage: Stage, shortlisted: nat, locked: nat)

  /** `get_dashboard_summary`. With at most four of twelve fields counted,
      the completion never reaches 50% and every profile is reported as
      needing improvement; the locked count never exceeds the shortlist
      count. */
  function DashboardSummary(profiles: Profiles, account: Account, entries: seq<Entry>): (s: Summary)
    ensures account.id !in profiles ==> s == Incomplete(account.stage, 0)
    ensures account.id in profiles ==> s.Assessed? && s.strength == NeedsImprovement
    ensures s.stage == account.stage
    ensures s.Assessed? ==> s.completedFields <= 4 && s.locked <= s.shortlisted
  {
    if account.id !in profiles then Incomplete(account.stage, 0)
    else
      var completed := CompletedFields(profiles[account.id]);
      LockedWithinShortlist(entries, account.id);
      Assessed(StrengthOf(completed, TotalFields), completed, account.stage,
               ShortlistCount(entries, account.id), CounsellorUniversities.LockedCount(entries, account.id))
  }
}

=== FILE: counsellor_journey.dfy ===
/** The journey of one account through the counsellor backend: every
    request it can make, as a transition of (account, profiles, shortlist),
    and what holds along every sequence of requests. The only stage changes
    the code makes are onboarding to discovery when the profile is created
    and locking to application when a row is locked; nothing moves an
    account into locking. */
module CounsellorJourney {
  import opened Wrappers
  import opened CounsellorModels
  import CounsellorProfiles
  import CounsellorUniversities
  import CounsellorAi
  import CounsellorChat

  datatype Journey = Journey(account: Account, profiles: Profiles, entries: seq<Entry>)

  /** One request of the account; `Ask` carries what the model would say. */
  datatype Request =
    | Onboard(input: CounsellorProfiles.ProfileInput)
    | EditProfile(input: CounsellorProfiles.ProfileInput)
    | Shortlist(universityId: int, category: string, locked: bool)
    | Lock(entryId: int)
    | Remove(entryId: int)
    | Ask(generated: Option<string>)

  /** The state after a request; a refused request changes nothing. */
  function Step(j: CounsellorProfiles.Json, parse: string -> Option<seq<CounsellorAi.Action>>, st: Journey, req: Request): Journey {
    match req
    case Onboard(input) =>
      (match CounsellorProfiles.CreateProfile(j, st.profiles, st.account, input)
      case Err(_) => st
      case Ok(r) => st.(profiles := r.0, account := r.1))
    case EditProfile(input) =>
      (match CounsellorProfiles.UpdateProfile(j, st.profiles, st.account, input)
      case Err(_) => st
      case Ok(p) => st.(profiles := p))
    case Shortlist(u, c, l) =>
      (match CounsellorUniversities.AddToShortlist(st.entries, st.account.id, u, c, l)
      case Err(_) => st
      case Ok(es) => st.(entries := es))
    case Lock(id) =>
      (match CounsellorUniversities.LockUniversity(st.entries, st.account, id)
      case Err(_) => st
      case Ok(r) => st.(entries := r.0, account := r.1))
    case Remove(id) =>
      (match CounsellorUniversities.RemoveFromShortlist(st.entries, st.account.id, id)
      case Err(_) => st
      case Ok(es) => st.(entries := es))
    case Ask(g) =>
      (match CounsellorChat.Chat(st.profiles, st.account, g, parse, st.entries)
      case Err(_) => st
      case Ok(r) => st.(entries := r.1))
  }

  /** The requests applied in order. */
  function Run(j: CounsellorProfiles.Json, parse: string -> Option<seq<CounsellorAi.Action>>, st: Journey, reqs: seq<Request>): Journey
    decreases |reqs|
  {
    if |reqs| == 0 then st else Run(j, parse, Step(j, parse, st, reqs[0]), reqs[1..])
  }

  /** Just after sign-up: a new account without a profile. */
  predicate Initial(st: Journey) {
    && !st.account.onboardingCompleted
    && st.account.stage == Onboarding
    && st.account.id !in st.profiles
  }

  /** The stage, the onboarding flag and the existence of a profile move
      together: before onboarding, none; after it, discovery with a
      profile. */
  predicate Consistent(st: Journey) {
    && (st.account.stage == Onboarding || st.account.stage == Discovery)
    && (st.account.onboardingCompleted <==> st.account.stage == Discovery)
    && (st.account.id in st.profiles <==> st.account.onboardingCompleted)
  }

  /** Every stage change a request makes is into discovery (by creating
      the profile) or from locking into application (by locking a row). */
  lemma {:induction false} StageEdges(j: CounsellorProfiles.Json, parse: string -> Option<seq<CounsellorAi.Action>>, st: Journey, req: Request)
    ensures var after := Step(j, parse, st, req).account.stage;
            after == st.account.stage || after == Discovery || (st.account.stage == Locking && after == Application)
  {
  }

  /** Every request keeps the journey consistent. */
  lemma {:induction false} StepKeepsConsistent(j: CounsellorProfiles.Json, parse: string -> Option<seq<CounsellorAi.Action>>, st: Journey, req: Request)
    requires Consistent(st)
    ensures Consistent(Step(j, parse, st, req))
  {
  }

  lemma {:induction false} RunKeepsConsistent(j: CounsellorProfiles.Json, parse: string -> Option<seq<CounsellorAi.Action>>, st: Journey, reqs: seq<Request>)
    requires Consistent(st)
    ensures Consistent(Run(j, parse, st, reqs))
    decreases |reqs|
  {
    if |reqs| > 0 {
      StepKeepsConsistent(j, parse, st, reqs[0]);
      RunKeepsConsistent(j, parse, Step(j, parse, st, reqs[0]), reqs[1..]);
    }
  }

  /** From sign-up, no sequence of requests reaches the locking or the
      application stage, so the lock endpoint's stage advance never fires. */
  lemma {:induction false} NeverPastDiscovery(j: CounsellorProfiles.Json, parse: string -> Option<seq<CounsellorAi.Action>>, st: Journey, reqs: seq<Request>)
    requires Initial(st)
    ensures Run(j, parse, st, reqs).account.stage != Locking
    ensures Run(j, parse, st, reqs).account.stage != Application
  {
    RunKeepsConsistent(j, parse, st, reqs);
  }

  /** Along any journey from sign-up, an account the chat gate lets through
      has a profile, so a chat turn never ends in "complete your profile
      first". */
  lemma {:induction false} OpenChatHasProfile(j: CounsellorProfiles.Json, parse: string -> Option<seq<CounsellorAi.Action>>, st: Journey, reqs: seq<Request>, g: Option<string>)
    requires Initial(st)
    ensures var now := Run(j, parse, st, reqs);
            CounsellorChat.ChatOpen(now.account) ==>
              && now.account.id in now.profiles
              && CounsellorChat.Chat(now.profiles, now.account, g, parse, now.entries).Ok?
              && !CounsellorChat.Chat(now.profiles, now.account, g, parse, now.entries).value.0.NeedsProfile?
  {
    RunKeepsConsistent(j, parse, st, reqs);
  }

  /** Row ids stay unique under every request. */
  lemma {:induction false} StepKeepsUniqueIds(j: CounsellorProfiles.Json, parse: string -> Option<seq<CounsellorAi.Action>>, st: Journey, req: Request)
    requires UniqueIds(st.entries)
    ensures UniqueIds(Step(j, parse, st, req).entries)
  {
    match req
    case Shortlist(u, c, l) =>
      AddKeepsUniqueIds(st.entries, st.account.id, u, c, l);
    case Remove(id) =>
      RemoveKeepsUniqueIds(st.entries, st.account.id, id);
    case _ =>
  }

  lemma {:induction false} AddKeepsUniqueIds(entries: seq<Entry>, userId: int, u: int, c: string, l: bool)
    requires UniqueIds(entries)
    ensures var r := CounsellorUniversities.AddToShortlist(entries, userId, u, c, l);
            r.Ok? ==> UniqueIds(r.value)
  {
    var r := CounsellorUniversities.AddToShortlist(entries, userId, u, c, l);
    if r.Ok? {
      var n := |entries|;
      forall k | 0 <= k < n ensures r.value[k].id != r.value[n].id {
        assert r.value[k] == entries[k] && entries[k] in entries;
      }
    }
  }

  lemma {:induction false} RemoveKeepsUniqueIds(entries: seq<Entry>, userId: int, id: int)
    requires UniqueIds(entries)
    ensures var r := CounsellorUniversities.RemoveFromShortlist(entries, userId, id);
            r.Ok? ==> UniqueIds(r.value)
  {
    var r := CounsellorUniversities.RemoveFromShortlist(entries, userId, id);
    if r.Ok? {
      var k := CounsellorUniversities.FindOwn(entries, userId, id).value;
      assert forall i :: 0 <= i < |r.value| ==> r.value[i] == if i < k then entries[i] else entries[i + 1];
    }
  }

  /** The one-row-per-(account, university) rule survives every request of
      the shortlist endpoints and the profile endpoints; only an assistant
      turn can break it. */
  lemma {:induction false} StepKeepsOnePerPair(j: CounsellorProfiles.Json, parse: string -> Option<seq<CounsellorAi.Action>>, st: Journey, req: Request)
    requires OnePerPair(st.entries) && UniqueIds(st.entries)
    requires !req.Ask?
    ensures OnePerPair(Step(j, parse, st, req).entries)
  {
    match req
    case Shortlist(u, c, l) =>
      CounsellorUniversities.AddKeepsInvariants(st.entries, st.account.id, u, c, l);
    case Lock(id) =>
      CounsellorUniversities.LockKeepsInvariants(st.entries, st.account, id);
    case Remove(id) =>
      CounsellorUniversities.RemoveKeepsInvariants(st.entries, st.account.id, id);
    case _ =>
  }
}

=== FILE: counsellor_models.dfy ===
/** The counsellor backend's tables: accounts with their journey stage,
    the one profile an account may have, universities and shortlist
    entries, with the defaults the schema declares. The schema's unique
    keys are the account email and the profile's account; one shortlist
    row per (account, university) is not a schema constraint but the rule
    `add_to_shortlist` checks before inserting. */
module CounsellorModels {
  import opened Wrappers

  /** The journey stages, stored by their lower-case names. */
  datatype Stage = Onboarding | Discovery | Locking | Application

  function StageName(s: Stage): string {
    match s
    case Onboarding => "onboarding"
    case Discovery => "discovery"
    case Locking => "locking"
    case Application => "application"
  }

  /** The stage a stored name denotes; other names are not stages. */
  function StageNamed(name: string): (r: Option<Stage>)
    ensures r.Some? ==> StageName(r.value) == name
  {
    if name == "onboarding" then Some(Onboarding)
    else if name == "discovery" then Some(Discovery)
    else if name == "locking" then Some(Locking)
    else if name == "application" then Some(Application)
    else None
  }

  /** The four names are the only stages, and each names one stage. */
  lemma {:induction false} StageNamesRoundTrip(s: Stage, name: string)
    ensures StageNamed(StageName(s)) == Some(s)
    ensures StageNamed(name).Some? <==> name in {"onboarding", "discovery", "locking", "application"}
  {
  }

  datatype Account = Account(
    id: int, name: string, email: string, passwordHash: string,
    onboardingCompleted: bool, stage: Stage)

  /** A newly stored account: onboarding not completed, stage onboarding. */
  function NewAccount(id: int, name: string, email: string, passwordHash: string): (a: Account)
    ensures a.id == id && a.name == name && a.email == email && a.passwordHash == passwordHash
    ensures !a.onboardingCompleted && a.stage == Onboarding
  {
    Account(id, name, email, passwordHash, false, Onboarding)
  }

  /** `email` is a unique column. */
  predicate UniqueEmails(users: seq<Account>) {
    forall i, j :: 0 <= i < |users| && 0 <= j < |users| && users[i].email == users[j].email ==> i == j
  }

  /** A profile as stored. The countries list is kept as its JSON text. */
  datatype Profile = Profile(
    educationLevel: string, degree: string, graduationYear: int, gpa: string,
    targetDegree: string, field: string, intakeYear: int,
    countries: string, budgetRange: string, fundingType: string,
    ieltsStatus: string, greStatus: string, toeflStatus: string,
    sopStatus: string, lorStatus: string)

  /** Profiles keyed by account id: `user_id` is unique, so an account has
      at most one profile. */
  type Profiles = map<int, Profile>

  /** A university row; the cost and ranking columns may be empty. */
  datatype University = University(
    id: int, name: string, country: string, city: Option<string>,
    avgCost: Option<int>, rankingBand: Option<string>,
    difficulty: Option<string>, description: Option<string>)

  /** A shortlist row. Rows written by the assistant may lack a university
      id or category. */
  datatype Entry = Entry(id: int, userId: int, universityId: Option<int>, category: Option<string>, locked: bool)

  /** A new shortlist row without an explicit lock flag is unlocked. */
  function NewEntry(id: int, userId: int, universityId: Option<int>, category: Option<string>): (e: Entry)
    ensures e.id == id && e.userId == userId && e.universityId == universityId && e.category == category
    ensures !e.locked
  {
    Entry(id, userId, universityId, category, false)
  }

  /** At most one shortlist row per (account, university). */
  predicate OnePerPair(entries: seq<Entry>) {
    forall i, j ::
      (0 <= i < |entries| && 0 <= j < |entries|
       && entries[i].userId == entries[j].userId && entries[i].universityId == entries[j].universityId) ==> i == j
  }

  /** Row ids are primary keys. */
  predicate UniqueIds(entries: seq<Entry>) {
    forall i, j :: 0 <= i < |entries| && 0 <= j < |entries| && entries[i].id == entries[j].id ==> i == j
  }

  /** An id above every row's id. */
  function NextEntryId(entries: seq<Entry>): (n: int)
    ensures forall e :: e in entries ==> e.id < n
  {
    if |entries| == 0 then 1
    else
      var rest := NextEntryId(entries[1..]);
      assert forall e :: e in entries ==> e == entries[0] || e in entries[1..];
      if entries[0].id >= rest then entries[0].id + 1 else rest
  }
}

=== FILE: counsellor_profiles.dfy ===
/** Creating, updating and reading back the counsellor profile. The
    countries list is stored as JSON text; JSON encoding and decoding are
    abstract functions with the round-trip property as their axiom. */
module CounsellorProfiles {
  import opened Wrappers
  import opened CounsellorModels

  const BadRequest: int := 400
  const NotFound: int := 404
  const ServerError: int := 500

  /** The profile fields a request carries; countries as a list. */
  datatype ProfileInput = ProfileInput(
    educationLevel: string, degree: string, graduationYear: int, gpa: string,
    targetDegree: string, field: string, intakeYear: int,
    countries: seq<string>, budgetRange: string, fundingType: string,
    ieltsStatus: string, greStatus: string, toeflStatus: string,
    sopStatus: string, lorStatus: string)

  /** `json.dumps` and `json.loads` on lists of strings; `loads` is `None`
      when the text does not decode to such a list. */
  datatype Json = Json(dumps: seq<string> -> string, loads: string -> Option<seq<string>>)

  /** Encoding is never empty and decodes back to the list. */
  ghost predicate JsonSound(j: Json) {
    forall l :: j.loads(j.dumps(l)) == Some(l) && j.dumps(l) != ""
  }

  /** The row written for a request: every field copied, countries encoded. */
  function Stored(j: Json, input: ProfileInput): (p: Profile)
    ensures p.countries == j.dumps(input.countries)
    ensures p.educationLevel == input.educationLevel && p.degree == input.degree
    ensures p.graduationYear == input.graduationYear && p.gpa == input.gpa
    ensures p.targetDegree == input.targetDegree && p.field == input.field && p.intakeYear == input.intakeYear
    ensures p.budgetRange == input.budgetRange && p.fundingType == input.fundingType
    ensures p.ieltsStatus == input.ieltsStatus && p.greStatus == input.greStatus && p.toeflStatus == input.toeflStatus
    ensures p.sopStatus == input.sopStatus && p.lorStatus == input.lorStatus
  {
    Profile(input.educationLevel, input.degree, input.graduationYear, input.gpa,
      input.targetDegree, input.field, input.intakeYear,
      j.dumps(input.countries), input.budgetRange, input.fundingType,
      input.ieltsStatus, input.greStatus, input.toeflStatus,
      input.sopStatus, input.lorStatus)
  }

  /** `create_profile`: 400 when the account already has a profile;
      otherwise the profile is stored and the account marked onboarded and
      moved to the discovery stage. */
  function CreateProfile(j: Json, profiles: Profiles, account: Account, input: ProfileInput): (r: Result<(Profiles, Account), int>)
    ensures r.Err? <==> account.id in profiles
    ensures r.Err? ==> r.error == BadRequest
    ensures r.Ok? ==> r.value.0.Keys == profiles.Keys + {account.id} && r.value.0[account.id] == Stored(j, input)
    ensures r.Ok? ==> forall id :: id in profiles ==> r.value.0[id] == profiles[id]
    ensures r.Ok? ==> r.value.1.onboardingCompleted && r.value.1.stage == Discovery
    ensures r.Ok? ==> r.value.1.id == account.id && r.value.1.email == account.email
                      && r.value.1.name == account.name && r.value.1.passwordHash == account.passwordHash
  {
    if account.id in profiles then Err(BadRequest)
    else Ok((profiles[account.id := Stored(j, input)], account.(onboardingCompleted := true, stage := Discovery)))
  }

  /** `update_profile`: 404 without a profile; otherwise every field is
      overwritten. The account (its stage and onboarding flag) is left as
      it is. */
  function UpdateProfile(j: Json, profiles: Profiles, account: Account, input: ProfileInput): (r: Result<Profiles, int>)
    ensures r.Err? <==> account.id !in profiles
    ensures r.Err? ==> r.error == NotFound
    ensures r.Ok? ==> r.value.Keys == profiles.Keys && r.value[account.id] == Stored(j, input)
    ensures r.Ok? ==> forall id :: id in profiles && id != account.id ==> r.value[id] == profiles[id]
  {
    if account.id !in profiles then Err(NotFound)
    else Ok(profiles[account.id := Stored(j, input)])
  }

  /** A profile as `UserProfileResponse` sends it: the row's fields with
      the countries as a list of strings. */
  datatype ProfileBody = ProfileBody(row: Profile, countries: seq<string>)

  /** The value a handler hands over for the response's `countries`. */
  datatype CountriesValue = ListValue(list: seq<string>) | TextValue(text: string)

  /** Response validation against `UserProfileResponse`: a list of strings
      passes, and a text is not a list, so it fails and the framework
      answers 500. */
  function ValidateProfile(row: Profile, countries: CountriesValue): (r: Result<ProfileBody, int>)
    ensures r.Ok? <==> countries.ListValue?
    ensures r.Ok? ==> r.value == ProfileBody(row, countries.list)
    ensures r.Err? ==> r.error == ServerError
  {
    match countries
    case ListValue(l) => Ok(ProfileBody(row, l))
    case TextValue(_) => Err(ServerError)
  }

  /** `create_profile` as the client sees it, as written: the state after
      the request and the answer. The handler returns the stored row,
      whose countries hold the JSON text, so a profile that was committed
      is answered with 500. */
  function CreateProfileAnswer(j: Json, profiles: Profiles, account: Account, input: ProfileInput): (r: (Profiles, Account, Result<ProfileBody, int>))
    ensures account.id in profiles ==> r == (profiles, account, Err(BadRequest))
    ensures account.id !in profiles ==>
              r.0 == profiles[account.id := Stored(j, input)] && r.1.onboardingCompleted && r.1.stage == Discovery
              && r.2 == Err(ServerError)
  {
    match CreateProfile(j, profiles, account, input)
    case Err(e) => (profiles, account, Err(e))
    case Ok(v) => (v.0, v.1, ValidateProfile(v.0[account.id], TextValue(v.0[account.id].countries)))
  }

  /** `update_profile` as the client sees it, as written: the row is
      overwritten and committed, and then the answer fails with 500 for
      the same reason. */
  function UpdateProfileAnswer(j: Json, profiles: Profiles, account: Account, input: ProfileInput): (r: (Profiles, Result<ProfileBody, int>))
    ensures account.id !in profiles ==> r == (profiles, Err(NotFound))
    ensures account.id in profiles ==> r.0 == profiles[account.id := Stored(j, input)] && r.1 == Err(ServerError)
  {
    match UpdateProfile(j, profiles, account, input)
    case Err(e) => (profiles, Err(e))
    case Ok(ps) => (ps, ValidateProfile(ps[account.id], TextValue(ps[account.id].countries)))
  }

  /** The discrepancy: any first onboarding is stored and completes the
      account, yet the client is told the request failed; and any update
      is stored and answered with a failure. */
  lemma {:induction false} CommittedProfileAnswersServerError(j: Json, profiles: Profiles, account: Account, input: ProfileInput)
    ensures account.id !in profiles ==>
              var r := CreateProfileAnswer(j, profiles, account, input);
              account.id in r.0 && r.0[account.id] == Stored(j, input) && r.1.onboardingCompleted && r.2 == Err(ServerError)
    ensures account.id in profiles ==>
              var r := UpdateProfileAnswer(j, profiles, account, input);
              r.0[account.id] == Stored(j, input) && r.1 == Err(ServerError)
  {
  }

  /** The answer the handlers evidently mean: the stored countries decoded
      back into a list before validation. */
  function DecodedAnswer(j: Json, row: Profile): (r: Result<ProfileBody, int>)
    ensures j.loads(row.countries).Some? ==> r == Ok(ProfileBody(row, j.loads(row.countries).value))
    ensures j.loads(row.countries).None? ==> r == Err(ServerError)
  {
    match j.loads(row.countries)
    case Some(l) => ValidateProfile(row, ListValue(l))
    case None => ValidateProfile(row, TextValue(row.countries))
  }

  /** `create_profile` answering with the decoded row: the new profile
      comes back with the countries list as submitted. */
  function CreateProfileAnswerIntended(j: Json, profiles: Profiles, account: Account, input: ProfileInput): (r: (Profiles, Account, Result<ProfileBody, int>))
    ensures account.id in profiles ==> r == (profiles, account, Err(BadRequest))
    ensures account.id !in profiles ==>
              r.0 == profiles[account.id := Stored(j, input)] && r.1.onboardingCompleted && r.1.stage == Discovery
    ensures account.id !in profiles && JsonSound(j) ==> r.2 == Ok(ProfileBody(Stored(j, input), input.countries))
  {
    match CreateProfile(j, profiles, account, input)
    case Err(e) => (profiles, account, Err(e))
    case Ok(v) => (v.0, v.1, DecodedAnswer(j, v.0[account.id]))
  }

  /** `update_profile` answering with the decoded row: the updated profile
      comes back with the countries list as submitted. */
  function UpdateProfileAnswerIntended(j: Json, profiles: Profiles, account: Account, input: ProfileInput): (r: (Profiles, Result<ProfileBody, int>))
    ensures account.id !in profiles ==> r == (profiles, Err(NotFound))
    ensures account.id in profiles ==> r.0 == profiles[account.id := Stored(j, input)]
    ensures account.id in profiles && JsonSound(j) ==> r.1 == Ok(ProfileBody(Stored(j, input), input.countries))
  {
    match UpdateProfile(j, profiles, account, input)
    case Err(e) => (profiles, Err(e))
    case Ok(ps) => (ps, DecodedAnswer(j, ps[account.id]))
  }

  /** The countries as `/me` reports them: decoded, or the stored text when
      it is empty or does not decode. */
  datatype Countries = Decoded(list: seq<string>) | Raw(text: string)

  datatype ProfileView = ProfileView(row: Profile, countries: Countries)

  datatype Me = Me(id: int, name: string, email: string, onboardingCompleted: bool, stage: Stage, profile: Option<ProfileView>)

  /** `get_current_user_info`. */
  function GetMe(j: Json, profiles: Profiles, account: Account): (r: Me)
    ensures r.id == account.id && r.name == account.name && r.email == account.email
    ensures r.onboardingCompleted == account.onboardingCompleted && r.stage == account.stage
    ensures r.profile.Some? <==> account.id in profiles
    ensures r.profile.Some? ==> r.profile.value.row == profiles[account.id]
    ensures r.profile.Some? ==>
              var text := profiles[account.id].countries;
              r.profile.value.countries == if text != "" && j.loads(text).Some? then Decoded(j.loads(text).value) else Raw(text)
  {
    var view :=
      if account.id !in profiles then None
      else
        var p := profiles[account.id];
        var countries := if p.countries != "" && j.loads(p.countries).Some? then Decoded(j.loads(p.countries).value) else Raw(p.countries);
        Some(ProfileView(p, countries));
    Me(account.id, account.name, account.email, account.onboardingCompleted, account.stage, view)
  }

  /** After onboarding, `/me` reports the account as onboarded in the
      discovery stage and gives back the countries list as submitted. */
  lemma {:induction false} CreateThenMe(j: Json, profiles: Profiles, account: Account, input: ProfileInput)
    requires JsonSound(j)
    requires account.id !in profiles
    ensures var r := CreateProfile(j, profiles, account, input).value;
            var me := GetMe(j, r.0, r.1);
            me.onboardingCompleted && me.stage == Discovery
            && me.profile.Some? && me.profile.value.countries == Decoded(input.countries)
  {
    assert j.loads(j.dumps(input.countries)) == Some(input.countries) && j.dumps(input.countries) != "";
  }

  /** After an update, `/me` gives back the new countries list while the
      stage and onboarding flag stay where they were. */
  lemma {:induction false} UpdateThenMe(j: Json, profiles: Profiles, account: Account, input: ProfileInput)
    requires JsonSound(j)
    requires account.id in profiles
    ensures var me := GetMe(j, UpdateProfile(j, profiles, account, input).value, account);
            me.onboardingCompleted == account.onboardingCompleted && me.stage == account.stage
            && me.profile.Some? && me.profile.value.countries == Decoded(input.countries)
  {
    assert j.loads(j.dumps(input.countries)) == Some(input.countries) && j.dumps(input.countries) != "";
  }

  /** A second onboarding attempt is refused and so cannot reset the
      stage of an account that has moved on. */
  lemma {:induction false} CreateProfileOnce(j: Json, profiles: Profiles, account: Account, input: ProfileInput, again: ProfileInput)
    requires account.id !in profiles
    ensures var r := CreateProfile(j, profiles, account, input).value;
            CreateProfile(j, r.0, r.1, again) == Err(BadRequest)
  {
  }
}

=== FILE: counsellor_security.dfy ===
/** Password storage and access-token claims of the counsellor backend.
    SHA-256 is an abstract function from text to its hex digest; the salt,
    drawn at random in the service, is an argument. */
module CounsellorSecurity {
  import opened Wrappers
  import opened Strings

  predicate IsHexChar(c: char) {
    '0' <= c <= '9' || 'a' <= c <= 'f'
  }

  predicate IsHex(s: string) {
    forall i :: 0 <= i < |s| ==> IsHexChar(s[i])
  }

  /** What `secrets.token_hex(16)` produces: 32 lower-case hex digits. */
  predicate IsSalt(salt: string) {
    |salt| == 32 && IsHex(salt)
  }

  /** The abstract `hexdigest` of SHA-256 over a text. */
  type Digest = string -> string

  /** What the model uses of SHA-256: its hex digest is hex. */
  ghost predicate HexDigests(h: Digest) {
    forall x :: IsHex(h(x))
  }

  lemma {:induction false} HexHasNoDollar(s: string)
    requires IsHex(s)
    ensures '$' !in s
  {
    forall i | 0 <= i < |s| ensures s[i] != '$' {
      assert IsHexChar(s[i]);
    }
  }

  /** `get_password_hash`: the salt, a `$`, and the digest of the password
      followed by the salt. */
  function HashPassword(h: Digest, password: string, salt: string): (stored: string)
    requires IsSalt(salt)
    ensures |stored| == 33 + |h(password + salt)|
    ensures stored[..32] == salt && stored[32] == '$' && stored[33..] == h(password + salt)
  {
    salt + "$" + h(password + salt)
  }

  /** `verify_password`: the stored text must split on `$` into exactly a
      salt and a digest; anything else is a mismatch, never an error. */
  function VerifyPassword(h: Digest, plain: string, stored: string): (ok: bool)
    ensures |SplitOn(stored, '$')| != 2 ==> !ok
    ensures |SplitOn(stored, '$')| == 2 ==> (ok <==> h(plain + SplitOn(stored, '$')[0]) == SplitOn(stored, '$')[1])
  {
    var parts := SplitOn(stored, '$');
    if |parts| != 2 then false
    else h(plain + parts[0]) == parts[1]
  }

  /** On a stored text made of a salt and a digest, verification compares
      the digest of the candidate with the stored one. */
  lemma {:induction false} VerifyComparesDigests(h: Digest, plain: string, salt: string, digest: string)
    requires '$' !in salt && '$' !in digest
    ensures VerifyPassword(h, plain, salt + "$" + digest) <==> h(plain + salt) == digest
  {
    SplitTwo(salt, digest, '$');
    assert salt + "$" + digest == salt + ['$'] + digest;
  }

  /** A stored text verifies only if it holds exactly one `$`: one with
      none, or with several, never verifies. */
  lemma {:induction false} VerifiedHasOneDollar(h: Digest, plain: string, stored: string)
    requires VerifyPassword(h, plain, stored)
    ensures '$' in stored
    ensures forall k :: 0 <= k < |stored| && stored[k] == '$' ==> k == |SplitOn(stored, '$')[0]|
  {
    var parts := SplitOn(stored, '$');
    assert JoinWith(parts, '$') == parts[0] + ['$'] + parts[1];
    assert stored == parts[0] + ['$'] + parts[1];
    assert stored[|parts[0]|] == '$';
    DollarPositions(parts[0], parts[1]);
  }

  lemma {:induction false} DollarPositions(a: string, b: string)
    requires '$' !in a && '$' !in b
    ensures forall k :: 0 <= k < |a + ['$'] + b| && k != |a| ==> (a + ['$'] + b)[k] != '$'
  {
    var s := a + ['$'] + b;
    forall k | 0 <= k < |s| && k != |a| ensures s[k] != '$' {
      if k < |a| {
        assert s[k] == a[k];
      } else {
        assert s[k] == b[k - |a| - 1];
      }
    }
  }

  /** A password always verifies against its own stored hash, and (for the
      same digest function) no other password whose digest differs does. */
  lemma {:induction false} HashThenVerify(h: Digest, password: string, other: string, salt: string)
    requires HexDigests(h) && IsSalt(salt)
    ensures VerifyPassword(h, password, HashPassword(h, password, salt))
    ensures VerifyPassword(h, other, HashPassword(h, password, salt)) <==> h(other + salt) == h(password + salt)
  {
    HexHasNoDollar(salt);
    HexHasNoDollar(h(password + salt));
    VerifyComparesDigests(h, password, salt, h(password + salt));
    VerifyComparesDigests(h, other, salt, h(password + salt));
  }

  // ---------------------------------------------------------------------
  // Access-token claims
  // ---------------------------------------------------------------------

  datatype ClaimValue = Text(text: string) | Time(seconds: int)

  type Claims = map<string, ClaimValue>

  /** The lifetime used when none (or a zero one) is given: 15 minutes. */
  const DefaultLifetime: int := 15 * 60

  /** The claims `create_access_token` signs: a copy of `data` with `exp`
      set to `now` plus the lifetime. A zero lifetime is falsy and falls
      back to the default. Signing itself is left abstract. */
  function TokenClaims(data: Claims, now: int, lifetime: Option<int>): (r: Claims)
    ensures "exp" in r
    ensures lifetime.Some? && lifetime.value != 0 ==> r["exp"] == Time(now + lifetime.value)
    ensures lifetime.None? || lifetime.value == 0 ==> r["exp"] == Time(now + DefaultLifetime)
    ensures r.Keys == data.Keys + {"exp"}
    ensures forall k :: k in data && k != "exp" ==> r[k] == data[k]
  {
    var seconds := if lifetime.Some? && lifetime.value != 0 then lifetime.value else DefaultLifetime;
    data["exp" := Time(now + seconds)]
  }
}

=== FILE: counsellor_universities.dfy ===
/** The university catalogue filter and the shortlist endpoints: add,
    lock (with the one stage move it can cause) and remove. */
module CounsellorUniversities {
  import opened Wrappers
  import opened CounsellorModels

  const BadRequest: int := 400
  const NotFound: int := 404

  /** The query filters; JavaScript-style falsy values (`None`, `""`, `0`)
      switch a filter off. */
  datatype UniversityQuery = UniversityQuery(country: Option<string>, minCost: Option<int>, maxCost: Option<int>, ranking: Option<string>)

  predicate TextSet(v: Option<string>) { v.Some? && v.value != "" }
  predicate NumberSet(v: Option<int>) { v.Some? && v.value != 0 }

  /** Whether a row passes every filter that is switched on. A row with an
      empty cost column fails a cost filter, as SQL comparisons with NULL
      do. */
  predicate Matches(u: University, q: UniversityQuery) {
    && (TextSet(q.country) ==> u.country == q.country.value)
    && (NumberSet(q.minCost) ==> u.avgCost.Some? && u.avgCost.value >= q.minCost.value)
    && (NumberSet(q.maxCost) ==> u.avgCost.Some? && u.avgCost.value <= q.maxCost.value)
    && (TextSet(q.ranking) ==> u.rankingBand == q.ranking)
  }

  /** Whether `sub` is `s` with some rows left out, order kept. */
  predicate Subsequence<T(==)>(sub: seq<T>, s: seq<T>)
    decreases |s|
  {
    |sub| == 0 || (|s| > 0 && (if sub[0] == s[0] then Subsequence(sub[1..], s[1..]) else Subsequence(sub, s[1..])))
  }

  /** `get_universities`: exactly the rows passing the active filters, in
      table order. */
  function FilterUniversities(unis: seq<University>, q: UniversityQuery): (r: seq<University>)
    ensures forall u :: u in r <==> u in unis && Matches(u, q)
    ensures Subsequence(r, unis)
  {
    if |unis| == 0 then []
    else
      var rest := FilterUniversities(unis[1..], q);
      assert forall u :: u in unis ==> u == unis[0] || u in unis[1..];
      if Matches(unis[0], q) then [unis[0]] + rest else rest
  }

  /** A zero cost bound filters nothing: `min_cost=0` and `max_cost=0` are
      the same as leaving them out. */
  lemma {:induction false} ZeroCostIgnored(unis: seq<University>, q: UniversityQuery)
    ensures FilterUniversities(unis, q.(minCost := Some(0))) == FilterUniversities(unis, q.(minCost := None))
    ensures FilterUniversities(unis, q.(maxCost := Some(0))) == FilterUniversities(unis, q.(maxCost := None))
  {
    assert forall u :: Matches(u, q.(minCost := Some(0))) == Matches(u, q.(minCost := None));
    assert forall u :: Matches(u, q.(maxCost := Some(0))) == Matches(u, q.(maxCost := None));
    SameFilter(unis, q.(minCost := Some(0)), q.(minCost := None));
    SameFilter(unis, q.(maxCost := Some(0)), q.(maxCost := None));
  }

  lemma {:induction false} SameFilter(unis: seq<University>, p: UniversityQuery, q: UniversityQuery)
    requires forall u :: Matches(u, p) == Matches(u, q)
    ensures FilterUniversities(unis, p) == FilterUniversities(unis, q)
  {
    if |unis| > 0 {
      SameFilter(unis[1..], p, q);
    }
  }

  /** `get_university`: 404 for an unknown id. */
  function GetUniversity(unis: seq<University>, id: int): (r: Result<University, int>)
    ensures r.Err? <==> forall u :: u in unis ==> u.id != id
    ensures r.Err? ==> r.error == NotFound
    ensures r.Ok? ==> r.value in unis && r.value.id == id
  {
    if |unis| == 0 then Err(NotFound)
    else if unis[0].id == id then Ok(unis[0])
    else
      assert forall u :: u in unis ==> u == unis[0] || u in unis[1..];
      GetUniversity(unis[1..], id)
  }

  // ---------------------------------------------------------------------
  // Shortlist
  // ---------------------------------------------------------------------

  predicate HasPair(entries: seq<Entry>, userId: int, universityId: int) {
    exists i :: 0 <= i < |entries| && entries[i].userId == userId && entries[i].universityId == Some(universityId)
  }

  /** `add_to_shortlist`: 400 when the account already listed the
      university; otherwise one new row with the requested category and
      lock flag (unlocked unless the request says otherwise). */
  function AddToShortlist(entries: seq<Entry>, userId: int, universityId: int, category: string, locked: bool): (r: Result<seq<Entry>, int>)
    ensures r.Err? <==> HasPair(entries, userId, universityId)
    ensures r.Err? ==> r.error == BadRequest
    ensures r.Ok? ==> |r.value| == |entries| + 1 && r.value[..|entries|] == entries
    ensures r.Ok? ==> var e := r.value[|entries|];
                      e.userId == userId && e.universityId == Some(universityId)
                      && e.category == Some(category) && e.locked == locked
                      && forall old_e :: old_e in entries ==> old_e.id != e.id
  {
    if HasPair(entries, userId, universityId) then Err(BadRequest)
    else Ok(entries + [Entry(NextEntryId(entries), userId, Some(universityId), Some(category), locked)])
  }

  /** Adding keeps one row per (account, university) and unique row ids. */
  lemma {:induction false} AddKeepsInvariants(entries: seq<Entry>, userId: int, universityId: int, category: string, locked: bool)
    requires OnePerPair(entries) && UniqueIds(entries)
    ensures var r := AddToShortlist(entries, userId, universityId, category, locked);
            r.Ok? ==> OnePerPair(r.value) && UniqueIds(r.value)
  {
    var r := AddToShortlist(entries, userId, universityId, category, locked);
    if r.Ok? {
      var after := r.value;
      var n := |entries|;
      forall j | 0 <= j < n
        ensures !(after[j].userId == userId && after[j].universityId == Some(universityId))
        ensures after[j].id != after[n].id
      {
        assert after[j] == entries[j];
        assert entries[j] in entries;
      }
    }
  }

  /** The position of the caller's row with id `id`, if any. */
  function FindOwn(entries: seq<Entry>, userId: int, id: int): (r: Option<nat>)
    ensures r.None? <==> forall i :: 0 <= i < |entries| ==> !(entries[i].id == id && entries[i].userId == userId)
    ensures r.Some? ==> r.value < |entries| && entries[r.value].id == id && entries[r.value].userId == userId
  {
    if |entries| == 0 then None
    else if entries[0].id == id && entries[0].userId == userId then Some(0)
    else match FindOwn(entries[1..], userId, id)
      case None => None
      case Some(k) => Some(k + 1)
  }

  /** The number of the account's locked rows. */
  function LockedCount(entries: seq<Entry>, userId: int): nat {
    if |entries| == 0 then 0
    else (if entries[0].userId == userId && entries[0].locked then 1 else 0) + LockedCount(entries[1..], userId)
  }

  lemma {:induction false} LockedCountPositive(entries: seq<Entry>, userId: int, k: nat)
    requires k < |entries| && entries[k].userId == userId && entries[k].locked
    ensures LockedCount(entries, userId) >= 1
  {
    if k > 0 {
      LockedCountPositive(entries[1..], userId, k - 1);
    }
  }

  /** The stage after a lock: locking moves on to application once some
      row is locked; every other stage stays. */
  function StageAfterLock(stage: Stage, lockedCount: nat): (s: Stage)
    ensures s == Application <==> stage == Application || (stage == Locking && lockedCount >= 1)
    ensures s != Application ==> s == stage
  {
    if lockedCount >= 1 && stage == Locking then Application else stage
  }

  /** `lock_university`: 404 unless the caller owns a row with that id;
      otherwise the row is locked and the stage may move on. */
  function LockUniversity(entries: seq<Entry>, account: Account, id: int): (r: Result<(seq<Entry>, Account), int>)
    ensures r.Err? <==> FindOwn(entries, account.id, id).None?
    ensures r.Err? ==> r.error == NotFound
    ensures r.Ok? ==> var k := FindOwn(entries, account.id, id).value;
                      r.value.0 == entries[k := entries[k].(locked := true)]
    ensures r.Ok? ==> r.value.1 == account.(stage := if account.stage == Locking then Application else account.stage)
  {
    match FindOwn(entries, account.id, id)
    case None => Err(NotFound)
    case Some(k) =>
      var after := entries[k := entries[k].(locked := true)];
      LockedCountPositive(after, account.id, k);
      Ok((after, account.(stage := StageAfterLock(account.stage, LockedCount(after, account.id)))))
  }

  /** Locking changes no row other than the one locked, so it keeps the
      shortlist invariants. */
  lemma {:induction false} LockKeepsInvariants(entries: seq<Entry>, account: Account, id: int)
    requires OnePerPair(entries) && UniqueIds(entries)
    ensures var r := LockUniversity(entries, account, id);
            r.Ok? ==> OnePerPair(r.value.0) && UniqueIds(r.value.0)
  {
  }

  /** `remove_from_shortlist`: 404 unless the caller owns a row with that
      id; otherwise exactly that row goes. */
  function RemoveFromShortlist(entries: seq<Entry>, userId: int, id: int): (r: Result<seq<Entry>, int>)
    ensures r.Err? <==> FindOwn(entries, userId, id).None?
    ensures r.Err? ==> r.error == NotFound
    ensures r.Ok? ==> var k := FindOwn(entries, userId, id).value;
                      r.value == entries[..k] + entries[k + 1..]
  {
    match FindOwn(entries, userId, id)
    case None => Err(NotFound)
    case Some(k) => Ok(entries[..k] + entries[k + 1..])
  }

  /** Removing keeps the shortlist invariants and touches nobody else's
      rows: with unique ids, the removed row is the only one with its id. */
  lemma {:induction false} RemoveKeepsInvariants(entries: seq<Entry>, userId: int, id: int)
    requires OnePerPair(entries) && UniqueIds(entries)
    ensures var r := RemoveFromShortlist(entries, userId, id);
            r.Ok? ==> OnePerPair(r.value) && UniqueIds(r.value)
                      && (forall e :: e in entries && e.id != id ==> e in r.value)
                      && (forall e :: e in r.value ==> e in entries && e.id != id)
  {
    var r := RemoveFromShortlist(entries, userId, id);
    if r.Ok? {
      var k := FindOwn(entries, userId, id).value;
      DeleteAtShifts(entries, k);
      DeleteAtKeepsPairwise(entries, k);
      DeleteAtKeepsOthers(entries, k);
    }
  }

  /** The rows after deleting row `k`: those before it in place, those
      after it one position earlier. */
  lemma {:induction false} DeleteAtShifts(entries: seq<Entry>, k: nat)
    requires k < |entries|
    ensures var after := entries[..k] + entries[k + 1..];
            |after| == |entries| - 1
            && forall i :: 0 <= i < |after| ==> after[i] == entries[if i < k then i else i + 1]
  {
  }

  lemma {:induction false} DeleteAtKeepsPairwise(entries: seq<Entry>, k: nat)
    requires k < |entries| && OnePerPair(entries) && UniqueIds(entries)
    ensures OnePerPair(entries[..k] + entries[k + 1..]) && UniqueIds(entries[..k] + entries[k + 1..])
  {
    DeleteAtShifts(entries, k);
  }

  /** With unique ids, the deleted row is the only one with its id. */
  lemma {:induction false} DeleteAtKeepsOthers(entries: seq<Entry>, k: nat)
    requires k < |entries| && UniqueIds(entries)
    ensures var after := entries[..k] + entries[k + 1..];
            && (forall e :: e in entries && e.id != entries[k].id ==> e in after)
            && (forall e :: e in after ==> e in entries && e.id != entries[k].id)
  {
    var after := entries[..k] + entries[k + 1..];
    DeleteAtShifts(entries, k);
    forall e | e in entries && e.id != entries[k].id ensures e in after {
      var i :| 0 <= i < |entries| && entries[i] == e;
      if i < k {
        assert after[i] == e;
      } else {
        assert after[i - 1] == e;
      }
    }
    forall e | e in after ensures e in entries && e.id != entries[k].id {
      var i :| 0 <= i < |after| && after[i] == e;
      var j := if i < k then i else i + 1;
      assert entries[j] == e && j != k;
    }
  }
}

=== FILE: dm_client.dfy ===
/** The direct-message page's client state: which thread is selected and
    how that survives a reload, how a fetched inbox is reconciled with the
    selection, what the message pane shows, and which requests the local
    guards let through. */
module DirectMessagesClient {
  import opened Wrappers
  import opened Strings
  import opened DirectMessageTypes
  import opened CallSignals

  // ---------------------------------------------------------------------
  // The selected thread and its storage key
  // ---------------------------------------------------------------------

  /** JavaScript truthiness of the selected thread id: `null` and `0` are
      both "nothing selected". */
  predicate Truthy(sel: Option<int>) {
    sel.Some? && sel.value != 0
  }

  /** The value of the `selected_dm_thread_id` storage key after
      `persistSelectedThread`: removed when nothing is selected, otherwise
      the decimal text of the id. */
  function Persist(sel: Option<int>): (stored: Option<string>)
    ensures stored.None? <==> !Truthy(sel)
    ensures stored.Some? ==> ParseInt(stored.value) == sel
  {
    if !Truthy(sel) then None
    else
      ParseIntOfIntToString(sel.value);
      Some(IntToString(sel.value))
  }

  /** JavaScript `Number(s)` for texts that denote integers: surrounding
      whitespace is ignored, a blank text is 0, a sign is allowed. Every
      other text is `NaN`, written `None`. */
  function JsNumber(s: string): (r: Option<int>)
    ensures Trim(s) == [] ==> r == Some(0)
    ensures r.Some? && Trim(s) != [] ==>
              var t := Trim(s);
              AllDigits(t) || ((t[0] == '-' || t[0] == '+') && |t| > 1 && AllDigits(t[1..]))
  {
    var t := Trim(s);
    if t == [] then Some(0)
    else if |t| > 1 && t[0] == '+' && AllDigits(t[1..]) then Some(DigitsValue(t[1..]))
    else ParseInt(t)
  }

  /** `setSelectedThreadFromStorage`: a missing or empty key selects
      nothing; otherwise the key is read with `Number` and a non-finite
      result selects nothing. */
  function LoadSelection(stored: Option<string>): (sel: Option<int>)
    ensures stored.None? || stored == Some("") ==> sel.None?
    ensures stored.Some? && stored.value != "" ==> sel == JsNumber(stored.value)
  {
    match stored
    case None => None
    case Some(s) => if s == "" then None else JsNumber(s)
  }

  /** Persisting a selected id and loading it back gives the same id;
      persisting `null` or `0` loads back as `null`. */
  lemma {:induction false} PersistLoadRoundTrip(sel: Option<int>)
    ensures Truthy(sel) ==> LoadSelection(Persist(sel)) == sel
    ensures !Truthy(sel) ==> LoadSelection(Persist(sel)) == None
  {
    if Truthy(sel) {
      var s := IntToString(sel.value);
      StripByKeeps(s, IsSpace);
      if |s| > 1 {
        assert s[0] != '+';
      }
    }
  }

  /** A stored text that is not a number loads as no selection. */
  lemma {:induction false} NonNumericLoadsNothing(s: string)
    requires s != "" && Trim(s) != []
    requires exists i :: 0 <= i < |Trim(s)| && !IsDigit(Trim(s)[i]) && !(i == 0 && (Trim(s)[0] == '-' || Trim(s)[0] == '+'))
    ensures LoadSelection(Some(s)) == None
  {
    var t := Trim(s);
    var i :| 0 <= i < |t| && !IsDigit(t[i]) && !(i == 0 && (t[0] == '-' || t[0] == '+'));
    if |t| > 1 && (t[0] == '-' || t[0] == '+') {
      assert i > 0 && t[1..][i - 1] == t[i];
    }
  }

  /** A stored text of blanks is not empty, so it is read, and `Number`
      reads it as 0: the page comes up with the falsy selection 0. */
  lemma {:induction false} BlankStoredValueLoadsZero(s: string)
    requires s != "" && forall i :: 0 <= i < |s| ==> IsSpace(s[i])
    ensures LoadSelection(Some(s)) == Some(0)
    ensures !Truthy(LoadSelection(Some(s)))
  {
    TrimEmptyIff(s);
  }

  // ---------------------------------------------------------------------
  // Reconciling the selection with a fetched inbox
  // ---------------------------------------------------------------------

  /** The selection, the peer shown in the header, and the storage key. */
  datatype Selection = Selection(id: Option<int>, other: Option<OtherUser>, stored: Option<string>)

  /** The storage key mirrors the selection. */
  predicate InSync(s: Selection) {
    s.stored == Persist(s.id)
  }

  /** JavaScript `xs.find(x => key(x) === k)`: the first element whose key
      is `k`. */
  function FindBy<T, K(==)>(xs: seq<T>, key: T -> K, k: K): (r: Option<T>)
    ensures r.Some? ==> r.value in xs && key(r.value) == k
    ensures r.None? <==> forall i :: 0 <= i < |xs| ==> key(xs[i]) != k
  {
    if |xs| == 0 then None
    else if key(xs[0]) == k then Some(xs[0])
    else FindBy(xs[1..], key, k)
  }

  /** The first listed thread with the given id (`threads.find`). */
  function FindThread(threads: seq<Thread>, id: int): (r: Option<Thread>)
    ensures r.Some? ==> r.value in threads && r.value.id == id
    ensures r.None? <==> forall k :: 0 <= k < |threads| ==> threads[k].id != id
  {
    FindBy(threads, (t: Thread) => t.id, id)
  }

  /** What `loadThreads` leaves behind: the new selection, whether the
      inbox pane shows the error text, whether the composer is enabled,
      and whether the messages of the selected thread are fetched next. */
  datatype InboxOutcome = InboxOutcome(sel: Selection, inboxError: bool, composerEnabled: bool, loadMessages: bool)

  /** `loadThreads(alsoLoadMessages)` after the inbox request: `None` is a
      failed request, which returns before the composer is touched, so
      `composer` (whether it is enabled now) carries over. A selected id
      missing from the list is dropped (and the key removed); with nothing
      selected the first listed thread is taken and its messages are
      fetched. */
  function LoadThreads(sel: Selection, composer: bool, fetched: Option<seq<Thread>>, alsoLoad: bool): (r: InboxOutcome)
    // A failed request changes no selection, leaves the composer as it
    // was and fetches nothing.
    ensures fetched.None? ==> r.sel == sel && r.inboxError && !r.loadMessages && r.composerEnabled == composer
    // A selected id that is listed stays, and the header shows its peer.
    ensures fetched.Some? && Truthy(sel.id) && FindThread(fetched.value, sel.id.value).Some? ==>
              r.sel.id == sel.id && r.sel.stored == sel.stored
              && r.sel.other == Some(FindThread(fetched.value, sel.id.value).value.otherUser)
              && r.loadMessages == alsoLoad
    // A selected id that is not listed is dropped and its key removed;
    // an empty list leaves nothing selected.
    ensures fetched.Some? && Truthy(sel.id) && FindThread(fetched.value, sel.id.value).None? && |fetched.value| == 0 ==>
              r.sel == Selection(None, None, None) && !r.loadMessages
    // With nothing selected, an empty list changes nothing.
    ensures fetched.Some? && !Truthy(sel.id) && |fetched.value| == 0 ==>
              r.sel == sel && !r.loadMessages
    // A dropped selection, or none, falls back on the first listed thread:
    // it is selected and stored, the header shows its peer, and its
    // messages are loaded (unless its id is the falsy 0).
    ensures fetched.Some? && |fetched.value| > 0
            && (!Truthy(sel.id) || FindThread(fetched.value, sel.id.value).None?) ==>
              r.sel == Selection(Some(fetched.value[0].id), Some(fetched.value[0].otherUser), Persist(Some(fetched.value[0].id)))
              && r.loadMessages == (fetched.value[0].id != 0)
    ensures fetched.Some? ==> !r.inboxError
    ensures fetched.Some? ==> (r.composerEnabled <==> Truthy(r.sel.id))
    ensures r.loadMessages ==> Truthy(r.sel.id)
  {
    match fetched
    case None => InboxOutcome(sel, true, composer, false)
    case Some(threads) =>
      var s1 :=
        if Truthy(sel.id) then
          match FindThread(threads, sel.id.value)
          case None => Selection(None, None, Persist(None))
          case Some(t) => sel.(other := Some(t.otherUser))
        else sel;
      var fallback := !Truthy(s1.id) && |threads| > 0;
      var s2 :=
        if fallback then Selection(Some(threads[0].id), Some(threads[0].otherUser), Persist(Some(threads[0].id)))
        else s1;
      InboxOutcome(s2, false, Truthy(s2.id), (alsoLoad || fallback) && Truthy(s2.id))
  }

  /** Reconciliation keeps the storage key in step with the selection. */
  lemma {:induction false} LoadThreadsKeepsSync(sel: Selection, composer: bool, fetched: Option<seq<Thread>>, alsoLoad: bool)
    requires InSync(sel)
    ensures InSync(LoadThreads(sel, composer, fetched, alsoLoad).sel)
  {
  }

  /** After a successful fetch, a selection that is set names a listed
      thread, and a non-empty list always leaves something selected unless
      its first thread has the falsy id 0. */
  lemma {:induction false} LoadThreadsSelectsListed(sel: Selection, composer: bool, threads: seq<Thread>, alsoLoad: bool)
    ensures var r := LoadThreads(sel, composer, Some(threads), alsoLoad);
            Truthy(r.sel.id) ==> exists k :: 0 <= k < |threads| && threads[k].id == r.sel.id.value
    ensures |threads| > 0 && threads[0].id != 0 ==> Truthy(LoadThreads(sel, composer, Some(threads), alsoLoad).sel.id)
  {
    var r := LoadThreads(sel, composer, Some(threads), alsoLoad);
    if Truthy(r.sel.id) {
      if Truthy(sel.id) && FindThread(threads, sel.id.value).Some? {
        var t := FindThread(threads, sel.id.value).value;
        var k :| 0 <= k < |threads| && threads[k] == t;
      } else {
        assert threads[0].id == r.sel.id.value;
      }
    }
  }

  /** Reconciling twice with the same list changes nothing the second
      time: the selection, the stored key and the composer stay put. */
  lemma {:induction false} LoadThreadsIdempotent(sel: Selection, composer: bool, threads: seq<Thread>, alsoLoad: bool)
    ensures var r := LoadThreads(sel, composer, Some(threads), alsoLoad);
            var r2 := LoadThreads(r.sel, r.composerEnabled, Some(threads), alsoLoad);
            r2.sel == r.sel && r2.composerEnabled == r.composerEnabled && !r2.inboxError
  {
    var r := LoadThreads(sel, composer, Some(threads), alsoLoad);
    if Truthy(r.sel.id) {
      LoadThreadsSelectsListed(sel, composer, threads, alsoLoad);
      var k :| 0 <= k < |threads| && threads[k].id == r.sel.id.value;
      var t := FindThread(threads, r.sel.id.value);
      if Truthy(sel.id) && FindThread(threads, sel.id.value).Some? {
      } else {
        assert FindThread(threads, threads[0].id) == Some(threads[0]);
      }
    }
  }

  /** Clicking a thread in the list: the id is stored and the inbox is
      reloaded with a message fetch. */
  function ClickThread(sel: Selection, composer: bool, id: int, fetched: Option<seq<Thread>>): (r: InboxOutcome)
    ensures fetched.None? ==> r.sel.id == Some(id) && r.sel.stored == Persist(Some(id)) && r.composerEnabled == composer
    ensures fetched.Some? && id != 0 && FindThread(fetched.value, id).Some? ==>
              r.sel.id == Some(id) && r.loadMessages
  {
    LoadThreads(Selection(Some(id), sel.other, Persist(Some(id))), composer, fetched, true)
  }

  // ---------------------------------------------------------------------
  // The message pane
  // ---------------------------------------------------------------------

  /** What the message pane holds. */
  datatype Pane =
    | Blank
    | NoMessagesYet
    | NotAllowed
    | Items(items: seq<Item>)

  /** `renderMessages`: while the mouse is over a quick-reaction menu the
      pane is left exactly as it was; an absent or empty list shows the
      placeholder; otherwise the pane holds the rendered entries. */
  function RenderMessages(hovering: bool, pane: Pane, msgs: Option<seq<Message>>, selected: Option<int>): (r: Pane)
    ensures hovering ==> r == pane
    ensures !hovering && (msgs.None? || |msgs.value| == 0) ==> r == NoMessagesYet
    ensures !hovering && msgs.Some? && |msgs.value| > 0 ==>
              r.Items? && |r.items| == |Visible(msgs.value)|
              && forall k :: 0 <= k < |r.items| ==>
                   r.items[k].msg == Visible(msgs.value)[k]
                   && (r.items[k].CallCard? ==> (r.items[k].isEnded <==> r.items[k].msg.id in Scan(msgs.value).ended))
                   && r.items[k] == RenderItem(Visible(msgs.value)[k], Scan(msgs.value).ended, selected)
  {
    if hovering then pane
    else if msgs.None? || |msgs.value| == 0 then NoMessagesYet
    else Items(RenderItems(msgs.value, selected))
  }

  /** `loadMessages` after the request: nothing is requested without a
      selection; a 403 shows the not-allowed text (even while hovering);
      any other failure leaves the pane alone. */
  function LoadMessages(sel: Option<int>, hovering: bool, pane: Pane, response: Result<seq<Message>, int>): (r: Pane)
    ensures !Truthy(sel) ==> r == pane
    ensures Truthy(sel) && response == Err(403) ==> r == NotAllowed
    ensures Truthy(sel) && response.Err? && response.error != 403 ==> r == pane
    ensures Truthy(sel) && response.Ok? ==> r == RenderMessages(hovering, pane, Some(response.value), sel)
  {
    if !Truthy(sel) then pane
    else
      match response
      case Err(code) => if code == 403 then NotAllowed else pane
      case Ok(msgs) => RenderMessages(hovering, pane, Some(msgs), sel)
  }

  /** A poll tick while hovering never disturbs the pane, whatever arrives. */
  lemma {:induction false} HoverFreezesPane(sel: Option<int>, pane: Pane, msgs: seq<Message>)
    ensures LoadMessages(sel, true, pane, Ok(msgs)) == pane
  {
  }

  // ---------------------------------------------------------------------
  // Reaction bubbles
  // ---------------------------------------------------------------------

  /** The reaction request a click issues. */
  datatype ReactionRequest =
    | AddReaction(messageId: int, emoji: string)
    | RemoveReaction(messageId: int, emoji: string)

  function FindMessage(msgs: seq<Message>, id: int): (r: Option<Message>)
    ensures r.Some? ==> r.value in msgs && r.value.id == id
    ensures r.None? <==> forall k :: 0 <= k < |msgs| ==> msgs[k].id != id
  {
    FindBy(msgs, (m: Message) => m.id, id)
  }

  function FindReaction(rs: seq<Reaction>, emoji: string): (r: Option<Reaction>)
    ensures r.Some? ==> r.value in rs && r.value.emoji == emoji
    ensures r.None? <==> forall k :: 0 <= k < |rs| ==> rs[k].emoji != emoji
  {
    FindBy(rs, (g: Reaction) => g.emoji, emoji)
  }

  /** Whether the viewer is among the users of a reaction group. */
  predicate ViewerIn(users: seq<Reactor>) {
    exists k :: 0 <= k < |users| && users[k].isMe
  }

  /** Clicking the bubble of `emoji` under message `id` among the drawn
      messages: a remove when the viewer is among that group's users, an
      add otherwise (also when the message or group is not found). */
  function BubbleClick(drawn: seq<Message>, id: int, emoji: string): (r: ReactionRequest)
    ensures r.messageId == id && r.emoji == emoji
    ensures r.RemoveReaction? <==>
              exists m, g :: m in drawn && m.id == id && g in m.reactions && g.emoji == emoji && ViewerIn(g.users)
                && FindMessage(drawn, id) == Some(m) && FindReaction(m.reactions, emoji) == Some(g)
  {
    var m := FindMessage(drawn, id);
    if m.Some? && FindReaction(m.value.reactions, emoji).Some?
       && ViewerIn(FindReaction(m.value.reactions, emoji).value.users)
    then RemoveReaction(id, emoji)
    else AddReaction(id, emoji)
  }

  // ---------------------------------------------------------------------
  // Local guards
  // ---------------------------------------------------------------------

  /** A message post to a thread. */
  datatype SendRequest = SendRequest(threadId: int, text: string)

  /** `sendMessage(text)`: no request without a selection or with empty
      text. */
  function SendMessage(sel: Option<int>, text: string): (r: Option<SendRequest>)
    ensures r.Some? <==> Truthy(sel) && text != ""
    ensures r.Some? ==> r.value == SendRequest(sel.value, text)
  {
    if Truthy(sel) && text != "" then Some(SendRequest(sel.value, text)) else None
  }

  /** The composer submit handler: the trimmed text is sent; a blank text
      leaves the input alone and sends nothing; otherwise the input is
      cleared before sending. */
  function Submit(sel: Option<int>, input: string): (r: (string, Option<SendRequest>))
    ensures Trim(input) == [] ==> r == (input, None)
    ensures Trim(input) != [] ==> r.0 == "" && r.1 == SendMessage(sel, Trim(input))
  {
    var text := Trim(input);
    if text == [] then (input, None) else ("", SendMessage(sel, text))
  }

  /** A submitted message is never blank and has nothing left to trim, and
      it is sent exactly when a thread is selected and the input is not
      blank. */
  lemma {:induction false} SubmittedTextIsTrimmed(sel: Option<int>, input: string)
    ensures Submit(sel, input).1.Some? <==> Truthy(sel) && exists i :: 0 <= i < |input| && !IsSpace(input[i])
    ensures Submit(sel, input).1.Some? ==>
              var t := Submit(sel, input).1.value.text;
              t != [] && Trim(t) == t
  {
    TrimEmptyIff(input);
    TrimIdempotent(input);
  }

  /** The start-call buttons: with no selected thread nothing happens;
      otherwise the call manager is asked to start the call, and the
      marker message is sent only once that succeeded (`joined`, the call
      manager's outcome, is a parameter); a failure only shows a toast. */
  function StartCall(sel: Option<int>, voice: bool, joined: bool): (r: Option<SendRequest>)
    ensures r.Some? <==> Truthy(sel) && joined
    ensures r.Some? ==> r.value == SendRequest(sel.value, if voice then VoiceStartMarker else VideoStartMarker)
  {
    if joined then SendMessage(sel, if voice then VoiceStartMarker else VideoStartMarker) else None
  }

  /** The end-of-call hook: the marker is sent only with a selected
      thread. */
  function EndCall(sel: Option<int>): (r: Option<SendRequest>)
    ensures r.Some? <==> Truthy(sel)
    ensures r.Some? ==> r.value == SendRequest(sel.value, CallEndedMarker)
  {
    SendMessage(sel, CallEndedMarker)
  }

  /** The messages the call buttons send are read back by the renderer as
      a start and an end. */
  lemma {:induction false} CallMessagesDecode(sel: Option<int>, voice: bool, id: int, isMe: bool)
    requires Truthy(sel)
    ensures SignalOf(Message(id, StartCall(sel, voice, true).value.text, isMe, [])) == Start
    ensures SignalOf(Message(id, EndCall(sel).value.text, isMe, [])) == End
  {
  }

  /** The result of the user-search input handler. */
  datatype SearchAction =
    | HideResults
    | SearchFor(query: string)

  /** `performUserSearch(query)`: an empty query, or one whose trimmed text
      is shorter than 2 in JavaScript's measure (UTF-16 code units), hides
      the results panel and requests nothing; otherwise the trimmed text
      is queried. */
  function PerformUserSearch(query: string): (r: SearchAction)
    ensures r.HideResults? <==> Utf16Length(Trim(query)) < 2
    ensures r.SearchFor? ==> r.query == Trim(query) && Utf16Length(r.query) >= 2 && Trim(r.query) == r.query
  {
    TrimIdempotent(query);
    if query == "" || Utf16Length(Trim(query)) < 2 then HideResults else SearchFor(Trim(query))
  }
}

=== FILE: dm_types.dfy ===
/** The records the direct-messaging client receives from the server. */
module DirectMessageTypes {

  /** One user who reacted, tagged with whether it is the viewer. */
  datatype Reactor = Reactor(username: string, isMe: bool)

  /** The server's aggregate of one emoji on one message. */
  datatype Reaction = Reaction(emoji: string, count: int, users: seq<Reactor>)

  /** A direct message as listed oldest first by the thread endpoint. */
  datatype Message = Message(id: int, text: string, isMe: bool, reactions: seq<Reaction>)

  /** The peer of a one-to-one thread. */
  datatype OtherUser = OtherUser(username: string, displayName: string, isOnline: bool)

  /** A one-to-one thread as listed by the inbox endpoint. */
  datatype Thread = Thread(id: int, otherUser: OtherUser, unreadCount: int)
}

=== FILE: message_encryption.dfy ===
/** The wrapper that encrypts direct-message text at rest. The symmetric
    cipher is abstract: a key check, a sealing function and an opening
    function that may refuse a token. The wrapper's own logic is the key
    cleaning and the fallbacks that keep both directions from raising. */
module MessageEncryption {
  import opened Wrappers
  import opened Strings

  /** Why no cipher could be built: the configured key is missing or
      empty after cleaning (`ValueError`), or the cipher rejects it. */
  datatype KeyError = MissingKey | InvalidKey

  /** The abstract cipher. `seal(key, text)` is the token for `text`
      (the cipher's random IV and timestamp are folded into the function);
      `open(key, token)` is `None` when the token does not authenticate. */
  datatype Cipher = Cipher(validKey: string -> bool, seal: (string, string) -> string, open: (string, string) -> Option<string>)

  /** The cipher's promises: a token opens to the text it sealed under the
      same valid key, and a token is never empty. */
  ghost predicate Sound(c: Cipher) {
    && (forall k, p :: c.validKey(k) ==> c.open(k, c.seal(k, p)) == Some(p))
    && (forall k, p :: c.validKey(k) ==> c.seal(k, p) != "")
  }

  /** Key cleaning: surrounding white space, then single quotes, then
      double quotes are stripped. A missing or empty key is left alone
      and then refused. */
  function CleanKey(raw: Option<string>): (r: Result<string, KeyError>)
    ensures r.Err? <==> raw.None? || StripChar(StripChar(Trim(raw.value), '\''), '"') == ""
    ensures r.Ok? ==> r.value == StripChar(StripChar(Trim(raw.value), '\''), '"') && r.value != ""
    ensures r.Err? ==> r.error == MissingKey
  {
    match raw
    case None => Err(MissingKey)
    case Some(k) =>
      var cleaned := if k != "" then StripChar(StripChar(Trim(k), '\''), '"') else k;
      if cleaned == "" then Err(MissingKey) else Ok(cleaned)
  }

  /** `get_cipher`: the cleaned key, when the cipher accepts it. */
  function GetCipher(c: Cipher, raw: Option<string>): (r: Result<string, KeyError>)
    ensures CleanKey(raw).Err? ==> r == Err(MissingKey)
    ensures CleanKey(raw).Ok? ==> (r.Ok? <==> c.validKey(CleanKey(raw).value))
    ensures CleanKey(raw).Ok? && r.Err? ==> r.error == InvalidKey
    ensures r.Ok? ==> r.value == CleanKey(raw).value && c.validKey(r.value)
  {
    match CleanKey(raw)
    case Err(e) => Err(e)
    case Ok(k) => if c.validKey(k) then Ok(k) else Err(InvalidKey)
  }

  /** Python truthiness of a text: neither `None` nor empty. */
  predicate Truthy(s: Option<string>) {
    s.Some? && s.value != ""
  }

  /** `encrypt(plaintext)`: an empty or missing text comes back as it is;
      without a usable cipher the plaintext is stored unencrypted. */
  function Encrypt(c: Cipher, raw: Option<string>, plaintext: Option<string>): (r: Option<string>)
    ensures !Truthy(plaintext) ==> r == plaintext
    ensures Truthy(plaintext) && GetCipher(c, raw).Err? ==> r == plaintext
    ensures Truthy(plaintext) && GetCipher(c, raw).Ok? ==> r == Some(c.seal(GetCipher(c, raw).value, plaintext.value))
  {
    if !Truthy(plaintext) then plaintext
    else match GetCipher(c, raw)
      case Err(_) => plaintext
      case Ok(k) => Some(c.seal(k, plaintext.value))
  }

  /** `decrypt(ciphertext)`: an empty or missing text comes back as it is,
      and so does any text that cannot be opened (no usable key, or a
      legacy plaintext that is not a token). */
  function Decrypt(c: Cipher, raw: Option<string>, ciphertext: Option<string>): (r: Option<string>)
    ensures !Truthy(ciphertext) ==> r == ciphertext
    ensures Truthy(ciphertext) && GetCipher(c, raw).Err? ==> r == ciphertext
    ensures Truthy(ciphertext) && GetCipher(c, raw).Ok? ==>
              r == match c.open(GetCipher(c, raw).value, ciphertext.value)
                   case None => ciphertext
                   case Some(p) => Some(p)
  {
    if !Truthy(ciphertext) then ciphertext
    else match GetCipher(c, raw)
      case Err(_) => ciphertext
      case Ok(k) =>
        match c.open(k, ciphertext.value)
        case None => ciphertext
        case Some(p) => Some(p)
  }

  /** Reading back what was stored gives the message, whatever the key
      setting, as long as it is the same for both directions: with a
      usable key the token opens, without one the text was stored and read
      in plain. */
  lemma {:induction false} DecryptOfEncrypt(c: Cipher, raw: Option<string>, plaintext: Option<string>)
    requires Sound(c)
    ensures Decrypt(c, raw, Encrypt(c, raw, plaintext)) == plaintext
  {
    if Truthy(plaintext) && GetCipher(c, raw).Ok? {
      var k := GetCipher(c, raw).value;
      assert c.seal(k, plaintext.value) != "";
    }
  }

  /** A key with no blanks or quotes of its own. */
  predicate PlainKey(key: string) {
    key != "" && forall i :: 0 <= i < |key| ==> key[i] != '"' && key[i] != '\'' && !IsSpace(key[i])
  }

  predicate Blank(pad: string) {
    forall i :: 0 <= i < |pad| ==> IsSpace(pad[i])
  }

  /** A key typed with blanks around it and wrapped in one kind of quote
      is cleaned back to the key itself. */
  lemma {:induction false} QuotedKeyIsCleaned(lpad: string, key: string, rpad: string)
    requires PlainKey(key) && Blank(lpad) && Blank(rpad)
    ensures CleanKey(Some(lpad + ['"'] + key + ['"'] + rpad)) == Ok(key)
    ensures CleanKey(Some(lpad + ['\''] + key + ['\''] + rpad)) == Ok(key)
  {
    QuotedClean(lpad, key, rpad, '"');
    CleanKeyOf(lpad + ['"'] + key + ['"'] + rpad, key);
    QuotedClean(lpad, key, rpad, '\'');
    CleanKeyOf(lpad + ['\''] + key + ['\''] + rpad, key);
  }

  lemma {:induction false} QuotedClean(lpad: string, key: string, rpad: string, q: char)
    requires PlainKey(key) && Blank(lpad) && Blank(rpad)
    requires q == '"' || q == '\''
    ensures StripChar(StripChar(Trim(lpad + [q] + key + [q] + rpad), '\''), '"') == key
  {
    TrimAroundQuotes(lpad, key, rpad, q);
    if q == '"' {
      DoubleQuotesStripped(key);
    } else {
      SingleQuotesStripped(key);
    }
  }

  lemma {:induction false} TrimAroundQuotes(lpad: string, key: string, rpad: string, q: char)
    requires PlainKey(key) && Blank(lpad) && Blank(rpad)
    requires q == '"' || q == '\''
    ensures Trim(lpad + [q] + key + [q] + rpad) == [q] + key + [q]
  {
    var quoted := [q] + key + [q];
    assert lpad + [q] + key + [q] + rpad == lpad + quoted + rpad;
    StripAround(lpad, quoted, rpad, IsSpace);
  }

  lemma {:induction false} DoubleQuotesStripped(key: string)
    requires PlainKey(key)
    ensures StripChar(StripChar(['"'] + key + ['"'], '\''), '"') == key
  {
    StripCharKeeps(['"'] + key + ['"'], '\'');
    StripCharAround(['"'], key, ['"'], '"');
  }

  lemma {:induction false} SingleQuotesStripped(key: string)
    requires PlainKey(key)
    ensures StripChar(StripChar(['\''] + key + ['\''], '\''), '"') == key
  {
    StripCharAround(['\''], key, ['\''], '\'');
    StripCharKeeps(key, '"');
  }

  /** Cleaning strips single quotes before double quotes, so a key wrapped
      in single quotes inside double quotes keeps the single quotes, and
      cleaning the result once more would change it again. */
  lemma {:induction false} CleaningIsNotIdempotent(key: string)
    requires PlainKey(key)
    ensures CleanKey(Some(['"', '\''] + key + ['\'', '"'])) == Ok(['\''] + key + ['\''])
    ensures CleanKey(Some(['\''] + key + ['\''])) == Ok(key)
  {
    var inner := ['\''] + key + ['\''];
    NestedQuotesStripped(key);
    CleanKeyOf(['"', '\''] + key + ['\'', '"'], inner);
    SingleQuotesTrimmed(key);
    SingleQuotesStripped(key);
    CleanKeyOf(inner, key);
  }

  /** What cleaning a present key gives, stated once for the steps above. */
  lemma {:induction false} CleanKeyOf(raw: string, key: string)
    requires key != "" && StripChar(StripChar(Trim(raw), '\''), '"') == key
    ensures CleanKey(Some(raw)) == Ok(key)
  {
  }

  lemma {:induction false} SingleQuotesTrimmed(key: string)
    requires PlainKey(key)
    ensures Trim(['\''] + key + ['\'']) == ['\''] + key + ['\'']
  {
    StripByKeeps(['\''] + key + ['\''], IsSpace);
  }

  lemma {:induction false} NestedQuotesStripped(key: string)
    requires PlainKey(key)
    ensures StripChar(StripChar(Trim(['"', '\''] + key + ['\'', '"']), '\''), '"') == ['\''] + key + ['\'']
  {
    var inner := ['\''] + key + ['\''];
    var nested := ['"'] + inner + ['"'];
    assert ['"', '\''] + key + ['\'', '"'] == nested;
    assert nested[0] == '"' && nested[|nested| - 1] == '"';
    assert inner[0] == '\'' && inner[|inner| - 1] == '\'';
    StripByKeeps(nested, IsSpace);
    StripCharKeeps(nested, '\'');
    StripCharAround(['"'], inner, ['"'], '"');
  }
}

=== FILE: onboarding_wizard.dfy ===
/** The onboarding wizard page: a four-step counter, a form of named
    fields updated one at a time, and the country checkboxes. */
module OnboardingWizard {
  import opened Wrappers
  import opened Strings

  // ---------------------------------------------------------------------
  // Steps
  // ---------------------------------------------------------------------

  const FirstStep: int := 1
  const LastStep: int := 4

  predicate ValidStep(step: int) {
    FirstStep <= step <= LastStep
  }

  /** `nextStep`: forward one step unless already on the last. */
  function NextStep(step: int): (r: int)
    ensures ValidStep(step) ==> ValidStep(r)
    ensures step < LastStep ==> r == step + 1
    ensures step >= LastStep ==> r == step
  {
    if step < LastStep then step + 1 else step
  }

  /** `prevStep`: back one step unless already on the first. */
  function PrevStep(step: int): (r: int)
    ensures ValidStep(step) ==> ValidStep(r)
    ensures step > FirstStep ==> r == step - 1
    ensures step <= FirstStep ==> r == step
  {
    if step > FirstStep then step - 1 else step
  }

  /** The two navigation buttons. */
  datatype Nav = Next | Back

  /** The step after pressing the buttons in order. */
  function Navigate(step: int, presses: seq<Nav>): int
    decreases |presses|
  {
    if |presses| == 0 then step
    else Navigate(if presses[0] == Next then NextStep(step) else PrevStep(step), presses[1..])
  }

  /** Starting on the first step, no sequence of presses leaves the four
      steps. */
  lemma {:induction false} StepStaysInRange(step: int, presses: seq<Nav>)
    requires ValidStep(step)
    ensures ValidStep(Navigate(step, presses))
    decreases |presses|
  {
    if |presses| > 0 {
      StepStaysInRange(if presses[0] == Next then NextStep(step) else PrevStep(step), presses[1..]);
    }
  }

  /** Forward then back returns to the step, except from the last step,
      where forward does nothing. */
  lemma {:induction false} NextThenBack(step: int)
    requires ValidStep(step)
    ensures step < LastStep ==> PrevStep(NextStep(step)) == step
    ensures step == LastStep ==> PrevStep(NextStep(step)) == step - 1
    ensures step > FirstStep ==> NextStep(PrevStep(step)) == step
  {
  }

  // ---------------------------------------------------------------------
  // The form
  // ---------------------------------------------------------------------

  /** A form value: text, a number (`None` for `NaN`), or a list. */
  datatype Value = Text(text: string) | Number(number: Option<int>) | List(items: seq<string>)

  type Form = map<string, Value>

  const NotStarted: string := "Not Started"

  /** The readiness statuses asked for in the last step. */
  const StatusFields: set<string> := {"ielts_status", "gre_status", "toefl_status", "sop_status", "lor_status"}

  /** The fields that start out as empty text. */
  const TextFields: set<string> := {"education_level", "degree", "gpa", "target_degree", "field", "budget_range", "funding_type"}

  /** The fields that start out as numbers or as a list. */
  const OtherFields: set<string> := {"graduation_year", "intake_year", "countries"}

  lemma {:induction false} FieldGroupsDisjoint()
    ensures StatusFields !! TextFields && StatusFields !! OtherFields && TextFields !! OtherFields
  {
  }

  /** The form the wizard starts with. */
  function InitialForm(): (f: Form)
    ensures f.Keys == StatusFields + TextFields + OtherFields
    ensures forall k :: k in StatusFields ==> f[k] == Text(NotStarted)
    ensures forall k :: k in TextFields ==> f[k] == Text("")
    ensures f["graduation_year"] == Number(Some(2024)) && f["intake_year"] == Number(Some(2025))
    ensures f["countries"] == List([])
  {
    FieldGroupsDisjoint();
    map k | k in StatusFields + TextFields + OtherFields ::
      if k in StatusFields then Text(NotStarted)
      else if k in TextFields then Text("")
      else if k == "countries" then List([])
      else if k == "graduation_year" then Number(Some(2024))
      else Number(Some(2025))
  }

  /** `handleChange(field, value)`: the form with one field replaced (or
      added). */
  function HandleChange(form: Form, field: string, value: Value): (r: Form)
    ensures r.Keys == form.Keys + {field}
    ensures r[field] == value
    ensures forall k :: k in form && k != field ==> r[k] == form[k]
  {
    form[field := value]
  }

  /** Changes to different fields do not interfere, and a later change of
      the same field overrides an earlier one. */
  lemma {:induction false} ChangesCommute(form: Form, f: string, g: string, v: Value, w: Value)
    ensures f != g ==> HandleChange(HandleChange(form, f, v), g, w) == HandleChange(HandleChange(form, g, w), f, v)
    ensures HandleChange(HandleChange(form, f, v), f, w) == HandleChange(form, f, w)
  {
  }

  /** A year typed or picked is stored as `parseInt` of its text. */
  function ChangeYear(form: Form, field: string, text: string): (r: Form)
    ensures r.Keys == form.Keys + {field}
    ensures forall k :: k in form && k != field ==> r[k] == form[k]
    ensures r[field] == Number(ParseIntPrefix(text))
    ensures r[field].number.None? <==> |DigitPrefix(AfterSign(DropStart(text, IsSpace)))| == 0
  {
    HandleChange(form, field, Number(ParseIntPrefix(text)))
  }

  /** A year's decimal text is stored as that year. */
  lemma {:induction false} YearTextRoundTrip(form: Form, field: string, year: int)
    ensures ChangeYear(form, field, IntToString(year))[field] == Number(Some(year))
  {
    ParseIntPrefixOfIntToString(year, "");
    assert IntToString(year) + "" == IntToString(year);
  }

  // ---------------------------------------------------------------------
  // Country checkboxes
  // ---------------------------------------------------------------------

  const CountryOptions: seq<string> := ["USA", "Canada", "UK", "Australia", "Germany", "Singapore"]

  /** The list without any occurrence of `c`, order kept. */
  function Without(cs: seq<string>, c: string): (r: seq<string>)
    ensures c !in r
    ensures forall x :: x in r <==> x in cs && x != c
    ensures |r| <= |cs|
  {
    if |cs| == 0 then []
    else
      assert forall x :: x in cs ==> x == cs[0] || x in cs[1..];
      (if cs[0] == c then [] else [cs[0]]) + Without(cs[1..], c)
  }

  /** A checkbox change: checking appends the country, unchecking removes
      every occurrence of it. */
  function ToggleCountry(cs: seq<string>, c: string, checked: bool): (r: seq<string>)
    ensures checked ==> r == cs + [c]
    ensures !checked ==> c !in r && forall x :: x in r <==> x in cs && x != c
  {
    if checked then cs + [c] else Without(cs, c)
  }

  predicate NoDuplicates(cs: seq<string>) {
    forall i, j :: 0 <= i < j < |cs| ==> cs[i] != cs[j]
  }

  /** A box is shown checked exactly when its country is listed, so it is
      only ever checked while absent: the list then never repeats a
      country, and unchecking it again restores the list. */
  lemma {:induction false} CheckThenUncheck(cs: seq<string>, c: string)
    requires c !in cs
    ensures NoDuplicates(cs) ==> NoDuplicates(ToggleCountry(cs, c, true))
    ensures ToggleCountry(ToggleCountry(cs, c, true), c, false) == cs
  {
    WithoutAbsent(cs, c);
    WithoutAppend(cs, c);
  }

  lemma {:induction false} WithoutAbsent(cs: seq<string>, c: string)
    requires c !in cs
    ensures Without(cs, c) == cs
  {
    if |cs| > 0 {
      assert cs[0] != c;
      assert c !in cs[1..];
      WithoutAbsent(cs[1..], c);
      assert [cs[0]] + cs[1..] == cs;
    }
  }

  lemma {:induction false} WithoutAppend(cs: seq<string>, c: string)
    ensures Without(cs + [c], c) == Without(cs, c)
  {
    if |cs| == 0 {
      assert cs + [c] == [c];
      assert [c][1..] == [];
    } else {
      assert (cs + [c])[1..] == cs[1..] + [c];
      WithoutAppend(cs[1..], c);
    }
  }
}

=== FILE: password_policy.dfy ===
/** The site's password validator: four checks made in a fixed order, the
    first failing one reported with its own error code. */
module PasswordPolicy {
  import opened Wrappers
  import opened Strings

  datatype PasswordError = TooShort | NoUpper | NoNumber | NoSpecial

  /** The `code` each rejection carries. */
  function Code(e: PasswordError): string {
    match e
    case TooShort => "password_too_short"
    case NoUpper => "password_no_upper"
    case NoNumber => "password_no_number"
    case NoSpecial => "password_no_special"
  }

  const MinLength: nat := 8

  /** The characters the last check accepts. */
  const Specials: string := "!@#$%^&*()_+-=[]{};':\"\\|,.<>/?"

  predicate IsUpper(c: char) { 'A' <= c <= 'Z' }
  predicate IsSpecial(c: char) { c in Specials }

  predicate HasSome(p: string, want: char -> bool) {
    exists i :: 0 <= i < |p| && want(p[i])
  }

  /** Whether `p` passes the check that reports `e`. */
  predicate Passes(p: string, e: PasswordError) {
    match e
    case TooShort => |p| >= MinLength
    case NoUpper => HasSome(p, IsUpper)
    case NoNumber => HasSome(p, IsDigit)
    case NoSpecial => HasSome(p, IsSpecial)
  }

  /** `CustomPasswordValidator.validate(password, user)`: `None` when the
      password is accepted, otherwise the first check it fails. The user
      argument is accepted and never looked at. */
  function Validate<U>(password: string, user: Option<U>): (r: Option<PasswordError>)
    ensures |password| < MinLength ==> r == Some(TooShort)
    ensures |password| >= MinLength && !HasSome(password, IsUpper) ==> r == Some(NoUpper)
    ensures r.None? <==> Passes(password, TooShort) && Passes(password, NoUpper)
                         && Passes(password, NoNumber) && Passes(password, NoSpecial)
    ensures r.Some? ==> !Passes(password, r.value)
  {
    if |password| < MinLength then Some(TooShort)
    else if !HasSome(password, IsUpper) then Some(NoUpper)
    else if !HasSome(password, IsDigit) then Some(NoNumber)
    else if !HasSome(password, IsSpecial) then Some(NoSpecial)
    else None
  }

  /** The checks in the order they are made. */
  const Order: seq<PasswordError> := [TooShort, NoUpper, NoNumber, NoSpecial]

  /** The first check of `rules` the password fails. */
  function FirstFailed(p: string, rules: seq<PasswordError>): Option<PasswordError> {
    if |rules| == 0 then None
    else if !Passes(p, rules[0]) then Some(rules[0])
    else FirstFailed(p, rules[1..])
  }

  /** The reported error is the first failed check in order: every check
      before it passes, and a password is rejected with a given code only
      if all earlier checks succeeded. */
  lemma {:induction false} ReportsFirstFailure<U>(p: string, user: Option<U>)
    ensures Validate(p, user) == FirstFailed(p, Order)
    ensures forall k :: 0 <= k < |Order| && Validate(p, user) == Some(Order[k]) ==>
              forall j :: 0 <= j < k ==> Passes(p, Order[j])
  {
    FirstFailedInOrder(p);
    assert Order[0] == TooShort && Order[1] == NoUpper && Order[2] == NoNumber && Order[3] == NoSpecial;
  }

  /** `FirstFailed` over `Order`, unrolled. */
  lemma {:induction false} FirstFailedInOrder(p: string)
    ensures FirstFailed(p, Order) ==
              if !Passes(p, TooShort) then Some(TooShort)
              else if !Passes(p, NoUpper) then Some(NoUpper)
              else if !Passes(p, NoNumber) then Some(NoNumber)
              else if !Passes(p, NoSpecial) then Some(NoSpecial)
              else None
  {
    var r1 := [NoUpper, NoNumber, NoSpecial];
    var r2 := [NoNumber, NoSpecial];
    var r3 := [NoSpecial];
    assert Order[1..] == r1 && r1[1..] == r2 && r2[1..] == r3 && r3[1..] == [];
    assert FirstFailed(p, r3) == if Passes(p, NoSpecial) then None else Some(NoSpecial);
    assert FirstFailed(p, r2) == if Passes(p, NoNumber) then FirstFailed(p, r3) else Some(NoNumber);
    assert FirstFailed(p, r1) == if Passes(p, NoUpper) then FirstFailed(p, r2) else Some(NoUpper);
  }

  /** The user argument never changes the outcome. */
  lemma {:induction false} UserIsIgnored<U>(p: string, u: Option<U>, v: Option<U>)
    ensures Validate(p, u) == Validate(p, v)
  {
  }

  /** Length is checked first: a short password lacking every other class
      is reported only as too short. */
  lemma {:induction false} ShortIsReportedFirst()
    ensures Validate<int>("abc", None) == Some(TooShort)
  {
  }

  /** A password meeting all four rules is accepted. */
  lemma {:induction false} StrongPasswordAccepted()
    ensures Validate<int>("Abcdefg1!", None) == None
  {
    var p := "Abcdefg1!";
    assert IsUpper(p[0]) && IsDigit(p[7]);
    assert p[8] == Specials[0];
  }

  /** Lower-case letters, a digit and a symbol are still rejected for the
      missing upper-case letter. */
  lemma {:induction false} LowerCaseOnlyRejected()
    ensures Validate<int>("abcdefg1!", None) == Some(NoUpper)
  {
    var p := "abcdefg1!";
    forall i | 0 <= i < |p| ensures !IsUpper(p[i]) {
    }
  }
}

=== FILE: profile_client.dfy ===
/** The public-profile page's photo lightbox: the optimistic like button,
    the comment tree with its delete buttons, the skip of identical
    re-renders, the poll gate and the reply state. */
module ProfileClient {
  import opened Wrappers
  import opened Strings

  // ---------------------------------------------------------------------
  // The like button
  // ---------------------------------------------------------------------

  /** What the like button shows: the counter text and the `data-liked`
      attribute. */
  datatype LikeView = LikeView(text: string, likedAttr: string)

  const LikeSuffix: string := " x Aura"

  /** `updateLikeUI(isLiked, count)`. */
  function UpdateLikeUI(liked: bool, count: int): (v: LikeView)
    ensures v.likedAttr == "true" <==> liked
    ensures v.text == IntToString(count) + LikeSuffix
  {
    LikeView(IntToString(count) + LikeSuffix, if liked then "true" else "false")
  }

  /** The state `loadPhotoData` shows while the first load is under way. */
  const Loading: LikeView := LikeView("...", "false")

  /** `likeBtn.dataset.liked === "true"`. */
  predicate ShownLiked(v: LikeView) {
    v.likedAttr == "true"
  }

  /** `parseInt(likeCount.textContent) || 0`: a text with no leading
      number counts as 0. */
  function ShownCount(v: LikeView): (c: int)
    ensures ParseIntPrefix(v.text).None? ==> c == 0
    ensures ParseIntPrefix(v.text).Some? ==> c == ParseIntPrefix(v.text).value
  {
    match ParseIntPrefix(v.text)
    case None => 0
    case Some(n) => n
  }

  /** The counter text written by `updateLikeUI` reads back as the same
      count and flag. */
  lemma {:induction false} LikeTextRoundTrip(liked: bool, count: int)
    ensures ShownCount(UpdateLikeUI(liked, count)) == count
    ensures ShownLiked(UpdateLikeUI(liked, count)) == liked
  {
    ParseIntPrefixOfIntToString(count, LikeSuffix);
  }

  /** The server's answer to the toggle: `(is_liked, like_count)`, or
      `None` when the request failed. */
  type LikeAnswer = Option<(bool, int)>

  /** A click on the like button: the view drawn at once, and the view
      after the request settles. Without a token nothing changes. */
  datatype LikeClick = LikeClick(optimistic: LikeView, settled: LikeView)

  function ClickLike(hasToken: bool, v: LikeView, answer: LikeAnswer): (r: LikeClick)
    ensures !hasToken ==> r == LikeClick(v, v)
    ensures hasToken ==>
              r.optimistic == UpdateLikeUI(!ShownLiked(v), if ShownLiked(v) then ShownCount(v) - 1 else ShownCount(v) + 1)
    ensures hasToken && answer.Some? ==> r.settled == UpdateLikeUI(answer.value.0, answer.value.1)
    ensures hasToken && answer.None? ==> r.settled == UpdateLikeUI(ShownLiked(v), ShownCount(v))
  {
    if !hasToken then LikeClick(v, v)
    else
      var liked := ShownLiked(v);
      var count := ShownCount(v);
      var optimistic := UpdateLikeUI(!liked, if liked then count - 1 else count + 1);
      if answer.Some? then LikeClick(optimistic, UpdateLikeUI(answer.value.0, answer.value.1))
      else LikeClick(optimistic, UpdateLikeUI(liked, count))
  }

  /** On a view drawn by `updateLikeUI` a click flips the flag and moves
      the count by one at once, and a failed request restores the view
      exactly. */
  lemma {:induction false} ClickFlipsAndRollsBack(liked: bool, count: int)
    ensures var r := ClickLike(true, UpdateLikeUI(liked, count), None);
            r.optimistic == UpdateLikeUI(!liked, if liked then count - 1 else count + 1)
            && r.settled == UpdateLikeUI(liked, count)
  {
    LikeTextRoundTrip(liked, count);
  }

  /** The rollback is exact only for views drawn by `updateLikeUI`: a
      click during the first load counts "..." as 0, so a failed request
      leaves "0 x Aura" behind instead of "...". */
  lemma {:induction false} RollbackDuringLoading()
    ensures ClickLike(true, Loading, None).optimistic == UpdateLikeUI(true, 1)
    ensures ClickLike(true, Loading, None).settled == UpdateLikeUI(false, 0)
    ensures ClickLike(true, Loading, None).settled != Loading
  {
    assert DropStart("...", IsSpace) == "...";
    assert DigitPrefix(AfterSign("...")) == [];
  }

  // ---------------------------------------------------------------------
  // Comments
  // ---------------------------------------------------------------------

  /** A comment as served, with its author's avatar URL (if any) and its
      replies nested under it. */
  datatype Comment = Comment(id: int, username: string, avatar: Option<string>, text: string, replies: seq<Comment>)

  /** The round picture beside a comment: the avatar image, or a disc
      with the author's initial in capitals. */
  datatype Picture = Photo(url: string) | Initial(letter: char) | NoPicture

  /** A drawn comment: its picture, its buttons, whether it is indented
      as a reply, and its drawn replies. */
  datatype CommentNode = CommentNode(
    id: int, username: string, picture: Picture, text: string,
    deleteButton: bool, replyButton: bool, nested: bool,
    replies: seq<CommentNode>)

  /** The picture for an author: a non-empty avatar URL is shown as an
      image, otherwise the first letter of the username, upper-cased. */
  function PictureOf(username: string, avatar: Option<string>): (p: Picture)
    ensures p.Photo? <==> avatar.Some? && avatar.value != ""
    ensures p.Photo? ==> p.url == avatar.value
    ensures p.Initial? <==> !(avatar.Some? && avatar.value != "") && |username| > 0
    ensures p.Initial? ==> p.letter == UpperChar(username[0]) && !('a' <= p.letter <= 'z')
  {
    if avatar.Some? && avatar.value != "" then Photo(avatar.value)
    else if |username| > 0 then Initial(UpperChar(username[0]))
    else NoPicture
  }

  /** The delete button's rule: a signed-in viewer (with a non-empty
      username) who wrote the comment or owns the profile in the page's
      address. */
  predicate CanDelete(viewer: Option<string>, profileOwner: Option<string>, author: string) {
    viewer.Some? && viewer.value != "" && (viewer.value == author || profileOwner == Some(viewer.value))
  }

  /** `createCommentHTML(comment, isNested)`, with replies drawn
      recursively and nested. */
  function RenderComment(c: Comment, viewer: Option<string>, profileOwner: Option<string>, hasToken: bool, nested: bool): (n: CommentNode)
    ensures n.id == c.id && n.username == c.username && n.text == c.text && n.nested == nested
    ensures n.picture == PictureOf(c.username, c.avatar)
    ensures n.deleteButton <==> CanDelete(viewer, profileOwner, c.username)
    ensures n.replyButton <==> hasToken
    ensures |n.replies| == |c.replies|
    ensures forall i :: 0 <= i < |c.replies| ==> n.replies[i] == RenderComment(c.replies[i], viewer, profileOwner, hasToken, true)
    decreases c
  {
    CommentNode(c.id, c.username, PictureOf(c.username, c.avatar), c.text, CanDelete(viewer, profileOwner, c.username), hasToken, nested,
      RenderReplies(c.replies, viewer, profileOwner, hasToken))
  }

  /** The replies under a comment, each drawn nested. */
  function RenderReplies(cs: seq<Comment>, viewer: Option<string>, profileOwner: Option<string>, hasToken: bool): (ns: seq<CommentNode>)
    ensures |ns| == |cs|
    ensures forall i :: 0 <= i < |cs| ==> ns[i] == RenderComment(cs[i], viewer, profileOwner, hasToken, true)
    decreases cs
  {
    if |cs| == 0 then []
    else [RenderComment(cs[0], viewer, profileOwner, hasToken, true)] + RenderReplies(cs[1..], viewer, profileOwner, hasToken)
  }

  /** The comments of a tree in document order (the order they appear on
      the page). */
  function CommentIds(c: Comment): seq<int>
    decreases c
  {
    [c.id] + CommentIdsAll(c.replies)
  }

  function CommentIdsAll(cs: seq<Comment>): seq<int>
    decreases cs
  {
    if |cs| == 0 then [] else CommentIds(cs[0]) + CommentIdsAll(cs[1..])
  }

  function NodeIds(n: CommentNode): seq<int>
    decreases n
  {
    [n.id] + NodeIdsAll(n.replies)
  }

  function NodeIdsAll(ns: seq<CommentNode>): seq<int>
    decreases ns
  {
    if |ns| == 0 then [] else NodeIds(ns[0]) + NodeIdsAll(ns[1..])
  }

  /** Rendering draws every comment of the tree exactly once, in document
      order. */
  lemma {:induction false} RenderKeepsOrder(c: Comment, viewer: Option<string>, profileOwner: Option<string>, hasToken: bool, nested: bool)
    ensures NodeIds(RenderComment(c, viewer, profileOwner, hasToken, nested)) == CommentIds(c)
    decreases c, 1
  {
    RenderAllKeepsOrder(c.replies, viewer, profileOwner, hasToken);
  }

  lemma {:induction false} RenderAllKeepsOrder(cs: seq<Comment>, viewer: Option<string>, profileOwner: Option<string>, hasToken: bool)
    ensures NodeIdsAll(RenderReplies(cs, viewer, profileOwner, hasToken)) == CommentIdsAll(cs)
    decreases cs, 0
  {
    if |cs| > 0 {
      var ns := RenderReplies(cs, viewer, profileOwner, hasToken);
      assert ns[1..] == RenderReplies(cs[1..], viewer, profileOwner, hasToken);
      RenderKeepsOrder(cs[0], viewer, profileOwner, hasToken, true);
      RenderAllKeepsOrder(cs[1..], viewer, profileOwner, hasToken);
    }
  }

  /** Every drawn node of a tree, outermost first. */
  predicate AllNodes(n: CommentNode, p: CommentNode -> bool)
    decreases n
  {
    p(n) && forall i :: 0 <= i < |n.replies| ==> AllNodes(n.replies[i], p)
  }

  /** Every reply, at any depth, is drawn indented. */
  lemma {:induction false} RepliesAreNested(c: Comment, viewer: Option<string>, profileOwner: Option<string>, hasToken: bool)
    ensures forall i :: 0 <= i < |c.replies| ==>
              AllNodes(RenderComment(c.replies[i], viewer, profileOwner, hasToken, true), (n: CommentNode) => n.nested)
    decreases c
  {
    forall i | 0 <= i < |c.replies|
      ensures AllNodes(RenderComment(c.replies[i], viewer, profileOwner, hasToken, true), (n: CommentNode) => n.nested)
    {
      RepliesAreNested(c.replies[i], viewer, profileOwner, hasToken);
    }
  }

  /** A signed-out viewer sees no delete button anywhere in the tree. */
  lemma {:induction false} SignedOutSeesNoDelete(c: Comment, profileOwner: Option<string>, hasToken: bool, nested: bool)
    ensures AllNodes(RenderComment(c, None, profileOwner, hasToken, nested), (n: CommentNode) => !n.deleteButton)
    decreases c
  {
    forall i | 0 <= i < |c.replies|
      ensures AllNodes(RenderComment(c.replies[i], None, profileOwner, hasToken, true), (n: CommentNode) => !n.deleteButton)
    {
      SignedOutSeesNoDelete(c.replies[i], profileOwner, hasToken, true);
    }
  }

  /** The profile owner sees a delete button on every comment of the tree. */
  lemma {:induction false} OwnerSeesDeleteEverywhere(c: Comment, owner: string, hasToken: bool, nested: bool)
    requires owner != ""
    ensures AllNodes(RenderComment(c, Some(owner), Some(owner), hasToken, nested), (n: CommentNode) => n.deleteButton)
    decreases c
  {
    forall i | 0 <= i < |c.replies|
      ensures AllNodes(RenderComment(c.replies[i], Some(owner), Some(owner), hasToken, true), (n: CommentNode) => n.deleteButton)
    {
      OwnerSeesDeleteEverywhere(c.replies[i], owner, hasToken, true);
    }
  }

  /** The comment list pane. */
  datatype CommentsPane =
    | LoadingComments
    | LoadFailed
    | NoCommentsYet
    | CommentList(nodes: seq<CommentNode>)

  /** The markup `renderComments` builds for a list of top-level comments. */
  function BuildComments(comments: seq<Comment>, viewer: Option<string>, profileOwner: Option<string>, hasToken: bool): (p: CommentsPane)
    ensures |comments| == 0 <==> p == NoCommentsYet
    ensures p.CommentList? ==> |p.nodes| == |comments|
    ensures p.CommentList? ==>
              forall i :: 0 <= i < |comments| ==> p.nodes[i] == RenderComment(comments[i], viewer, profileOwner, hasToken, false)
  {
    if |comments| == 0 then NoCommentsYet
    else CommentList(seq(|comments|, i requires 0 <= i < |comments| => RenderComment(comments[i], viewer, profileOwner, hasToken, false)))
  }

  /** `renderComments`: the pane after the call, and whether it was
      replaced (which also rebinds the buttons and restores the scroll). */
  function RenderComments(pane: CommentsPane, comments: seq<Comment>, viewer: Option<string>, profileOwner: Option<string>, hasToken: bool): (r: (CommentsPane, bool))
    ensures r.0 == BuildComments(comments, viewer, profileOwner, hasToken)
    ensures r.1 <==> pane != BuildComments(comments, viewer, profileOwner, hasToken)
  {
    var built := BuildComments(comments, viewer, profileOwner, hasToken);
    if pane == built then (pane, false) else (built, true)
  }

  /** Re-rendering unchanged comments never replaces the pane. */
  lemma {:induction false} RenderCommentsIdempotent(pane: CommentsPane, comments: seq<Comment>, viewer: Option<string>, profileOwner: Option<string>, hasToken: bool)
    ensures var once := RenderComments(pane, comments, viewer, profileOwner, hasToken).0;
            RenderComments(once, comments, viewer, profileOwner, hasToken) == (once, false)
  {
  }

  // ---------------------------------------------------------------------
  // Lightbox, polling and replies
  // ---------------------------------------------------------------------

  /** The lightbox's state: whether the modal is shown, the current photo
      id (a string taken from the page), whether the poll timer runs, the
      reply target, and the comment input. */
  datatype Lightbox = Lightbox(
    open: bool, photoId: Option<string>, polling: bool,
    replyingTo: Option<string>, replyingUser: Option<string>, input: string)

  /** JavaScript truthiness of an optional string. */
  predicate TruthyText(s: Option<string>) {
    s.Some? && s.value != ""
  }

  /** One tick of the poll timer reloads the photo's data only when the
      lightbox is open on a photo, no reply is pending (`replyingToId !==
      null`) and the input is blank. */
  predicate PollReloads(s: Lightbox) {
    TruthyText(s.photoId) && s.open && s.replyingTo.None? && Trim(s.input) == []
  }

  /** A gallery click: an image without a source does nothing; otherwise
      the modal opens, and with a photo id that photo becomes current and
      polling starts. */
  function OpenPhoto(s: Lightbox, src: string, photoId: Option<string>): (r: Lightbox)
    ensures src == "" ==> r == s
    ensures src != "" ==> r.open
    ensures src != "" && TruthyText(photoId) ==> r.photoId == photoId && r.polling
    ensures r.replyingTo == s.replyingTo && r.input == s.input
  {
    if src == "" then s
    else if TruthyText(photoId) then s.(open := true, photoId := photoId, polling := true)
    else s.(open := true)
  }

  /** `closeLightbox`: hides the modal, forgets the photo and stops the
      poll timer. The reply target and the input are left as they are. */
  function CloseLightbox(s: Lightbox): (r: Lightbox)
    ensures !r.open && r.photoId.None? && !r.polling
    ensures r.replyingTo == s.replyingTo && r.replyingUser == s.replyingUser && r.input == s.input
  {
    s.(open := false, photoId := None, polling := false)
  }

  /** A closed lightbox never reloads. */
  lemma {:induction false} ClosedNeverPolls(s: Lightbox)
    ensures !PollReloads(CloseLightbox(s))
  {
  }

  /** A reply started on one photo survives closing the lightbox, so the
      next photo opened never reloads on a poll tick until the reply is
      cancelled or posted. */
  lemma {:induction false} PendingReplyOutlivesClose(s: Lightbox, src: string, photoId: Option<string>)
    requires s.replyingTo.Some?
    ensures !PollReloads(OpenPhoto(CloseLightbox(s), src, photoId))
  {
  }

  /** A reply button click. */
  function StartReply(s: Lightbox, id: string, username: string): (r: Lightbox)
    ensures r.replyingTo == Some(id) && r.replyingUser == Some(username)
    ensures r.open == s.open && r.photoId == s.photoId && r.input == s.input && r.polling == s.polling
  {
    s.(replyingTo := Some(id), replyingUser := Some(username))
  }

  /** The Escape key. In the comment input it cancels a (truthy) reply
      target; the document-level listener then closes an open lightbox. */
  function PressEscape(s: Lightbox, inCommentInput: bool): (r: Lightbox)
    ensures inCommentInput && TruthyText(s.replyingTo) ==> r.replyingTo.None? && r.replyingUser.None?
    ensures !(inCommentInput && TruthyText(s.replyingTo)) ==> r.replyingTo == s.replyingTo && r.replyingUser == s.replyingUser
    ensures r.input == s.input
    ensures s.open ==> !r.open && r.photoId.None? && !r.polling
    ensures s.open ==> r == CloseLightbox(r)
    ensures !s.open ==> r.open == s.open && r.photoId == s.photoId && r.polling == s.polling
  {
    var s1 := if inCommentInput && TruthyText(s.replyingTo) then s.(replyingTo := None, replyingUser := None) else s;
    if s1.open then CloseLightbox(s1) else s1
  }

  /** A comment post: the trimmed text, the photo, and the parent comment
      when replying. */
  datatype CommentPost = CommentPost(photoId: string, text: string, parentId: Option<string>)

  /** The comment form's submit: nothing is sent for blank text, without a
      current photo or without a token; `parent_id` is sent exactly when a
      (truthy) reply target is set. */
  function SubmitComment(s: Lightbox, hasToken: bool): (r: Option<CommentPost>)
    ensures r.Some? <==> Trim(s.input) != [] && TruthyText(s.photoId) && hasToken
    ensures r.Some? ==> r.value.photoId == s.photoId.value && r.value.text == Trim(s.input)
    ensures r.Some? ==> (r.value.parentId.Some? <==> TruthyText(s.replyingTo))
    ensures r.Some? && r.value.parentId.Some? ==> r.value.parentId == s.replyingTo
  {
    var text := Trim(s.input);
    if text == [] || !TruthyText(s.photoId) || !hasToken then None
    else Some(CommentPost(s.photoId.value, text, if TruthyText(s.replyingTo) then s.replyingTo else None))
  }

  /** After a successful post the input is cleared and the reply target
      forgotten. */
  function CommentPosted(s: Lightbox): (r: Lightbox)
    ensures r.input == "" && r.replyingTo.None? && r.replyingUser.None?
    ensures r.open == s.open && r.photoId == s.photoId && r.polling == s.polling
  {
    s.(input := "", replyingTo := None, replyingUser := None)
  }

  /** Once a post succeeds, polling resumes on an open lightbox. */
  lemma {:induction false} PostResumesPolling(s: Lightbox)
    ensures PollReloads(CommentPosted(s)) <==> TruthyText(s.photoId) && s.open
  {
    assert Trim("") == [];
  }

  /** Starting a reply always pauses polling, and a reply started then
      cancelled with Escape in the input leaves no reply pending. */
  lemma {:induction false} ReplyPausesPolling(s: Lightbox, id: string, username: string)
    ensures !PollReloads(StartReply(s, id, username))
    ensures id != "" ==> PressEscape(StartReply(s, id, username), true).replyingTo.None?
  {
  }
}

=== FILE: social_api.dfy ===
/** The REST rules of the social site behind the two clients: the photo
    like toggle, direct-message reactions, one-to-one threads, comment
    deletion, user search and the username chosen for a new Google
    sign-in. Tables are modelled as sets and sequences of rows. */
module SocialApi {
  import opened Wrappers
  import opened Strings

  datatype User = User(id: int, username: string)

  /** A request failed with this HTTP status. */
  type Status = int

  const BadRequest: Status := 400
  const Forbidden: Status := 403
  const NotFound: Status := 404
  /** `User.objects.get` finding several rows raises, which the framework
      answers as a server error. */
  const ServerError: Status := 500

  // ---------------------------------------------------------------------
  // Likes
  // ---------------------------------------------------------------------

  /** A like row: (user, photo). */
  type Like = (int, int)

  /** `photo.likes.count()`. */
  function LikeCount(likes: set<Like>, photo: int): nat {
    |set l | l in likes && l.1 == photo|
  }

  /** The toggle's answer: `is_liked` and `like_count`. */
  datatype LikeStatus = LikeStatus(isLiked: bool, likeCount: int)

  /** GET on the like endpoint: 404 for an unknown photo; an anonymous
      viewer is reported as not liking it. */
  function LikeGet(photos: set<int>, likes: set<Like>, viewer: Option<int>, photo: int): (r: Result<LikeStatus, Status>)
    ensures photo !in photos <==> r == Err(NotFound)
    ensures r.Ok? ==> r.value.likeCount == LikeCount(likes, photo)
    ensures r.Ok? ==> (r.value.isLiked <==> viewer.Some? && (viewer.value, photo) in likes)
  {
    if photo !in photos then Err(NotFound)
    else Ok(LikeStatus(viewer.Some? && (viewer.value, photo) in likes, LikeCount(likes, photo)))
  }

  /** POST on the like endpoint by a signed-in user: removes the user's
      like if there is one, adds it otherwise. */
  function LikePost(photos: set<int>, likes: set<Like>, user: int, photo: int): (r: Result<(set<Like>, LikeStatus), Status>)
    ensures photo !in photos <==> r == Err(NotFound)
    ensures r.Ok? ==> (r.value.0 == if (user, photo) in likes then likes - {(user, photo)} else likes + {(user, photo)})
    ensures r.Ok? ==> (r.value.1.isLiked <==> (user, photo) !in likes)
    ensures r.Ok? ==> r.value.1.likeCount == LikeCount(r.value.0, photo)
  {
    if photo !in photos then Err(NotFound)
    else if (user, photo) in likes then
      var after := likes - {(user, photo)};
      Ok((after, LikeStatus(false, LikeCount(after, photo))))
    else
      var after := likes + {(user, photo)};
      Ok((after, LikeStatus(true, LikeCount(after, photo))))
  }

  /** The answer reports the like as it now stands, and the count moves by
      exactly one in the direction of the toggle. */
  lemma {:induction false} LikePostMovesCountByOne(photos: set<int>, likes: set<Like>, user: int, photo: int)
    requires photo in photos
    ensures var r := LikePost(photos, likes, user, photo).value;
            (r.1.isLiked <==> (user, photo) in r.0)
            && r.1.likeCount == LikeCount(likes, photo) + (if r.1.isLiked then 1 else -1)
  {
    var before := set l | l in likes && l.1 == photo;
    if (user, photo) in likes {
      var after := likes - {(user, photo)};
      assert (set l | l in after && l.1 == photo) == before - {(user, photo)};
    } else {
      var after := likes + {(user, photo)};
      assert (set l | l in after && l.1 == photo) == before + {(user, photo)};
    }
  }

  /** Toggling twice restores the like table. */
  lemma {:induction false} LikeToggleTwice(photos: set<int>, likes: set<Like>, user: int, photo: int)
    requires photo in photos
    ensures LikePost(photos, LikePost(photos, likes, user, photo).value.0, user, photo).value.0 == likes
  {
  }

  // ---------------------------------------------------------------------
  // Message reactions
  // ---------------------------------------------------------------------

  datatype ReactionRow = ReactionRow(message: int, user: int, emoji: string)

  /** The checks both methods of the reaction endpoint share: 404 for an
      unknown message, 403 for a user outside its conversation, then the
      emoji: `request.data.get('emoji', '').strip()` raises on `null` or a
      non-string value, which the framework answers with a server error,
      and a missing or blank emoji is a 400. `messages` maps each message
      to the participants of its conversation. */
  function ReactionEmoji(messages: map<int, set<int>>, user: int, message: int, emoji: Field<string>): (r: Result<string, Status>)
    ensures message !in messages ==> r == Err(NotFound)
    ensures message in messages && user !in messages[message] ==> r == Err(Forbidden)
    ensures message in messages && user in messages[message] ==>
              && (emoji.Null? ==> r == Err(ServerError))
              && (emoji.Absent? ==> r == Err(BadRequest))
              && (emoji.Given? ==> (r.Ok? <==> Trim(emoji.value) != []) && (r.Err? ==> r.error == BadRequest))
    ensures r.Ok? ==> emoji.Given? && r.value == Trim(emoji.value) && r.value != [] && Trim(r.value) == r.value
  {
    if message !in messages then Err(NotFound)
    else if user !in messages[message] then Err(Forbidden)
    else if emoji.Null? then Err(ServerError)
    else
      var e := if emoji.Absent? then "" else Trim(emoji.value);
      TrimIdempotent(if emoji.Absent? then "" else emoji.value);
      if e == [] then Err(BadRequest) else Ok(e)
  }

  /** The user's rows on a message. */
  function RowsOf(rows: set<ReactionRow>, message: int, user: int): set<ReactionRow> {
    set r | r in rows && r.message == message && r.user == user
  }

  /** POST: every reaction of the user on the message is deleted and the
      new one created. */
  function ReactPost(messages: map<int, set<int>>, rows: set<ReactionRow>, user: int, message: int, emoji: Field<string>): (r: Result<set<ReactionRow>, Status>)
    ensures ReactionEmoji(messages, user, message, emoji).Err? ==> r == Err(ReactionEmoji(messages, user, message, emoji).error)
    ensures r.Ok? ==> RowsOf(r.value, message, user) == {ReactionRow(message, user, ReactionEmoji(messages, user, message, emoji).value)}
    ensures r.Ok? ==> forall x: ReactionRow :: !(x.message == message && x.user == user) ==> (x in r.value <==> x in rows)
  {
    match ReactionEmoji(messages, user, message, emoji)
    case Err(code) => Err(code)
    case Ok(e) =>
      var after := (rows - RowsOf(rows, message, user)) + {ReactionRow(message, user, e)};
      assert RowsOf(after, message, user) == {ReactionRow(message, user, e)};
      Ok(after)
  }

  /** DELETE: only the rows matching (message, user, emoji) go, and the
      answer says whether any did. */
  function ReactDelete(messages: map<int, set<int>>, rows: set<ReactionRow>, user: int, message: int, emoji: Field<string>): (r: Result<(set<ReactionRow>, bool), Status>)
    ensures ReactionEmoji(messages, user, message, emoji).Err? ==> r == Err(ReactionEmoji(messages, user, message, emoji).error)
    ensures r.Ok? ==>
              var row := ReactionRow(message, user, ReactionEmoji(messages, user, message, emoji).value);
              r.value.0 == rows - {row} && (r.value.1 <==> row in rows)
  {
    match ReactionEmoji(messages, user, message, emoji)
    case Err(code) => Err(code)
    case Ok(e) =>
      var row := ReactionRow(message, user, e);
      Ok((rows - {row}, row in rows))
  }

  /** At most one reaction per user per message. */
  predicate OnePerUser(rows: set<ReactionRow>) {
    forall a, b :: a in rows && b in rows && a.message == b.message && a.user == b.user ==> a == b
  }

  /** Both methods keep at most one reaction per user per message. */
  lemma {:induction false} ReactionsKeepOnePerUser(messages: map<int, set<int>>, rows: set<ReactionRow>, user: int, message: int, emoji: Field<string>)
    requires OnePerUser(rows)
    ensures ReactPost(messages, rows, user, message, emoji).Ok? ==> OnePerUser(ReactPost(messages, rows, user, message, emoji).value)
    ensures ReactDelete(messages, rows, user, message, emoji).Ok? ==> OnePerUser(ReactDelete(messages, rows, user, message, emoji).value.0)
  {
    var r := ReactPost(messages, rows, user, message, emoji);
    if r.Ok? {
      var after := r.value;
      forall a, b | a in after && b in after && a.message == b.message && a.user == b.user
        ensures a == b
      {
        if a.message == message && a.user == user {
          assert a in RowsOf(after, message, user) && b in RowsOf(after, message, user);
        }
      }
    }
  }

  /** Adding an emoji and then removing the same emoji restores the
      reaction table exactly when the user had no reaction on that message
      before: any earlier reaction of theirs was replaced by the add. */
  lemma {:induction false} AddThenRemoveRestoresIff(messages: map<int, set<int>>, rows: set<ReactionRow>, user: int, message: int, emoji: string)
    requires ReactPost(messages, rows, user, message, Given(emoji)).Ok?
    ensures var added := ReactPost(messages, rows, user, message, Given(emoji)).value;
            ReactDelete(messages, added, user, message, Given(emoji)).value.0 == rows
            <==> RowsOf(rows, message, user) == {}
  {
    var e := ReactionEmoji(messages, user, message, Given(emoji)).value;
    var row := ReactionRow(message, user, e);
    var added := ReactPost(messages, rows, user, message, Given(emoji)).value;
    assert RowsOf(added, message, user) == {row};
    var removed := ReactDelete(messages, added, user, message, Given(emoji)).value.0;
    assert removed == added - {row};
    if RowsOf(rows, message, user) == {} {
      assert removed == rows;
    } else {
      var x :| x in RowsOf(rows, message, user);
      assert x !in removed;
    }
  }

  /** The concrete case: a user who reacted with one emoji and taps a
      second one twice ends up with no reaction at all. */
  lemma {:induction false} AddThenRemoveLosesEarlierEmoji()
    ensures var messages := map[1 := {7, 8}];
            var rows := {ReactionRow(1, 7, "a")};
            var added := ReactPost(messages, rows, 7, 1, Given("b")).value;
            ReactDelete(messages, added, 7, 1, Given("b")).value.0 == {}
  {
    var messages := map[1 := {7, 8}];
    var rows := {ReactionRow(1, 7, "a")};
    StripByKeeps("a", IsSpace);
    StripByKeeps("b", IsSpace);
    assert RowsOf(rows, 1, 7) == rows;
    var added := ReactPost(messages, rows, 7, 1, Given("b")).value;
    assert added == {ReactionRow(1, 7, "b")};
  }

  // ---------------------------------------------------------------------
  // One-to-one threads
  // ---------------------------------------------------------------------

  datatype Conversation = Conversation(id: int, participants: set<int>, updatedAt: int)

  /** A thread listed for `me`: two participants, one of them `me`. */
  predicate IsThreadOf(c: Conversation, me: int) {
    |c.participants| == 2 && me in c.participants
  }

  predicate NewestFirst(cs: seq<Conversation>) {
    forall i, j :: 0 <= i < j < |cs| ==> cs[i].updatedAt >= cs[j].updatedAt
  }

  /** Putting a conversation at least as recent as every other in front
      keeps the order. */
  lemma {:induction false} PrependNewest(c: Conversation, cs: seq<Conversation>)
    requires NewestFirst(cs)
    requires forall x :: x in cs ==> x.updatedAt <= c.updatedAt
    ensures NewestFirst([c] + cs)
  {
    var r := [c] + cs;
    forall i, j | 0 <= i < j < |r| ensures r[i].updatedAt >= r[j].updatedAt {
      assert r[j] == cs[j - 1];
      if i > 0 {
        assert r[i] == cs[i - 1];
      }
    }
  }

  function InsertByRecency(c: Conversation, cs: seq<Conversation>): (r: seq<Conversation>)
    requires NewestFirst(cs)
    ensures multiset(r) == multiset(cs) + multiset{c}
    ensures NewestFirst(r)
  {
    if |cs| == 0 then [c]
    else if c.updatedAt >= cs[0].updatedAt then
      PrependNewest(c, cs);
      [c] + cs
    else
      var rest := InsertByRecency(c, cs[1..]);
      RestBelowHead(c, cs, rest);
      PrependNewest(cs[0], rest);
      assert cs == [cs[0]] + cs[1..];
      [cs[0]] + rest
  }

  lemma {:induction false} RestBelowHead(c: Conversation, cs: seq<Conversation>, rest: seq<Conversation>)
    requires NewestFirst(cs) && |cs| > 0 && c.updatedAt < cs[0].updatedAt
    requires multiset(rest) == multiset(cs[1..]) + multiset{c}
    ensures forall x :: x in rest ==> x.updatedAt <= cs[0].updatedAt
  {
    forall x | x in rest ensures x.updatedAt <= cs[0].updatedAt {
      assert x in multiset(rest);
      if x != c {
        assert x in multiset(cs[1..]);
        var k :| 0 <= k < |cs[1..]| && cs[1..][k] == x;
        assert cs[k + 1] == x;
      }
    }
  }

  /** `order_by('-updated_at')`; ties keep no particular order. */
  function SortByRecency(cs: seq<Conversation>): (r: seq<Conversation>)
    ensures multiset(r) == multiset(cs)
    ensures NewestFirst(r)
  {
    if |cs| == 0 then []
    else
      assert cs == [cs[0]] + cs[1..];
      InsertByRecency(cs[0], SortByRecency(cs[1..]))
  }

  function Keep(cs: seq<Conversation>, p: Conversation -> bool): (r: seq<Conversation>)
    ensures forall c :: c in r <==> c in cs && p(c)
    ensures |r| <= |cs|
  {
    if |cs| == 0 then [] else (if p(cs[0]) then [cs[0]] else []) + Keep(cs[1..], p)
  }

  /** Filtering keeps every kept element as often as it occurs. */
  lemma {:induction false} KeepCounts(cs: seq<Conversation>, p: Conversation -> bool)
    ensures forall c :: multiset(Keep(cs, p))[c] == if p(c) then multiset(cs)[c] else 0
    decreases |cs|
  {
    if |cs| > 0 {
      KeepCounts(cs[1..], p);
      var rest := Keep(cs[1..], p);
      var head := if p(cs[0]) then [cs[0]] else [];
      assert Keep(cs, p) == head + rest;
      assert cs == [cs[0]] + cs[1..];
      assert multiset(cs) == multiset{cs[0]} + multiset(cs[1..]);
      assert multiset(head + rest) == multiset(head) + multiset(rest);
    }
  }

  /** `get_queryset` of the thread list: exactly the two-person
      conversations of `me`, each as often as it is stored, most recently
      updated first. */
  function ThreadList(convs: seq<Conversation>, me: int): (r: seq<Conversation>)
    ensures forall c :: c in r <==> c in convs && IsThreadOf(c, me)
    ensures forall c :: multiset(r)[c] == if IsThreadOf(c, me) then multiset(convs)[c] else 0
    ensures NewestFirst(r)
  {
    var kept := Keep(convs, (c: Conversation) => IsThreadOf(c, me));
    KeepCounts(convs, (c: Conversation) => IsThreadOf(c, me));
    SortKeepsMembers(kept);
    SortByRecency(kept)
  }

  lemma {:induction false} SortKeepsMembers(cs: seq<Conversation>)
    ensures forall c :: c in SortByRecency(cs) <==> c in cs
  {
    var r := SortByRecency(cs);
    forall c ensures c in r <==> c in cs {
      assert c in r <==> c in multiset(r);
      assert c in cs <==> c in multiset(cs);
    }
  }

  /** The users whose username equals `name` ignoring case
      (`username__iexact`). */
  function NamedIgnoringCase(users: seq<User>, name: string): (r: seq<User>)
    ensures forall u :: u in r <==> u in users && Lower(u.username) == Lower(name)
  {
    if |users| == 0 then []
    else (if Lower(users[0].username) == Lower(name) then [users[0]] else []) + NamedIgnoringCase(users[1..], name)
  }

  function MaxId(convs: seq<Conversation>): (m: int)
    ensures forall c :: c in convs ==> c.id <= m
  {
    if |convs| == 0 then 0
    else var rest := MaxId(convs[1..]); if convs[0].id > rest then convs[0].id else rest
  }

  /** The most recently updated conversation between exactly `pair`. */
  function NewestWith(convs: seq<Conversation>, pair: set<int>): (r: Option<Conversation>)
    ensures r.None? <==> forall c :: c in convs ==> c.participants != pair
    ensures r.Some? ==> r.value in convs && r.value.participants == pair
    ensures r.Some? ==> forall c :: c in convs && c.participants == pair ==> c.updatedAt <= r.value.updatedAt
  {
    if |convs| == 0 then None
    else
      var rest := NewestWith(convs[1..], pair);
      assert forall c :: c in convs ==> c == convs[0] || c in convs[1..];
      if convs[0].participants != pair then rest
      else if rest.None? || rest.value.updatedAt <= convs[0].updatedAt then Some(convs[0])
      else rest
  }

  /** The conversation table after `create`, and the thread returned. */
  datatype ThreadCreated = ThreadCreated(convs: seq<Conversation>, thread: Conversation)

  /** The existing one-to-one thread, the most recently updated first, or
      a new conversation with a fresh id created at `now`. */
  function GetOrCreate(convs: seq<Conversation>, pair: set<int>, now: int): (r: ThreadCreated)
    ensures r.thread.participants == pair
    ensures (exists c :: c in convs && c.participants == pair) ==>
              r.convs == convs && r.thread in convs
              && forall c :: c in convs && c.participants == pair ==> c.updatedAt <= r.thread.updatedAt
    ensures (forall c :: c in convs ==> c.participants != pair) ==>
              r.convs == convs + [r.thread] && r.thread.updatedAt == now
              && forall c :: c in convs ==> c.id != r.thread.id
  {
    match NewestWith(convs, pair)
    case Some(c) => ThreadCreated(convs, c)
    case None =>
      var created := Conversation(MaxId(convs) + 1, pair, now);
      ThreadCreated(convs + [created], created)
  }

  /** The `username` of a thread request as the view reads it: `NoName`
      when the key is absent or its value is falsy (null, false, 0, an
      empty list), `Name` for a string, and `NonText` for any other
      value, which has no `strip` method. */
  datatype NameField = NoName | Name(text: string) | NonText

  /** The name the view looks up: the stripped text, or empty. */
  function RequestedName(username: NameField): string
  {
    if username.Name? then Trim(username.text) else ""
  }

  /** POST on the thread list: find or create the one-to-one thread with
      the named user. `now` is the creation time. A truthy non-string name
      makes `strip` raise, which the framework answers with 500. */
  function CreateThread(users: seq<User>, convs: seq<Conversation>, me: User, username: NameField, now: int): (r: Result<ThreadCreated, Status>)
    ensures username.NonText? ==> r == Err(ServerError)
    ensures username.NoName? ==> r == Err(BadRequest)
    ensures !username.NonText? ==>
            var name := RequestedName(username);
            && (name == [] ==> r == Err(BadRequest))
            && (name != [] && |NamedIgnoringCase(users, name)| == 0 ==> r == Err(NotFound))
            && (name != [] && |NamedIgnoringCase(users, name)| > 1 ==> r == Err(ServerError))
            && (name != [] && |NamedIgnoringCase(users, name)| == 1 && NamedIgnoringCase(users, name)[0].id == me.id ==> r == Err(BadRequest))
            && (name != [] && |NamedIgnoringCase(users, name)| == 1 && NamedIgnoringCase(users, name)[0].id != me.id ==>
                  r == Ok(GetOrCreate(convs, {me.id, NamedIgnoringCase(users, name)[0].id}, now)))
  {
    var name := RequestedName(username);
    if username.NonText? then Err(ServerError)
    else if name == [] then Err(BadRequest)
    else
      var found := NamedIgnoringCase(users, name);
      if |found| == 0 then Err(NotFound)
      else if |found| > 1 then Err(ServerError)
      else
        var other := found[0];
        // Model instances compare by primary key.
        if other.id == me.id then Err(BadRequest)
        else Ok(GetOrCreate(convs, {me.id, other.id}, now))
  }

  /** Create-or-get is idempotent: asking again returns the same thread and
      creates nothing. */
  lemma {:induction false} CreateThreadIdempotent(users: seq<User>, convs: seq<Conversation>, me: User, username: NameField, now: int, later: int)
    requires CreateThread(users, convs, me, username, now).Ok?
    ensures var first := CreateThread(users, convs, me, username, now).value;
            CreateThread(users, first.convs, me, username, later) == Ok(first)
  {
    var name := RequestedName(username);
    var pair := {me.id, NamedIgnoringCase(users, name)[0].id};
    GetOrCreateIdempotent(convs, pair, now, later);
  }

  /** Looking up the pair in the list the first lookup left finds the same
      thread and adds nothing. */
  lemma {:induction false} GetOrCreateIdempotent(convs: seq<Conversation>, pair: set<int>, now: int, later: int)
    ensures var first := GetOrCreate(convs, pair, now);
            GetOrCreate(first.convs, pair, later) == first
  {
    var first := GetOrCreate(convs, pair, now);
    if NewestWith(convs, pair).None? {
      var created := first.thread;
      assert first.convs == convs + [created];
      var again := NewestWith(first.convs, pair);
      assert created in first.convs;
      assert again.Some?;
      assert again.value in convs || again.value == created;
      assert again.value == created;
    }
  }

  /** The returned thread has exactly two participants, the requester and
      the named user, and is listed for the requester afterwards. */
  lemma {:induction false} CreatedThreadIsListed(users: seq<User>, convs: seq<Conversation>, me: User, username: NameField, now: int)
    requires CreateThread(users, convs, me, username, now).Ok?
    ensures var r := CreateThread(users, convs, me, username, now).value;
            r.thread in ThreadList(r.convs, me.id)
            && exists other :: other in users && other.id != me.id && r.thread.participants == {me.id, other.id}
  {
    var name := RequestedName(username);
    var other := NamedIgnoringCase(users, name)[0];
    assert other in NamedIgnoringCase(users, name);
    GetOrCreateListed(convs, me.id, other.id, now);
  }

  /** The thread of two different people is in the table afterwards and
      is a two-person thread of each. */
  lemma {:induction false} GetOrCreateListed(convs: seq<Conversation>, a: int, b: int, now: int)
    requires a != b
    ensures var r := GetOrCreate(convs, {a, b}, now);
            r.thread in r.convs && IsThreadOf(r.thread, a)
  {
    var r := GetOrCreate(convs, {a, b}, now);
    assert |{a, b}| == 2;
    if exists c :: c in convs && c.participants == {a, b} {
      assert r.thread in r.convs;
    } else {
      assert r.convs == convs + [r.thread];
    }
  }

  // ---------------------------------------------------------------------
  // Comment deletion
  // ---------------------------------------------------------------------

  /** A photo comment with the author and the owner of its photo. */
  datatype PhotoComment = PhotoComment(author: int, photoOwner: int)

  /** DELETE on a comment: 404 for an unknown id; allowed for its author
      and the photo's owner, 403 for everybody else. */
  function DeleteComment(comments: map<int, PhotoComment>, requester: int, id: int): (r: Result<map<int, PhotoComment>, Status>)
    ensures id !in comments ==> r == Err(NotFound)
    ensures id in comments ==>
              (r.Ok? <==> requester == comments[id].author || requester == comments[id].photoOwner)
    ensures id in comments && r.Err? ==> r.error == Forbidden
    ensures r.Ok? ==> r.value == comments - {id}
  {
    if id !in comments then Err(NotFound)
    else if requester == comments[id].author || requester == comments[id].photoOwner then Ok(comments - {id})
    else Err(Forbidden)
  }

  // ---------------------------------------------------------------------
  // User search
  // ---------------------------------------------------------------------

  /** The users matching a search (`username__icontains`), leaving out
      the requester, in table order. */
  function SearchMatches(users: seq<User>, me: int, query: string): (r: seq<User>)
    ensures forall u :: u in r <==> u in users && u.id != me && Contains(Lower(u.username), Lower(query))
    ensures |r| <= |users|
  {
    if |users| == 0 then []
    else
      var u := users[0];
      (if u.id != me && Contains(Lower(u.username), Lower(query)) then [u] else []) + SearchMatches(users[1..], me, query)
  }

  const SearchLimit: nat := 10

  /** The search text: a missing `q` is "", anything else is stripped. */
  function SearchQuery(q: Option<string>): (query: string)
    ensures q.Some? ==> query == Trim(q.value)
  {
    if q.None? then "" else Trim(q.value)
  }

  /** `UserSearchView.get_queryset`: a search text shorter than 2 finds
      nobody; otherwise the first 10 users, in table order, whose username
      contains the text ignoring case, never the requester. When fewer
      than 10 users match, all of them are found. */
  function SearchUsers(users: seq<User>, me: int, q: Option<string>): (r: seq<User>)
    ensures |SearchQuery(q)| < 2 ==> r == []
    ensures |r| <= SearchLimit
    ensures r <= SearchMatches(users, me, SearchQuery(q))
    ensures forall u :: u in r ==> u in users && u.id != me && Contains(Lower(u.username), Lower(SearchQuery(q)))
    ensures |SearchQuery(q)| >= 2 && |SearchMatches(users, me, SearchQuery(q))| < SearchLimit ==>
              forall u :: u in users && u.id != me && Contains(Lower(u.username), Lower(SearchQuery(q))) ==> u in r
    ensures |SearchQuery(q)| >= 2 && |SearchMatches(users, me, SearchQuery(q))| >= SearchLimit ==> |r| == SearchLimit
  {
    var query := SearchQuery(q);
    if query == [] || |query| < 2 then []
    else
      var m := SearchMatches(users, me, query);
      var n := if |m| < SearchLimit then |m| else SearchLimit;
      PrefixMembers(m, n);
      m[..n]
  }

  /** The search depends on `q` only through its stripped text. */
  lemma {:induction false} SearchUsersByQuery(users: seq<User>, me: int, q1: Option<string>, q2: Option<string>)
    requires SearchQuery(q1) == SearchQuery(q2)
    ensures SearchUsers(users, me, q1) == SearchUsers(users, me, q2)
  {
  }

  lemma {:induction false} PrefixMembers(m: seq<User>, n: nat)
    requires n <= |m|
    ensures forall u :: u in m[..n] ==> u in m
  {
    forall u | u in m[..n] ensures u in m {
      var k :| 0 <= k < n && m[..n][k] == u;
      assert m[k] == u;
    }
  }

  // ---------------------------------------------------------------------
  // Username for a new Google sign-in
  // ---------------------------------------------------------------------

  /** The `k`-th candidate: the e-mail's local part, then the local part
      followed by 1, 2, 3, ... */
  function Candidate(base: string, k: nat): string {
    if k == 0 then base else base + NatToString(k)
  }

  /** Whether a username is taken, ignoring case (`username__iexact`). */
  predicate Taken(taken: set<string>, name: string) {
    Lower(name) in taken
  }

  lemma {:induction false} CandidateLower(base: string, k: nat)
    ensures Lower(Candidate(base, k)) == Candidate(Lower(base), k)
  {
    if k > 0 {
      LowerAppend(base, NatToString(k));
      LowerOfDigits(NatToString(k));
    }
  }

  /** Distinct candidates differ even ignoring case. */
  lemma {:induction false} CandidatesDistinct(base: string, i: nat, j: nat)
    requires i != j
    ensures Lower(Candidate(base, i)) != Lower(Candidate(base, j))
  {
    CandidateLower(base, i);
    CandidateLower(base, j);
    var b := Lower(base);
    if i > 0 && j > 0 && Candidate(b, i) == Candidate(b, j) {
      assert Candidate(b, i)[|b|..] == NatToString(i);
      assert Candidate(b, j)[|b|..] == NatToString(j);
      NatToStringInjective(i, j);
    }
  }

  /** The lower-cased candidates tried before the `k`-th. */
  function Tried(base: string, k: nat): set<string> {
    set j | 0 <= j < k :: Lower(Candidate(base, j))
  }

  lemma {:induction false} TriedSize(base: string, k: nat)
    ensures |Tried(base, k)| == k
  {
    if k > 0 {
      TriedSize(base, k - 1);
      assert Tried(base, k) == Tried(base, k - 1) + {Lower(Candidate(base, k - 1))};
      forall j | 0 <= j < k - 1 ensures Lower(Candidate(base, j)) != Lower(Candidate(base, k - 1)) {
        CandidatesDistinct(base, j, k - 1);
      }
    }
  }

  /** One more taken candidate: the tried set grows by one and still lies
      inside the taken names, so the counter cannot pass their number. */
  lemma {:induction false} TriedStep(base: string, k: nat, taken: set<string>)
    requires Tried(base, k) <= taken
    requires Lower(Candidate(base, k)) in taken
    ensures Tried(base, k + 1) <= taken
    ensures k + 1 <= |taken|
  {
    assert Tried(base, k + 1) == Tried(base, k) + {Lower(Candidate(base, k))};
    TriedSize(base, k + 1);
    SubsetSize(Tried(base, k + 1), taken);
  }

  lemma {:induction false} SubsetSize<T>(a: set<T>, b: set<T>)
    requires a <= b
    ensures |a| <= |b|
  {
    assert b == a + (b - a);
  }

  /** The `google_auth` loop: the local part of the e-mail, or the local
      part followed by the smallest counter that makes it free. `taken`
      holds the lower-cased usernames in use. */
  method GoogleUsername(email: string, taken: set<string>) returns (username: string)
    ensures !Taken(taken, username)
    ensures exists k: nat :: username == Candidate(SplitOn(email, '@')[0], k)
              && forall j :: 0 <= j < k ==> Taken(taken, Candidate(SplitOn(email, '@')[0], j))
  {
    var base := SplitOn(email, '@')[0];
    username := base;
    var counter: nat := 1;
    while Lower(username) in taken
      invariant username == Candidate(base, counter - 1)
      invariant forall j :: 0 <= j < counter - 1 ==> Taken(taken, Candidate(base, j))
      invariant Tried(base, counter - 1) <= taken
      decreases |taken| - (counter - 1)
    {
      TriedStep(base, counter - 1, taken);
      username := base + NatToString(counter);
      counter := counter + 1;
    }
  }
}

=== FILE: strings.dfy ===
/** String primitives of the two runtimes the system runs on: JavaScript
    `trim`, `includes`, `String(n)`, `Number(s)`, `parseInt(s)` and Python
    `strip`, `split`, slicing and case-insensitive comparison. Strings are
    sequences of Unicode scalar values. */
module Strings {
  import opened Wrappers

  // ---------------------------------------------------------------------
  // Whitespace and stripping
  // ---------------------------------------------------------------------

  /** The ASCII whitespace characters removed by JavaScript `trim()` and
      Python `str.strip()`. */
  predicate IsSpace(c: char) {
    c == ' ' || c == '\t' || c == '\n' || c == '\r' || c == '\U{0B}' || c == '\U{0C}'
  }

  /** Drops the longest prefix whose characters satisfy `drop`. */
  function DropStart(s: string, drop: char -> bool): (r: string)
    ensures |r| <= |s| && r == s[|s| - |r|..]
    ensures forall i :: 0 <= i < |s| - |r| ==> drop(s[i])
    ensures |r| > 0 ==> !drop(r[0])
  {
    if |s| > 0 && drop(s[0]) then DropStart(s[1..], drop) else s
  }

  lemma {:induction false} DropStartStops(s: string, drop: char -> bool)
    requires |s| > 0 && !drop(s[0])
    ensures DropStart(s, drop) == s
  {
  }

  /** Drops the longest suffix whose characters satisfy `drop`. */
  function DropEnd(s: string, drop: char -> bool): (r: string)
    ensures |r| <= |s| && r == s[..|r|]
    ensures forall i :: |r| <= i < |s| ==> drop(s[i])
    ensures |r| > 0 ==> !drop(r[|r| - 1])
  {
    if |s| > 0 && drop(s[|s| - 1]) then DropEnd(s[..|s| - 1], drop) else s
  }

  /** How many characters `StripBy` removes from the front of `s`. */
  function StripOffset(s: string, drop: char -> bool): (a: nat)
    ensures a <= |s|
  {
    |s| - |DropStart(s, drop)|
  }

  /** Python `s.strip(chars)` / JavaScript `s.trim()` generalised over the
      set of characters removed from both ends. */
  function StripBy(s: string, drop: char -> bool): (r: string)
    ensures StripOffset(s, drop) + |r| <= |s|
    ensures r == s[StripOffset(s, drop)..StripOffset(s, drop) + |r|]
    ensures forall i :: 0 <= i < StripOffset(s, drop) ==> drop(s[i])
    ensures forall i :: StripOffset(s, drop) + |r| <= i < |s| ==> drop(s[i])
    ensures |r| > 0 ==> !drop(r[0]) && !drop(r[|r| - 1])
  {
    var l := DropStart(s, drop);
    var r := DropEnd(l, drop);
    var a := |s| - |l|;
    assert a == StripOffset(s, drop);
    assert r == s[a..a + |r|] by {
      assert l == s[a..] && r == l[..|r|];
    }
    TailDropped(s, drop, l, r, a);
    assert |r| > 0 ==> r[0] == l[0];
    r
  }

  lemma {:induction false} TailDropped(s: string, drop: char -> bool, l: string, r: string, a: nat)
    requires a <= |s| && l == s[a..] && |r| <= |l|
    requires forall j :: |r| <= j < |l| ==> drop(l[j])
    ensures forall i :: a + |r| <= i < |s| ==> drop(s[i])
  {
    forall i | a + |r| <= i < |s| ensures drop(s[i]) {
      assert s[i] == l[i - a];
    }
  }

  /** JavaScript `trim()` and Python `strip()` with no argument. */
  function Trim(s: string): string {
    StripBy(s, IsSpace)
  }

  /** The positions of `s` holding a character outside the Basic
      Multilingual Plane, which UTF-16 writes as a surrogate pair. */
  function AstralPositions(s: string): set<nat> {
    set i: nat | i < |s| && (s[i] as int) >= 0x1_0000
  }

  /** JavaScript's `length`: the number of UTF-16 code units, so a
      character outside the Basic Multilingual Plane counts twice, where
      Python's `len` (the sequence length here) counts it once. */
  function Utf16Length(s: string): (n: nat)
    ensures n == |s| + |AstralPositions(s)|
    ensures |s| <= n <= 2 * |s|
    ensures n == |s| <==> forall i :: 0 <= i < |s| ==> (s[i] as int) < 0x1_0000
  {
    if s == [] then 0
    else
      var t := s[..|s| - 1];
      var c := s[|s| - 1];
      var m := Utf16Length(t);
      assert forall i :: 0 <= i < |t| ==> t[i] == s[i];
      AstralSnoc(t, c, s);
      m + (if (c as int) < 0x1_0000 then 1 else 2)
  }

  /** Appending a character adds its position to the astral positions
      exactly when it is astral. */
  lemma {:induction false} AstralSnoc(t: string, c: char, s: string)
    requires s == t + [c]
    ensures AstralPositions(s) == AstralPositions(t) + (if (c as int) < 0x1_0000 then {} else {|t|})
    ensures |AstralPositions(s)| == |AstralPositions(t)| + (if (c as int) < 0x1_0000 then 0 else 1)
  {
    assert forall i :: 0 <= i < |t| ==> s[i] == t[i];
    assert |t| !in AstralPositions(t);
  }

  /** Python `s.strip(ch)` for a one-character argument. */
  function StripChar(s: string, ch: char): string {
    StripBy(s, c => c == ch)
  }

  /** A string made of whitespace only trims to the empty string, and a
      string with a non-space character does not. */
  lemma {:induction false} TrimEmptyIff(s: string)
    ensures Trim(s) == [] <==> forall i :: 0 <= i < |s| ==> IsSpace(s[i])
  {
    var r := Trim(s);
    if r != [] {
      var a := StripOffset(s, IsSpace);
      assert s[a] == r[0];
    }
  }

  /** A string whose ends are kept is left alone by stripping. */
  lemma {:induction false} StripByKeeps(s: string, drop: char -> bool)
    requires |s| > 0 ==> !drop(s[0]) && !drop(s[|s| - 1])
    ensures StripBy(s, drop) == s
  {
    assert DropStart(s, drop) == s;
    assert DropEnd(s, drop) == s;
  }

  /** A prefix of dropped characters makes no difference to `DropStart`. */
  lemma {:induction false} DropStartOver(pre: string, t: string, drop: char -> bool)
    requires forall i :: 0 <= i < |pre| ==> drop(pre[i])
    ensures DropStart(pre + t, drop) == DropStart(t, drop)
  {
    if |pre| > 0 {
      assert (pre + t)[0] == pre[0] && drop(pre[0]);
      assert (pre + t)[1..] == pre[1..] + t;
      assert DropStart(pre + t, drop) == DropStart(pre[1..] + t, drop);
      DropStartOver(pre[1..], t, drop);
    } else {
      assert pre + t == t;
    }
  }

  /** A suffix of dropped characters makes no difference to `DropEnd`. */
  lemma {:induction false} DropEndOver(t: string, post: string, drop: char -> bool)
    requires forall i :: 0 <= i < |post| ==> drop(post[i])
    ensures DropEnd(t + post, drop) == DropEnd(t, drop)
  {
    if |post| > 0 {
      var s := t + post;
      assert s[|s| - 1] == post[|post| - 1] && drop(post[|post| - 1]);
      assert s[..|s| - 1] == t + post[..|post| - 1];
      assert DropEnd(s, drop) == DropEnd(t + post[..|post| - 1], drop);
      DropEndOver(t, post[..|post| - 1], drop);
    } else {
      assert t + post == t;
    }
  }

  /** Stripping removes a dropped prefix and suffix around a middle whose
      ends are kept. */
  lemma {:induction false} StripAround(pre: string, mid: string, post: string, drop: char -> bool)
    requires forall i :: 0 <= i < |pre| ==> drop(pre[i])
    requires forall i :: 0 <= i < |post| ==> drop(post[i])
    requires |mid| > 0 && !drop(mid[0]) && !drop(mid[|mid| - 1])
    ensures StripBy(pre + mid + post, drop) == mid
  {
    assert pre + mid + post == pre + (mid + post);
    DropStartOver(pre, mid + post, drop);
    assert DropStart(mid + post, drop) == mid + post;
    DropEndOver(mid, post, drop);
    assert DropEnd(mid, drop) == mid;
  }

  /** `StripChar` leaves alone a string that neither starts nor ends with
      the character. */
  lemma {:induction false} StripCharKeeps(s: string, ch: char)
    requires |s| > 0 ==> s[0] != ch && s[|s| - 1] != ch
    ensures StripChar(s, ch) == s
  {
    StripByKeeps(s, c => c == ch);
  }

  /** `StripChar` removes runs of the character around a middle that
      neither starts nor ends with it. */
  lemma {:induction false} StripCharAround(pre: string, mid: string, post: string, ch: char)
    requires forall i :: 0 <= i < |pre| ==> pre[i] == ch
    requires forall i :: 0 <= i < |post| ==> post[i] == ch
    requires |mid| > 0 && mid[0] != ch && mid[|mid| - 1] != ch
    ensures StripChar(pre + mid + post, ch) == mid
  {
    StripAround(pre, mid, post, c => c == ch);
  }

  /** Trimming twice is trimming once. */
  lemma {:induction false} TrimIdempotent(s: string)
    ensures Trim(Trim(s)) == Trim(s)
  {
    StripByKeeps(Trim(s), IsSpace);
  }

  // ---------------------------------------------------------------------
  // Prefixes, substrings, case folding
  // ---------------------------------------------------------------------

  predicate StartsWith(s: string, p: string) {
    |p| <= |s| && s[..|p|] == p
  }

  /** JavaScript `s.includes(sub)` / SQL `LIKE '%sub%'`. */
  predicate Contains(s: string, sub: string): (b: bool)
    ensures b ==> |sub| <= |s|
    ensures |sub| == |s| ==> (b <==> s == sub)
    decreases |s|
  {
    StartsWith(s, sub) || (|s| > 0 && Contains(s[1..], sub))
  }

  /** A substring of either part is a substring of the concatenation. */
  lemma {:induction false} ContainsAppend(a: string, b: string, sub: string)
    requires Contains(a, sub) || Contains(b, sub)
    ensures Contains(a + b, sub)
    decreases |a|
  {
    if |a| == 0 {
      assert a + b == b;
    } else if StartsWith(a, sub) {
      assert (a + b)[..|sub|] == a[..|sub|];
    } else {
      assert (a + b)[1..] == a[1..] + b;
      if Contains(a, sub) {
        ContainsAppend(a[1..], b, sub);
      } else {
        ContainsAppend(a[1..], b, sub);
      }
    }
  }

  /** ASCII lower-casing of one character. */
  function LowerChar(c: char): char {
    if 'A' <= c <= 'Z' then (c as int + 32) as char else c
  }

  /** ASCII upper-casing of one character. */
  function UpperChar(c: char): char {
    if 'a' <= c <= 'z' then (c as int - 32) as char else c
  }

  /** ASCII case folding, the model of Django's `__iexact`/`__icontains`. */
  function Lower(s: string): (r: string)
    ensures |r| == |s|
    ensures forall i :: 0 <= i < |s| ==> r[i] == LowerChar(s[i])
  {
    seq(|s|, i requires 0 <= i < |s| => LowerChar(s[i]))
  }

  lemma {:induction false} LowerAppend(a: string, b: string)
    ensures Lower(a + b) == Lower(a) + Lower(b)
  {
  }

  // ---------------------------------------------------------------------
  // Decimal numbers
  // ---------------------------------------------------------------------

  predicate IsDigit(c: char) {
    '0' <= c <= '9'
  }

  predicate AllDigits(s: string) {
    forall i :: 0 <= i < |s| ==> IsDigit(s[i])
  }

  function DigitChar(d: nat): (c: char)
    requires d < 10
    ensures IsDigit(c)
  {
    ('0' as int + d) as char
  }

  function DigitValue(c: char): nat
    requires IsDigit(c)
  {
    c as int - '0' as int
  }

  /** Lower-casing leaves digits alone. */
  lemma {:induction false} LowerOfDigits(s: string)
    requires AllDigits(s)
    ensures Lower(s) == s
  {
  }

  /** The decimal text of a natural number, without leading zeros. */
  function NatToString(n: nat): (r: string)
    ensures |r| > 0 && AllDigits(r)
    ensures r[0] == '0' ==> n == 0
  {
    if n < 10 then [DigitChar(n)] else NatToString(n / 10) + [DigitChar(n % 10)]
  }

  /** The value of a string of decimal digits. */
  function DigitsValue(s: string): nat
    requires AllDigits(s)
  {
    if |s| == 0 then 0 else DigitsValue(s[..|s| - 1]) * 10 + DigitValue(s[|s| - 1])
  }

  lemma {:induction false} DigitsValueOfNatToString(n: nat)
    ensures DigitsValue(NatToString(n)) == n
  {
    if n >= 10 {
      var r := NatToString(n);
      assert r[..|r| - 1] == NatToString(n / 10);
      DigitsValueOfNatToString(n / 10);
    }
  }

  /** Decimal text is injective: two numbers with the same text are equal. */
  lemma {:induction false} NatToStringInjective(m: nat, n: nat)
    requires NatToString(m) == NatToString(n)
    ensures m == n
  {
    DigitsValueOfNatToString(m);
    DigitsValueOfNatToString(n);
  }

  /** JavaScript `String(i)` for an integer of ordinary size. */
  function IntToString(i: int): (r: string)
    ensures |r| > 0 && (r[0] == '-' || IsDigit(r[0]))
  {
    if i < 0 then "-" + NatToString(-i) else NatToString(i)
  }

  /** Strict decimal parsing: an optional '-' followed by one or more
      digits, and nothing else. `None` stands for `NaN`. */
  function ParseInt(s: string): (r: Option<int>)
    ensures r.Some? ==> |s| > 0 && (AllDigits(s) || (s[0] == '-' && |s| > 1 && AllDigits(s[1..])))
  {
    if |s| > 1 && s[0] == '-' && AllDigits(s[1..]) then Some(0 - DigitsValue(s[1..]))
    else if |s| > 0 && AllDigits(s) then Some(DigitsValue(s))
    else None
  }

  /** Decimal text read back with the strict parser gives the number. */
  lemma {:induction false} ParseIntOfIntToString(i: int)
    ensures ParseInt(IntToString(i)) == Some(i)
  {
    var s := IntToString(i);
    if i < 0 {
      var t := NatToString(-i);
      assert s == "-" + t;
      assert s[1..] == t;
      DigitsValueOfNatToString(-i);
      assert ParseInt(s) == Some(0 - DigitsValue(t));
    } else {
      assert s == NatToString(i);
      DigitsValueOfNatToString(i);
      assert ParseInt(s) == Some(DigitsValue(s));
    }
  }

  /** The longest prefix of `s` made of digits. */
  function DigitPrefix(s: string): (r: string)
    ensures |r| <= |s| && r == s[..|r|] && AllDigits(r)
    ensures |r| < |s| ==> !IsDigit(s[|r|])
  {
    if |s| > 0 && IsDigit(s[0]) then [s[0]] + DigitPrefix(s[1..]) else []
  }

  lemma {:induction false} DigitPrefixOfDigits(d: string, tail: string)
    requires AllDigits(d)
    requires |tail| > 0 ==> !IsDigit(tail[0])
    ensures DigitPrefix(d + tail) == d
  {
    if |d| > 0 {
      assert (d + tail)[1..] == d[1..] + tail;
      DigitPrefixOfDigits(d[1..], tail);
      assert [d[0]] + d[1..] == d;
    } else {
      assert d + tail == tail;
    }
  }

  /** JavaScript `parseInt(s)` on decimal text: leading whitespace, an
      optional sign, then the longest run of digits; `None` stands for
      `NaN`. Called without a radix, `parseInt` reads a "0x" prefix as
      hexadecimal; that case is not modelled, since the callers' number
      inputs never produce it. */
  function ParseIntPrefix(s: string): (r: Option<int>)
    ensures r.None? <==> |DigitPrefix(AfterSign(DropStart(s, IsSpace)))| == 0
  {
    var t := DropStart(s, IsSpace);
    var digits := DigitPrefix(AfterSign(t));
    if |digits| == 0 then None
    else if |t| > 0 && t[0] == '-' then Some(0 - DigitsValue(digits))
    else Some(DigitsValue(digits))
  }

  function AfterSign(t: string): string {
    if |t| > 0 && (t[0] == '-' || t[0] == '+') then t[1..] else t
  }

  /** `parseInt` reads back the number at the head of a text that starts
      with `String(c)` and continues with a non-digit. */
  lemma {:induction false} ParseIntPrefixOfIntToString(c: int, tail: string)
    requires |tail| > 0 ==> !IsDigit(tail[0])
    ensures ParseIntPrefix(IntToString(c) + tail) == Some(c)
  {
    var s := IntToString(c) + tail;
    assert s[0] == IntToString(c)[0];
    DropStartStops(s, IsSpace);
    var n: nat := if c < 0 then -c else c;
    DigitsValueOfNatToString(n);
    NatAfterSign(c, tail);
    DigitPrefixOfDigits(NatToString(n), tail);
  }

  lemma {:induction false} NatAfterSign(c: int, tail: string)
    ensures AfterSign(IntToString(c) + tail) == NatToString(if c < 0 then -c else c) + tail
  {
    var d := NatToString(if c < 0 then -c else c);
    var s := IntToString(c) + tail;
    if c < 0 {
      assert s == "-" + (d + tail);
      assert s[0] == '-' && s[1..] == d + tail;
    } else {
      assert s == d + tail;
      assert s[0] == d[0] && IsDigit(d[0]);
    }
  }

  // ---------------------------------------------------------------------
  // Python split and slicing
  // ---------------------------------------------------------------------

  /** The index of the first occurrence of `c` in `s`. */
  function FirstIndex(s: string, c: char): (i: nat)
    requires c in s
    ensures i < |s| && s[i] == c && c !in s[..i]
  {
    if s[0] == c then 0 else
      var j := FirstIndex(s[1..], c);
      assert s[..j + 1] == [s[0]] + s[1..][..j];
      j + 1
  }

  /** Joins the parts with `c` between consecutive parts. */
  function JoinWith(parts: seq<string>, c: char): string
    requires |parts| >= 1
  {
    if |parts| == 1 then parts[0] else parts[0] + [c] + JoinWith(parts[1..], c)
  }

  /** Python `s.split(c)`: the pieces between occurrences of `c`. */
  function SplitOn(s: string, c: char): (parts: seq<string>)
    ensures |parts| >= 1
    ensures forall k :: 0 <= k < |parts| ==> c !in parts[k]
    ensures JoinWith(parts, c) == s
    decreases |s|
  {
    if c !in s then [s]
    else
      var i := FirstIndex(s, c);
      var rest := SplitOn(s[i + 1..], c);
      assert s == s[..i] + [c] + s[i + 1..];
      [s[..i]] + rest
  }

  /** Splitting `a c b`, where neither side contains `c`, gives exactly
      the two sides. */
  lemma {:induction false} SplitTwo(a: string, b: string, c: char)
    requires c !in a && c !in b
    ensures SplitOn(a + [c] + b, c) == [a, b]
  {
    var s := a + [c] + b;
    assert s[|a|] == c;
    var i := FirstIndex(s, c);
    assert i == |a|;
    assert s[..i] == a;
    assert s[i + 1..] == b;
  }

  /** Python's normalisation of a slice bound against a length. */
  function SliceBound(i: int, n: nat): (b: nat)
    ensures b <= n
  {
    if i < 0 then (if i + n < 0 then 0 else i + n) else (if i > n then n else i)
  }

  /** Python `s[start:stop]`, negative bounds counting from the end and
      out-of-range bounds clamped; an empty range gives "". */
  function PySlice(s: string, start: int, stop: int): (r: string)
    ensures var lo := SliceBound(start, |s|); var hi := SliceBound(stop, |s|);
            if lo < hi then r == s[lo..hi] else r == []
  {
    var lo := SliceBound(start, |s|);
    var hi := SliceBound(stop, |s|);
    if lo < hi then s[lo..hi] else []
  }
}

=== FILE: wrappers.dfy ===
/** Failure-carrying result types shared by every module of the model. */
module Wrappers {

  /** A value that may be absent: JavaScript `null`/`undefined`, Python `None`. */
  datatype Option<+T> = None | Some(value: T)

  /** The outcome of an operation that either succeeds with a value or fails
      with an error (an HTTP status, an exception). */
  datatype Result<+T, +E> = Ok(value: T) | Err(error: E)

  /** A key of a JSON request body as Python's `dict.get` sees it: missing,
      present but `null` (or of a type the code cannot use), or present
      with a value. */
  datatype Field<+T> = Absent | Null | Given(value: T)
}
